=== FILE: README.md ===
# alchemy-rest-client-generator, modelled in Dafny

This project models the core of alchemy-rest-client-generator. That Java library
builds JAX-RS clients from annotated service interfaces. It also carries
server-side exceptions back to the client as typed exceptions, and an Ant task
that writes client stub interfaces. Four pieces are modelled:

- **Request assembly** (`ClientFactory`, in `client_factory.dfy`). This is the
  invocation handler of `AlchemyRestClientFactory`. For one call it builds:
  - the URI path (base, interface path, method path, matrix parameters and
    path-template values);
  - the query pairs, headers and cookies;
  - the single request body: an unannotated argument, a URL-encoded form, or a
    `multipart/form-data` entity with file, stream and field parts;
  - the verb and whether an entity is sent.

  Only an HTTP 500 is handed to the error decoder.
- **The interface analyzer** (`Analyzer`, `Metadata`, `LinkedMap`).
  - `analyzeMethod` folds a method's annotations into a descriptor.
  - `doAnalyze` folds the class annotations and keeps the public methods that
    carry a verb, in an insertion-ordered map.
  - `analyze` memoizes per class in a cache field. The analyzer is a class
    whose cache is a `map` field.
- **The error codec** (`ErrorModel`, `ErrorCodec`). It covers:
  - the server-side encoder `ThrowableToResponseMapper`, with the
    `ExceptionPayload` envelope and the masking of cause, stack trace and
    suppressed exceptions;
  - the client-side decoder chain `ResponseToThrowableMapper` and
    `ExceptionPayloadDeserializer`;
  - the status-to-exception table of `ResponseToJaxRsExceptionMapper`.

  JSON is a `Json` datatype. Jackson is a record holding a parser, a writer and
  a registry of exception classes.
- **Stub generation** (`StubGenerator`, `ProxyGenerator`).
  - `ServiceStubGenerator` turns a descriptor into a stub declaration, with its
    methods sorted in place by signature.
  - It is proved that analyzing the compiled stub gives back the descriptor
    (`StubGenerator.StubRoundTrip`).
  - The Ant task `RestProxyGenerator` covers stub and proxy names, the
    include/exclude pattern lists, the package folder, validation of the output
    directory, and the order stubs → proxies → module.

Java `null` is `Option.None`. `StringUtils.isBlank` is `Common.IsBlank`, using
the `Character.isWhitespace` set. A `LinkedHashMap` is a sequence of pairs:
`put` keeps the first position of a key, and the later value wins.

Sources are cited relative to the repository root.

## Model

| member | source | states |
|---|---|---|
| LinkedMap.Get | src/main/java/com/strandls/alchemy/rest/client/RestInterfaceAnalyzer.java:166-167 | a lookup finds nothing exactly when the key is not among the keys, and what it finds is stored under that key |
| LinkedMap.Put | src/main/java/com/strandls/alchemy/rest/client/RestInterfaceAnalyzer.java:181 | a put grows the map by one exactly when the key is new |
| LinkedMap.PutGet | src/main/java/com/strandls/alchemy/rest/client/RestInterfaceAnalyzer.java:181 | after a put, the key maps to the new value |
| LinkedMap.PutOther | src/main/java/com/strandls/alchemy/rest/client/RestInterfaceAnalyzer.java:181 | a put leaves every other key's value unchanged |
| LinkedMap.PutKeys | src/main/java/com/strandls/alchemy/rest/client/RestInterfaceAnalyzer.java:166-181 | insertion order: a new key is appended, and an existing key keeps its position |
| LinkedMap.PutDistinct | src/main/java/com/strandls/alchemy/rest/client/RestInterfaceAnalyzer.java:181 | keys stay distinct under put |
| LinkedMap.PutMembers | src/main/java/com/strandls/alchemy/rest/client/RestInterfaceAnalyzer.java:181 | every entry after a put was there before or is the new entry |
| Metadata.NewRestMethodMetadata | src/main/java/com/strandls/alchemy/rest/client/RestMethodMetadata.java:34-67 | construction succeeds exactly when verb, produced, consumed and parameter annotations are non-null (the path may be null); a null verb is reported first |
| Metadata.NewRestInterfaceMetadata | src/main/java/com/strandls/alchemy/rest/client/RestInterfaceMetadata.java:33-56 | construction succeeds exactly when produced, consumed and the method map are non-null (the path may be null); a null produced list is reported first |
| Analyzer.DeclaredMediaTypesAppend | src/main/java/com/strandls/alchemy/rest/client/RestInterfaceAnalyzer.java:118-123 | media types accumulate in annotation order |
| Analyzer.AnalyzeMethod | src/main/java/com/strandls/alchemy/rest/client/RestInterfaceAnalyzer.java:100-133 | the annotation loop computes the descriptor that `AnalyzeMethodMeaning` characterises |
| Analyzer.ScanMethodNoVerb | src/main/java/com/strandls/alchemy/rest/client/RestInterfaceAnalyzer.java:102-117 | no verb is found exactly when no verb annotation occurs |
| Analyzer.ScanMethodLastVerb | src/main/java/com/strandls/alchemy/rest/client/RestInterfaceAnalyzer.java:110-117 | the last verb annotation wins |
| Analyzer.ScanMethodNoPath | src/main/java/com/strandls/alchemy/rest/client/RestInterfaceAnalyzer.java:101 | without `@Path` the method path is the empty string |
| Analyzer.ScanMethodLastPath | src/main/java/com/strandls/alchemy/rest/client/RestInterfaceAnalyzer.java:108-109 | the last `@Path` wins |
| Analyzer.ScanMethodMediaTypes | src/main/java/com/strandls/alchemy/rest/client/RestInterfaceAnalyzer.java:118-124 | produced and consumed are the declared media types of all annotations, in order |
| Analyzer.AnalyzeMethodMeaning | src/main/java/com/strandls/alchemy/rest/client/RestInterfaceAnalyzer.java:100-133 | no descriptor exactly when the method has no verb; otherwise the path is never null and defaults to "", the media types are in declaration order, and the parameter annotations are kept |
| Analyzer.DoAnalyze | src/main/java/com/strandls/alchemy/rest/client/RestInterfaceAnalyzer.java:144-191 | the class and method loops compute the result that `DoAnalyzeMeaning` characterises |
| Analyzer.MethodMapEmpty | src/main/java/com/strandls/alchemy/rest/client/RestInterfaceAnalyzer.java:178-185 | the method map is empty exactly when no public method has a verb |
| Analyzer.MethodMapGet | src/main/java/com/strandls/alchemy/rest/client/RestInterfaceAnalyzer.java:178-183 | a method maps to its descriptor exactly when it is a scanned public method with a verb |
| Analyzer.QualifyingMethodsAppend | src/main/java/com/strandls/alchemy/rest/client/RestInterfaceAnalyzer.java:178-183 | the qualifying methods are kept in discovery order |
| Analyzer.MethodMapMembers | src/main/java/com/strandls/alchemy/rest/client/RestInterfaceAnalyzer.java:178-183 | every entry pairs a scanned qualifying method with its own descriptor |
| Analyzer.MethodMapKeys | src/main/java/com/strandls/alchemy/rest/client/RestInterfaceAnalyzer.java:166-183 | the map's keys are the qualifying methods in discovery order |
| Analyzer.ScanClassNoPath | src/main/java/com/strandls/alchemy/rest/client/RestInterfaceAnalyzer.java:148 | without `@Path` the interface path is null |
| Analyzer.ScanClassLastPath | src/main/java/com/strandls/alchemy/rest/client/RestInterfaceAnalyzer.java:153-154 | the last class-level `@Path` wins |
| Analyzer.ScanClassMediaTypes | src/main/java/com/strandls/alchemy/rest/client/RestInterfaceAnalyzer.java:152-164 | class-level media types accumulate in annotation order |
| Analyzer.DoAnalyzeMeaning | src/main/java/com/strandls/alchemy/rest/client/RestInterfaceAnalyzer.java:144-191 | fails with NotRestInterface(class) exactly when no method qualifies; otherwise gives the class media types, a null path without `@Path`, and a method map holding exactly the qualifying methods' descriptors |
| Analyzer.RestInterfaceAnalyzer.constructor | src/main/java/com/strandls/alchemy/rest/client/RestInterfaceAnalyzer.java:63-72 | starts with an empty cache |
| Analyzer.RestInterfaceAnalyzer.Analyze | src/main/java/com/strandls/alchemy/rest/client/RestInterfaceAnalyzer.java:81-91 | returns what `doAnalyze` gives; a cached class is answered without loading; a miss loads once and caches only a success; the NotRestInterface error comes back as itself |
| Analyzer.AnalyzersAgree | src/main/java/com/strandls/alchemy/rest/client/RestInterfaceAnalyzer.java:63-91 | two analyzers, and a second call on one, give equal results; analysis succeeds exactly when some method qualifies |
| ErrorModel.MaskedThrowableJson | src/main/java/com/strandls/alchemy/rest/client/exception/ThrowableMaskMixin.java:28-37 | for a masked type the JSON holds the message and the own properties, and never cause, stackTrace or suppressed; it exists exactly when the own properties serialise |
| ErrorModel.UnmaskedThrowableJson | src/main/java/com/strandls/alchemy/rest/client/exception/ThrowableMaskMixin.java:28-37 | a type the mixin is not registered for does write cause, stack trace and suppressed list, with one element per stack frame and per suppressed exception |
| ErrorModel.PayloadOf | src/main/java/com/strandls/alchemy/rest/client/exception/ExceptionPayload.java:53-57 | the envelope records the throwable's class name, its message and the throwable itself |
| ErrorModel.EmptyPayload | src/main/java/com/strandls/alchemy/rest/client/exception/ExceptionPayload.java:62-65 | the no-argument envelope is all null |
| ErrorModel.BindMaskedJson | src/main/java/com/strandls/alchemy/rest/client/exception/ExceptionPayloadDeserializer.java:64-69 | binding the masked JSON to the same class rebuilds the throwable with its own properties, with no cause, stack trace or suppressed list, and with its message when the class takes one |
| ErrorCodec.StatusKind | src/main/java/com/strandls/alchemy/rest/client/exception/ResponseToJaxRsExceptionMapper.java:60-131 | the chosen kind admits the status, and it is the generic `WebApplicationException` exactly outside 300-599 |
| ErrorCodec.StatusKindTable | src/main/java/com/strandls/alchemy/rest/client/exception/ResponseToJaxRsExceptionMapper.java:55-131 | the kind always admits the status; the nine listed codes get their own kinds and every other code goes by its status class, with a generic exception outside 3xx-5xx |
| ErrorCodec.ResponseToJaxRs | src/main/java/com/strandls/alchemy/rest/client/exception/ResponseToJaxRsExceptionMapper.java:55-103 | never throws: a construction failure gives ProcessingException; otherwise the exception carries the input response and the kind of the status table (`StatusKind`, characterised by `StatusKindTable`), which admits the status and is never the generic kind for a 3xx-5xx status |
| ErrorCodec.Deserialize | src/main/java/com/strandls/alchemy/rest/client/exception/ExceptionPayloadDeserializer.java:53-76 | the corrected decoder always yields an exception, carries the wire message, and names the class of the exception it holds |
| ErrorCodec.DeserializeAsWritten | src/main/java/com/strandls/alchemy/rest/client/exception/ExceptionPayloadDeserializer.java:53-76 | the decoder as written can only escape with a NullPointerException; when it returns, it holds an exception and the wire message |
| ErrorCodec.DeserializeMeaning | src/main/java/com/strandls/alchemy/rest/client/exception/ExceptionPayloadDeserializer.java:53-76 | the payload's message is the wire message and its class is the rebuilt exception's class; a failed rebuild gives InternalServerErrorException (500) carrying the wire message |
| ErrorCodec.DeserializeAsWrittenAgrees | src/main/java/com/strandls/alchemy/rest/client/exception/ExceptionPayloadDeserializer.java:64-75 | the code as written agrees with the corrected decoder except exactly when a known class comes with an `"exception": null` subtree |
| ErrorCodec.NullExceptionSubtreeEscapes | src/main/java/com/strandls/alchemy/rest/client/exception/ExceptionPayloadDeserializer.java:69-75 | the null subtree makes line 75 throw a NullPointerException outside the try block |
| ErrorCodec.ReadPayloadAsWritten | src/main/java/com/strandls/alchemy/rest/client/exception/ResponseToThrowableMapper.java:80-83 | a payload read from a body always carries an exception |
| ErrorCodec.GetMessage | src/main/java/com/strandls/alchemy/rest/client/exception/ResponseToThrowableMapper.java:101-114 | a message is found exactly when the body parses to an object with the key `exceptionMessage` |
| ErrorCodec.GetMessageNullValue | src/main/java/com/strandls/alchemy/rest/client/exception/ResponseToThrowableMapper.java:107-108 | a present key with a null value still counts, as the empty string |
| ErrorCodec.ResponseToThrowable | src/main/java/com/strandls/alchemy/rest/client/exception/ResponseToThrowableMapper.java:69-93 | the corrected chain sends an unreadable body to the status mapper with the response itself, and a message-only exception keeps the response status |
| ErrorCodec.ResponseToThrowableAsWritten | src/main/java/com/strandls/alchemy/rest/client/exception/ResponseToThrowableMapper.java:69-93 | the chain as written escapes only with a ClassCastException or NullPointerException, and only when there is a body; a status-mapped or message-only result uses the response itself |
| ErrorCodec.ResponseToThrowableOrder | src/main/java/com/strandls/alchemy/rest/client/exception/ResponseToThrowableMapper.java:69-93 | fallback order: an unreadable body goes to the status mapper; a payload gives its exception, which happens exactly when the body is a JSON object; otherwise the status mapper; the message-only branch is never taken |
| ErrorCodec.ReadPayloadMeaning | src/main/java/com/strandls/alchemy/rest/client/exception/ResponseToThrowableMapper.java:80-89 | a body reads as a payload exactly when it is a JSON object; any body where a message is found also reads as a payload |
| ErrorCodec.ResponseToThrowableAsWrittenAgrees | src/main/java/com/strandls/alchemy/rest/client/exception/ResponseToThrowableMapper.java:80-84 | the code as written agrees with the corrected chain except exactly when the body is JSON that is not an object, or the deserializer escapes |
| ErrorCodec.NonObjectBodyEscapes | src/main/java/com/strandls/alchemy/rest/client/exception/ResponseToThrowableMapper.java:80-84 | the bodies `42` and `null` escape as ClassCastException and NullPointerException, where the corrected chain falls back to the status mapper |
| ErrorCodec.ThrowableToResponse | src/main/java/com/strandls/alchemy/rest/client/exception/ThrowableToResponseMapper.java:58-73 | a serialisable payload leaves with the throwable's status (its own response status, else 500) and a body; otherwise the response is 500 with the plain message |
| ErrorCodec.ThrowableToResponseAsWritten | src/main/java/com/strandls/alchemy/rest/client/exception/ThrowableToResponseMapper.java:58-73 | the encoder as written throws IllegalArgumentException exactly when the status is not in the `Status` enum; otherwise the response has the throwable's status, or is 500 with the plain message |
| ErrorCodec.ThrowableToResponseAsWrittenAgrees | src/main/java/com/strandls/alchemy/rest/client/exception/ThrowableToResponseMapper.java:62-68 | the code as written agrees with the corrected encoder except exactly when the status is not in the `Status` enum |
| ErrorCodec.UnprocessableEntityEscapes | src/main/java/com/strandls/alchemy/rest/client/exception/ThrowableToResponseMapper.java:62-68 | status 422 makes the encoder throw IllegalArgumentException |
| ErrorCodec.RoundTrip | src/main/java/com/strandls/alchemy/rest/client/exception/ThrowableToResponseMapper.java:58-68 | encoding then decoding keeps the status and rebuilds the same class with the same properties, with cause, stack trace and suppressed list removed |
| ErrorCodec.GenericFailureCrosses | src/test/java/com/strandls/alchemy/rest/client/AlchemyRestClientFactoryTest.java:228-250 | a generic exception crosses with status 500, its class and message, no cause and no suppressed exceptions |
| ErrorCodec.CustomFailureCrosses | src/test/java/com/strandls/alchemy/rest/client/AlchemyRestClientFactoryTest.java:268-284 | the custom exception crosses as its own type, with statusCode 10, no cause and no suppressed exceptions |
| ClientFactory.BindingsMembership | src/main/java/com/strandls/alchemy/rest/client/AlchemyRestClientFactory.java:242-251 | the scanned (annotation, argument) pairs are exactly those of parameters with an annotation array |
| ClientFactory.CollectMembership | src/main/java/com/strandls/alchemy/rest/client/AlchemyRestClientFactory.java:219-274 | an item is collected exactly when one binding contributes it |
| ClientFactory.AddPathParameter | src/main/java/com/strandls/alchemy/rest/client/AlchemyRestClientFactory.java:146-163 | the inner loop of `getPath` extends the matrix list and the template map by exactly one parameter's bindings |
| ClientFactory.ScanPathParameters | src/main/java/com/strandls/alchemy/rest/client/AlchemyRestClientFactory.java:140-164 | the outer loop of `getPath` gives the matrix pairs and template values of the parameters below both the annotation count and the argument count |
| ClientFactory.GetPath | src/main/java/com/strandls/alchemy/rest/client/AlchemyRestClientFactory.java:128-167 | the path is the base, then the interface path and the method path each only when non-blank, then the matrix pairs and template values of the parameters below both counts |
| ClientFactory.MatrixParamsMeaning | src/main/java/com/strandls/alchemy/rest/client/AlchemyRestClientFactory.java:142-159 | a (name, values) pair is a matrix parameter exactly when a scanned parameter carries that `@MatrixParam` and its argument gives those values (the elements of an array or collection, else the argument itself) |
| ClientFactory.TemplateValuesUnbound | src/main/java/com/strandls/alchemy/rest/client/AlchemyRestClientFactory.java:160-161 | a template name that no scanned `@PathParam` carries has no value |
| ClientFactory.TemplateValuesMeaning | src/main/java/com/strandls/alchemy/rest/client/AlchemyRestClientFactory.java:160-161 | a template name takes the argument of its last `@PathParam` in scanning order |
| ClientFactory.CollectBindingsMembership | src/main/java/com/strandls/alchemy/rest/client/AlchemyRestClientFactory.java:242-274 | collecting over the bindings picks up exactly the items contributed by one annotation of one scanned parameter |
| ClientFactory.ToEntity | src/main/java/com/strandls/alchemy/rest/client/AlchemyRestClientFactory.java:407-414 | the entity keeps the object; a multipart object uses its own media type, otherwise the given non-blank type is used, and a blank type gives `*/*` |
| ClientFactory.BodyArgumentNone | src/main/java/com/strandls/alchemy/rest/client/AlchemyRestClientFactory.java:202-217 | there is no body exactly when every argument has annotations |
| ClientFactory.BodyArgumentLast | src/main/java/com/strandls/alchemy/rest/client/AlchemyRestClientFactory.java:202-217 | the last unannotated argument, or the last one past the annotation array, is the body |
| ClientFactory.AddQueryParameters | src/main/java/com/strandls/alchemy/rest/client/AlchemyRestClientFactory.java:219-224 | query pairs are appended in annotation order for one argument |
| ClientFactory.AddRequestParameters | src/main/java/com/strandls/alchemy/rest/client/AlchemyRestClientFactory.java:250-274 | cookies, headers and form fields are appended in annotation order for one argument |
| ClientFactory.AddFormDataParameter | src/main/java/com/strandls/alchemy/rest/client/AlchemyRestClientFactory.java:351-370 | the inner loop over one parameter extends the first-pass state by all of its bindings, in annotation order |
| ClientFactory.AddStreamParts | src/main/java/com/strandls/alchemy/rest/client/AlchemyRestClientFactory.java:374-392 | the fixed parts stay first, then one stream part per stream name, named after the disposition's file name or else the parameter name |
| ClientFactory.AddFormDataAnnotation | src/main/java/com/strandls/alchemy/rest/client/AlchemyRestClientFactory.java:351-370 | a `@FormDataParam` creates the multipart; a file becomes a file part, a stream and a disposition are indexed by name (a later one replacing an earlier one), and anything else becomes a text field |
| ClientFactory.ScanFormDataArgument | src/main/java/com/strandls/alchemy/rest/client/AlchemyRestClientFactory.java:345-349 | an argument past the annotation array is skipped; otherwise its annotations are scanned |
| ClientFactory.ScanFormDataParams | src/main/java/com/strandls/alchemy/rest/client/AlchemyRestClientFactory.java:345-372 | the argument loop collects the fixed parts, streams and dispositions of all bindings |
| ClientFactory.ProcessFormDataParams | src/main/java/com/strandls/alchemy/rest/client/AlchemyRestClientFactory.java:336-395 | no `@FormDataParam` means no multipart entity; otherwise the fixed parts are followed by the stream parts |
| ClientFactory.EntityChoice | src/main/java/com/strandls/alchemy/rest/client/AlchemyRestClientFactory.java:197-300 | a multipart entity replaces everything; otherwise a non-empty form gives a URL-encoded form entity; otherwise the body argument, typed with the first consumed type or `*/*`, or no entity |
| ClientFactory.ScanQueryAndBodyArgument | src/main/java/com/strandls/alchemy/rest/client/AlchemyRestClientFactory.java:202-227 | an unannotated argument becomes the body, and an annotated one adds its query pairs |
| ClientFactory.ScanQueryAndBody | src/main/java/com/strandls/alchemy/rest/client/AlchemyRestClientFactory.java:202-227 | the first argument loop gives every query pair in order and the last body argument |
| ClientFactory.ScanRequestParams | src/main/java/com/strandls/alchemy/rest/client/AlchemyRestClientFactory.java:242-275 | the second argument loop gives every cookie, header and form field in order |
| ClientFactory.Invoke | src/main/java/com/strandls/alchemy/rest/client/AlchemyRestClientFactory.java:177-318 | a method without a descriptor fails with NotRestMethod before anything is built; a method with one yields a request unless assertions are enabled and a form or multipart `assert` fails, which is the only other failure; the request is the one assembled from path, query, accept types, headers, cookies and dispatch, with a multipart entity valid for the arguments |
| ClientFactory.HandleFailure | src/main/java/com/strandls/alchemy/rest/client/AlchemyRestClientFactory.java:319-321 | only an InternalServerErrorException is decoded by the response mapper, with a missing body going to the status table and a body read by the response mapper's fallback chain; any other exception propagates unchanged |
| ClientFactory.RequestEntityMeaning | src/main/java/com/strandls/alchemy/rest/client/AlchemyRestClientFactory.java:277-318 | GET and DELETE send no entity; a form or multipart request is a POST with that entity; PUT and POST send the resolved entity, which may be absent |
| ClientFactory.RequestQueryMeaning | src/main/java/com/strandls/alchemy/rest/client/AlchemyRestClientFactory.java:219-224 | a (key, value) pair is in the query exactly when some argument carries `@QueryParam(key)` and stringifies to value |
| ClientFactory.RequestHeaderMeaning | src/main/java/com/strandls/alchemy/rest/client/AlchemyRestClientFactory.java:262-266 | a header is sent exactly when some argument carries `@HeaderParam(key)` and stringifies to value |
| ClientFactory.RequestCookieMeaning | src/main/java/com/strandls/alchemy/rest/client/AlchemyRestClientFactory.java:251-261 | a cookie is sent exactly when some `@CookieParam` argument is that cookie, or wraps its string under the annotation's name |
| ClientFactory.ServerFailureReachesCaller | src/main/java/com/strandls/alchemy/rest/client/AlchemyRestClientFactory.java:320-321 | a server failure with status 500 reaches the caller as the rebuilt exception; any other status propagates as the client library raised it |
| StubGenerator.NatToString | src/main/java/com/strandls/alchemy/rest/client/stubgenerator/ServiceStubGenerator.java:181 | the index is written as a non-empty string of decimal digits |
| StubGenerator.DecimalRoundTrip | src/main/java/com/strandls/alchemy/rest/client/stubgenerator/ServiceStubGenerator.java:181 | reading the digits back gives the index |
| StubGenerator.ArgNamesDistinct | src/main/java/com/strandls/alchemy/rest/client/stubgenerator/ServiceStubGenerator.java:181 | different parameters get different `argN` names |
| StubGenerator.StrLeTotal | src/main/java/com/strandls/alchemy/rest/client/stubgenerator/ServiceStubGenerator.java:267 | the string order used for sorting is total |
| StubGenerator.StrLeTransitive | src/main/java/com/strandls/alchemy/rest/client/stubgenerator/ServiceStubGenerator.java:267 | the string order is transitive |
| StubGenerator.StrLeAntisymmetric | src/main/java/com/strandls/alchemy/rest/client/stubgenerator/ServiceStubGenerator.java:267 | the string order is antisymmetric |
| StubGenerator.CopyAnnotationRoundTrip | src/main/java/com/strandls/alchemy/rest/client/stubgenerator/ServiceStubGenerator.java:184-190 | a copied parameter annotation, with its `value` when it has one, reads back as the original |
| StubGenerator.CopyAnnotations | src/main/java/com/strandls/alchemy/rest/client/stubgenerator/ServiceStubGenerator.java:184-190 | each annotation is copied in place, in order |
| StubGenerator.ReadAnnotations | src/main/java/com/strandls/alchemy/rest/client/stubgenerator/ServiceStubGenerator.java:184-190 | each written annotation is read back in place, in order |
| StubGenerator.StubMethods | src/main/java/com/strandls/alchemy/rest/client/stubgenerator/ServiceStubGenerator.java:272-277 | one stub method per entry, in entry order |
| StubGenerator.SortBySignature | src/main/java/com/strandls/alchemy/rest/client/stubgenerator/ServiceStubGenerator.java:258-269 | sorts the entries in place into ascending signature order, as a permutation |
| StubGenerator.InsertLast | src/main/java/com/strandls/alchemy/rest/client/stubgenerator/ServiceStubGenerator.java:262-269 | one insertion step extends the sorted prefix by one and permutes the array |
| StubGenerator.AddMethod | src/main/java/com/strandls/alchemy/rest/client/stubgenerator/ServiceStubGenerator.java:135-193 | the stub method is public, declares the original's exceptions, carries Path (only when non-blank), Produces and Consumes (only when non-empty) and the verb, and names parameter i `arg<i>` with its annotations copied |
| StubGenerator.GenerateStubInterface | src/main/java/com/strandls/alchemy/rest/client/stubgenerator/ServiceStubGenerator.java:236-280 | a non-REST class fails as the analyzer fails; otherwise the stub has the interface annotations, the doc line, and the analyzed methods in signature order |
| StubGenerator.DeclaredMediaTypesConcat | src/main/java/com/strandls/alchemy/rest/client/RestInterfaceAnalyzer.java:118-123 | media types of concatenated annotation lists concatenate |
| StubGenerator.MethodPathRoundTrip | src/main/java/com/strandls/alchemy/rest/client/stubgenerator/ServiceStubGenerator.java:152-153 | the `@Path` written on a stub method reads back as the descriptor path, or "" when that is blank |
| StubGenerator.MethodMediaTypesRoundTrip | src/main/java/com/strandls/alchemy/rest/client/stubgenerator/ServiceStubGenerator.java:155-158 | the `@Produces` and `@Consumes` written on a stub method read back as the descriptor media types |
| StubGenerator.MethodAnnotationsRoundTrip | src/main/java/com/strandls/alchemy/rest/client/stubgenerator/ServiceStubGenerator.java:152-172 | analyzing the written method annotations gives back the path (blank read as ""), the verb and both media-type lists |
| StubGenerator.MediaTypesOfParts | src/main/java/com/strandls/alchemy/rest/client/stubgenerator/ServiceStubGenerator.java:152-158 | Path and verb annotations contribute no media types |
| StubGenerator.StubMethodRoundTrip | src/main/java/com/strandls/alchemy/rest/client/stubgenerator/ServiceStubGenerator.java:135-193 | the compiled stub method keeps the name, parameter types and exceptions, is public, and analyzes to the original descriptor (with the path normalised) |
| StubGenerator.InterfacePathRoundTrip | src/main/java/com/strandls/alchemy/rest/client/stubgenerator/ServiceStubGenerator.java:244-245 | the `@Path` written on the stub interface reads back as the service path, or null when that is blank |
| StubGenerator.InterfaceAnnotationsRoundTrip | src/main/java/com/strandls/alchemy/rest/client/stubgenerator/ServiceStubGenerator.java:244-253 | analyzing the written interface annotations gives back the path (null when blank) and both media-type lists |
| StubGenerator.StubEntryRoundTrip | src/main/java/com/strandls/alchemy/rest/client/stubgenerator/ServiceStubGenerator.java:272-277 | each analyzed entry's stub method qualifies and analyzes to its descriptor |
| StubGenerator.StubRoundTrip | src/main/java/com/strandls/alchemy/rest/client/stubgenerator/ServiceStubGenerator.java:236-280 | analyzing the compiled stub succeeds, with the same media types, the path (null when blank), and every stub method mapped to the original method's descriptor |
| ProxyGenerator.StubClassName | src/main/java/com/strandls/alchemy/rest/client/stubgenerator/RestProxyGenerator.java:283-285 | the stub name starts with the simple name, followed by the suffix when that is non-blank; it is just the simple name otherwise |
| ProxyGenerator.ProxyName | src/main/java/com/strandls/alchemy/rest/client/stubgenerator/RestProxyGenerator.java:272-274 | the proxy name is the stub name followed by `Proxy` |
| ProxyGenerator.StubNamesDistinct | src/main/java/com/strandls/alchemy/rest/client/stubgenerator/RestProxyGenerator.java:272-285 | different simple names give different stub and proxy names |
| ProxyGenerator.SplitPatterns | src/main/java/com/strandls/alchemy/rest/client/stubgenerator/RestProxyGenerator.java:176 | a string without a comma is its own single pattern; otherwise there are at most as many patterns as comma-separated pieces, and trailing empty ones are dropped |
| ProxyGenerator.SplitPatternsNoComma | src/main/java/com/strandls/alchemy/rest/client/stubgenerator/RestProxyGenerator.java:176 | no pattern split from the list contains a comma |
| ProxyGenerator.RawPiecesJoin | src/main/java/com/strandls/alchemy/rest/client/stubgenerator/RestProxyGenerator.java:176 | splitting at commas gives back the joined pieces |
| ProxyGenerator.SplitJoin | src/main/java/com/strandls/alchemy/rest/client/stubgenerator/RestProxyGenerator.java:176 | splitting a comma-separated list of plain patterns gives the patterns back in order |
| ProxyGenerator.EmptyPatternList | src/main/java/com/strandls/alchemy/rest/client/stubgenerator/RestProxyGenerator.java:163-180 | an empty list is the single empty pattern, so it matches only what the empty regex matches |
| ProxyGenerator.MatchPatterns | src/main/java/com/strandls/alchemy/rest/client/stubgenerator/RestProxyGenerator.java:176-180 | the loop over the split patterns answers whether one of them matches the name |
| ProxyGenerator.DoesMatch | src/main/java/com/strandls/alchemy/rest/client/stubgenerator/RestProxyGenerator.java:173-181 | the loop answers whether the list is non-null and one of its patterns matches the name |
| ProxyGenerator.AnyMatchJoin | src/main/java/com/strandls/alchemy/rest/client/stubgenerator/RestProxyGenerator.java:173-181 | for a written list, a match is a match of one listed pattern |
| ProxyGenerator.RawPiecesPadded | src/main/java/com/strandls/alchemy/rest/client/stubgenerator/RestProxyGenerator.java:176 | the commas of a list with white space around them cut it into the patterns, each with the white space next to its commas |
| ProxyGenerator.SplitJoinPadded | src/main/java/com/strandls/alchemy/rest/client/stubgenerator/RestProxyGenerator.java:176 | splitting a list of plain patterns with any white space around its commas gives each pattern back stripped, in order |
| ProxyGenerator.RawPiecesEnds | src/main/java/com/strandls/alchemy/rest/client/stubgenerator/RestProxyGenerator.java:176 | with white space also at the two ends of the whole list, the commas cut it into the padded pieces, the leading space on the first and the trailing space on the last |
| ProxyGenerator.SplitPaddedEnds | src/main/java/com/strandls/alchemy/rest/client/stubgenerator/RestProxyGenerator.java:176 | white space at the two ends of the whole list is not a separator and is not stripped: it stays on the first and the last pattern (on the one pattern of a list without a comma), and the patterns between come back stripped |
| ProxyGenerator.AnyMatchJoinPadded | src/main/java/com/strandls/alchemy/rest/client/stubgenerator/RestProxyGenerator.java:173-181 | for a list with white space around its commas, a match is a match of one listed pattern |
| ProxyGenerator.FindServiceClasses | src/main/java/com/strandls/alchemy/rest/client/stubgenerator/RestProxyGenerator.java:150-157 | only scanned `@Path` types matching an include pattern are selected, and a null include list selects nothing |
| ProxyGenerator.SelectionMeaning | src/main/java/com/strandls/alchemy/rest/client/stubgenerator/RestProxyGenerator.java:150-157 | a type is selected exactly when it is a scanned `@Path` type that some include pattern matches and no exclude pattern matches; the lists may have white space around their commas, and a null exclude list (the default) excludes nothing |
| ProxyGenerator.Mkdirs | src/main/java/com/strandls/alchemy/rest/client/stubgenerator/RestProxyGenerator.java:301 | `mkdirs` succeeds only where nothing exists, and then adds the directory |
| ProxyGenerator.Validate | src/main/java/com/strandls/alchemy/rest/client/stubgenerator/RestProxyGenerator.java:307-316 | fails exactly for a null directory, an existing non-directory, or a missing directory that cannot be created; the first two are reported as invalid; on success the directory exists |
| ProxyGenerator.ReplaceDots | src/main/java/com/strandls/alchemy/rest/client/stubgenerator/RestProxyGenerator.java:291-293 | with a one-character replacement each dot becomes that character and everything else is kept |
| ProxyGenerator.PackageFolder | src/main/java/com/strandls/alchemy/rest/client/stubgenerator/RestProxyGenerator.java:291-293 | a blank package gives no folder; otherwise the package with its dots replaced by the separator, which is not blank |
| ProxyGenerator.ReplaceDotsNoDot | src/main/java/com/strandls/alchemy/rest/client/stubgenerator/RestProxyGenerator.java:291-293 | a package without dots is its own folder |
| ProxyGenerator.PackageFolderAsWritten | src/main/java/com/strandls/alchemy/rest/client/stubgenerator/RestProxyGenerator.java:291-293 | a blank package gives no folder; the code as written fails exactly for a dotted package with `\` as separator, reporting the refused replacement |
| ProxyGenerator.PackageFolderAsWrittenAgrees | src/main/java/com/strandls/alchemy/rest/client/stubgenerator/RestProxyGenerator.java:291-293 | wherever the code as written returns a folder, it is the intended one, so the two differ only on a dotted package with `\` |
| ProxyGenerator.PackageFolderSlash | src/main/java/com/strandls/alchemy/rest/client/stubgenerator/RestProxyGenerator.java:291-293 | with `/` as separator the code as written gives the intended folder |
| ProxyGenerator.PackageFolderBackslashFails | src/main/java/com/strandls/alchemy/rest/client/stubgenerator/RestProxyGenerator.java:291-293 | with `\` as separator a dotted package makes `replaceAll` throw |
| ProxyGenerator.PackageFolderWindowsExample | src/main/java/com/strandls/alchemy/rest/client/stubgenerator/RestProxyGenerator.java:291-293 | the package `com.example` on Windows fails as written |
| ProxyGenerator.TargetDirectory | src/main/java/com/strandls/alchemy/rest/client/stubgenerator/RestProxyGenerator.java:290-296 | a blank package targets the output directory itself; otherwise the package folder under it |
| ProxyGenerator.TargetSourceDirectory | src/main/java/com/strandls/alchemy/rest/client/stubgenerator/RestProxyGenerator.java:290-303 | fails with CouldNotCreate exactly when the target is not a directory and cannot be created; otherwise the target exists afterwards, with the intended package folder |
| ProxyGenerator.Enumerate | src/main/java/com/strandls/alchemy/rest/client/stubgenerator/RestProxyGenerator.java:184 | iterating the set of service types visits each type exactly once |
| ProxyGenerator.BindStubsToProxies | src/main/java/com/strandls/alchemy/rest/client/stubgenerator/RestProxyGenerator.java:200-203 | the stub-to-proxy map binds each stub name to its proxy name, whatever the iteration order, even when two types share a simple name |
| ProxyGenerator.ProxyArtifacts | src/main/java/com/strandls/alchemy/rest/client/stubgenerator/RestProxyGenerator.java:226-230 | one proxy per type, each named after its stub plus `Proxy` |
| ProxyGenerator.RestProxyGenerator.constructor | src/main/java/com/strandls/alchemy/rest/client/stubgenerator/RestProxyGenerator.java:63-84 | every setting starts null except the destination package, which starts as the default package "" |
| ProxyGenerator.GenerateStubs | src/main/java/com/strandls/alchemy/rest/client/stubgenerator/RestProxyGenerator.java:240-262 | the stub loop with one fresh analyzer: it succeeds exactly when every type analyzes, giving each type's generated stub in iteration order; otherwise it stops at the first type that does not analyze, with that type's analysis error |
| ProxyGenerator.RestProxyGenerator.GenerateServiceStubs | src/main/java/com/strandls/alchemy/rest/client/stubgenerator/RestProxyGenerator.java:239-264 | succeeds exactly when every type is a REST interface, with one generated stub per type in the output directory; otherwise fails on the first non-REST type, naming it |
| ProxyGenerator.RestProxyGenerator.GenerateProxyImplementations | src/main/java/com/strandls/alchemy/rest/client/stubgenerator/RestProxyGenerator.java:218-232 | fails exactly when the target directory cannot be made; otherwise one proxy per type, in that directory, with the intended package folder |
| ProxyGenerator.RestProxyGenerator.GenerateGuiceModule | src/main/java/com/strandls/alchemy/rest/client/stubgenerator/RestProxyGenerator.java:196-211 | fails exactly when the target directory cannot be made; otherwise the module binds every stub to its proxy, with the intended package folder |
| ProxyGenerator.RestProxyGenerator.Execute | src/main/java/com/strandls/alchemy/rest/client/stubgenerator/RestProxyGenerator.java:102-121 | validation first, and its error ends the run; a selected non-REST type fails the run; when validation passes and every selected type is a REST interface, the run succeeds exactly when the target directory can be made, and otherwise fails with that error; a successful run yields all stubs, then all proxies, then the module, over the same iteration order of the selected types, with the intended package folder |

## Left out

- Proxy creation (`getInstance`, javassist, Objenesis) is runtime bytecode synthesis. `ClientFactory.Invoke` takes the interface descriptor and the invoked method directly.
- The HTTP exchange itself is left out: the client, web target and builder calls, `GenericType` return decoding, and the `RequestBuilderFilter` hook. A call yields an abstract `Request`, and a failed call is an input to `ClientFactory.HandleFailure`.
- `UriBuilder` percent-encoding and template substitution are library behaviour. The path is the base, a segment list, matrix pairs and a template map.
- `UriBuilder.matrixParam` throws IllegalArgumentException for a null matrix value (AlchemyRestClientFactory.java:156-158), and `buildFromMap` rejects a template name with a missing or null value (:166). Neither is modelled: `ClientFactory.GetPath` always returns a path.
- ClientFactory.GetPath: a primitive array under `@MatrixParam` (for example `int[]`) fails the `(Object[])` cast at AlchemyRestClientFactory.java:150-151 with ClassCastException. The model's `Arr` argument has no element type, so `MatrixValues` returns its elements instead.
- StubGenerator.AddMethod: a parameter annotation whose `value` is not a String (for example `@Min(1)`) fails the `(String)` cast at ServiceStubGenerator.java:299, which the catch at :300 does not cover, so `generateStubInterface` throws ClassCastException. The model's `OtherParam` carries its value as optional text, so `GetValue` cannot express this.
- ClientFactory.HandleFailure: it uses the corrected decoder chain `ErrorCodec.ResponseToThrowable`, as the rest of the model does (see Findings). With the code as written, a 500 response whose body is `42` makes `invoke` throw ClassCastException (`ErrorCodec.NonObjectBodyEscapes`).
- ClientFactory.Invoke: the form is the flat sequence of pairs in binding order. `javax.ws.rs.core.Form` keeps a list of values per name, in the order names first appear, so every value of a repeated name is sent at that name's first position. The two differ only when a name repeats with another name in between.
- ClientFactory.Invoke: the multipart entity is fixed only up to the order of its stream parts. Those come from a `HashMap`, whose order the model leaves open (`ValidMultipart`).
- The Java `assert`s on form and multipart requests are an input of `ClientFactory.Invoke`: `assertionsEnabled` says whether the JVM checks them. An AssertionError is the failure `AssertionFailed`.
- The exception for a non-500 status is taken to follow the same table as `ResponseToJaxRsExceptionMapper`. Jersey's own mapping is not part of this model.
- Jackson is abstract: a parser, a writer and a registry of how each class is rebuilt. `localizedMessage`, the text of JSON containers, and how a class without a no-argument constructor is bound are not modelled.
- A payload whose `"exception"` key is missing, as opposed to null, is treated as a failed rebuild. What `treeToValue` does with a missing node depends on the Jackson version.
- Reflection (`getAllMethods`, `getAllAnnotations`, `Modifier`) is replaced by explicit sequences of annotation and method values.
- Guava `LoadingCache` concurrency and eviction are left out. The cache is a sequential map field.
- `typeToJType` is not part of this model. Return and parameter types are copied as type-name strings.
- A stub method's reflective signature is taken to be the original method's generic string.
- `StubGenerator.StrLe` orders by character, not by UTF-16 code unit; the two differ only outside the Basic Multilingual Plane.
- The JCodeModel build and the `FileCodeWriter` output are left out. A run returns its artifacts as values.
- `GuiceModuleGenerator` and `ProxyImplementationGenerator` render a StringTemplate group that is not part of this model. Their output is the `ProxySource` and `GuiceModuleSource` artifacts.
- Class-path scanning, URL building and Ant logging are left out. Java regular expressions are the uninterpreted parameter `matches`.
- `mkdirs` does not create missing parents in the model.
- ProxyGenerator.TargetSourceDirectory: it uses the intended folder `PackageFolder` (see Findings), and so do `RestProxyGenerator.GenerateProxyImplementations`, `RestProxyGenerator.GenerateGuiceModule` and `RestProxyGenerator.Execute`. With the code as written, a dotted destination package with separator `\` makes `getTargetSourceDirectory` throw IllegalArgumentException (`ProxyGenerator.PackageFolderAsWritten`), so `execute` fails after the stubs are written. `ProxyGenerator.PackageFolderAsWrittenAgrees` proves that this is the only case where the two differ.
- A null destination package is treated as the default package "". How the code model handles a null package name is not modelled.
- `VoidMessageBodyReader` is a two-line JAX-RS provider. It is not part of this model.
- Two types with the same simple name get stubs with the same name, and the later written file replaces the earlier one. The artifact list keeps both.
- `hashCode`, and the inequality of the test services' descriptors, are not modelled. Dafny datatype equality is field-wise by construction. One difference remains: `methodMetaData` is a `LinkedMap`, a sequence of pairs, so two descriptors whose method maps hold the same entries in a different order are unequal in the model, while `AbstractMap.equals` ignores the order.

## Findings

| source | as written | input that shows it | evidently intended | confidence | as-written member | corrected member |
|---|---|---|---|---|---|---|
| src/main/java/com/strandls/alchemy/rest/client/exception/ExceptionPayloadDeserializer.java:69-75 | `treeToValue` of a JSON null subtree returns null without throwing, and line 75 then calls `getClass()` on it outside the try block | `{"exceptionClassFQN": "java.lang.Exception", "exception": null}` | any failure to rebuild yields an InternalServerErrorException carrying the message | not executed; medium (Jackson returns null for a null token) | ErrorCodec.DeserializeAsWritten, ErrorCodec.NullExceptionSubtreeEscapes | ErrorCodec.Deserialize, ErrorCodec.DeserializeMeaning |
| src/main/java/com/strandls/alchemy/rest/client/exception/ResponseToThrowableMapper.java:80-83 | a body that is JSON but not an object is cast to an object node (ClassCastException) or read as a null payload (NullPointerException); neither is an IOException, so both escape the fallback chain | response body `42`, or `null` | fall back to the status-based mapper | not executed; medium | ErrorCodec.ResponseToThrowableAsWritten, ErrorCodec.NonObjectBodyEscapes | ErrorCodec.ResponseToThrowable, ErrorCodec.ResponseToThrowableOrder |
| src/main/java/com/strandls/alchemy/rest/client/exception/ThrowableToResponseMapper.java:62-68 | `Status.fromStatusCode` returns null for a status outside the enum, and `Response.status(null)` throws IllegalArgumentException | a WebApplicationException with status 422 | a response with the exception's own status | not executed; high | ErrorCodec.ThrowableToResponseAsWritten, ErrorCodec.UnprocessableEntityEscapes | ErrorCodec.ThrowableToResponse, ErrorCodec.RoundTrip |
| src/main/java/com/strandls/alchemy/rest/client/stubgenerator/RestProxyGenerator.java:291-293 | `File.separator` is used as a `replaceAll` replacement string, where a lone backslash is an escape with nothing to escape, so it throws IllegalArgumentException | destination package `com.example` with separator `\` (Windows) | the folder `com\example` | not executed; high | ProxyGenerator.PackageFolderAsWritten, ProxyGenerator.PackageFolderWindowsExample | ProxyGenerator.PackageFolder, ProxyGenerator.TargetDirectory |

=== FILE: analyzer.dfy ===
/** `RestInterfaceAnalyzer`: folds the annotations of a service type and of its
    public methods into a `RestInterfaceMetadata`, drops methods without an HTTP
    verb, rejects a type with no remaining method, and memoizes per type. */
module Analyzer {
  import opened Common
  import opened LinkedMap
  import opened Metadata

  /** `NotRestInterfaceException`, the only failure of an analysis. */
  datatype AnalysisError = NotRestInterface(className: string)

  // ---------------------------------------------------------------------------
  // Media types: the reference definition both folds are proved against.

  /** The values one annotation contributes to the produced (or consumed) list. */
  function MediaTypesOf(a: Annotation, produced: bool): seq<string>
  {
    match a
    case ProducesAnnotation(vs) => if produced then vs else []
    case ConsumesAnnotation(vs) => if produced then [] else vs
    case _ => []
  }

  /** Every `@Produces` (or `@Consumes`) value of `anns`, in annotation order. */
  function DeclaredMediaTypes(anns: seq<Annotation>, produced: bool): seq<string>
  {
    if anns == [] then [] else MediaTypesOf(anns[0], produced) + DeclaredMediaTypes(anns[1..], produced)
  }

  lemma {:induction false} DeclaredMediaTypesAppend(anns: seq<Annotation>, a: Annotation, produced: bool)
    ensures DeclaredMediaTypes(anns + [a], produced)
         == DeclaredMediaTypes(anns, produced) + MediaTypesOf(a, produced)
  {
    if anns != [] {
      assert (anns + [a])[1..] == anns[1..] + [a];
      DeclaredMediaTypesAppend(anns[1..], a, produced);
    }
  }

  // ---------------------------------------------------------------------------
  // analyzeMethod

  /** The variables of `analyzeMethod`'s annotation loop. */
  datatype MethodScan = MethodScan(path: string, httpMethod: Option<Verb>, produced: seq<string>, consumed: seq<string>)

  /** One iteration of that loop: a later `@Path` or verb overwrites an earlier
      one, media types accumulate. */
  function MethodStep(s: MethodScan, a: Annotation): MethodScan
  {
    match a
    case PathAnnotation(v) => s.(path := v)
    case VerbAnnotation(verb) => s.(httpMethod := Some(verb))
    case ProducesAnnotation(vs) => s.(produced := s.produced + vs)
    case ConsumesAnnotation(vs) => s.(consumed := s.consumed + vs)
    case OtherAnnotation(_) => s
  }

  /** The loop variables after the first `n` annotations; the path starts as
      the empty string and the verb as null. */
  function ScanMethod(anns: seq<Annotation>, n: nat): MethodScan
    requires n <= |anns|
  {
    if n == 0 then MethodScan("", None, [], []) else MethodStep(ScanMethod(anns, n - 1), anns[n - 1])
  }

  /** What `analyzeMethod` returns: null without a verb, else the descriptor. */
  function AnalyzeMethodSpec(m: JavaMethod): Option<RestMethodMetadata>
  {
    var s := ScanMethod(m.annotations, |m.annotations|);
    if s.httpMethod.None? then None
    else Some(RestMethodMetadata(Some(s.path), s.httpMethod.value, s.produced, s.consumed, m.parameterAnnotations))
  }

  method AnalyzeMethod(m: JavaMethod) returns (r: Option<RestMethodMetadata>)
    ensures r == AnalyzeMethodSpec(m)
  {
    var path := "";
    var httpMethod: Option<Verb> := None;
    var produced: seq<string> := [];
    var consumed: seq<string> := [];
    var i := 0;
    while i < |m.annotations|
      invariant i <= |m.annotations|
      invariant ScanMethod(m.annotations, i) == MethodScan(path, httpMethod, produced, consumed)
    {
      match m.annotations[i] {
        case PathAnnotation(v) => path := v;
        case VerbAnnotation(verb) => httpMethod := Some(verb);
        case ProducesAnnotation(vs) => produced := produced + vs;
        case ConsumesAnnotation(vs) => consumed := consumed + vs;
        case OtherAnnotation(_) =>
      }
      i := i + 1;
    }
    if httpMethod.None? {
      return None;
    }
    r := Some(RestMethodMetadata(Some(path), httpMethod.value, produced, consumed, m.parameterAnnotations));
  }

  /** There is no verb exactly when no annotation is a verb. */
  lemma {:induction false} ScanMethodNoVerb(anns: seq<Annotation>, n: nat)
    requires n <= |anns|
    ensures ScanMethod(anns, n).httpMethod.None? <==> forall i :: 0 <= i < n ==> !anns[i].VerbAnnotation?
  {
    if n > 0 {
      ScanMethodNoVerb(anns, n - 1);
    }
  }

  /** The verb is that of the last verb annotation `anns[k]`. */
  lemma {:induction false} ScanMethodLastVerb(anns: seq<Annotation>, n: nat, k: nat)
    requires k < n <= |anns| && anns[k].VerbAnnotation?
    requires forall j :: k < j < n ==> !anns[j].VerbAnnotation?
    ensures ScanMethod(anns, n).httpMethod == Some(anns[k].verb)
  {
    if k < n - 1 {
      ScanMethodLastVerb(anns, n - 1, k);
    }
  }

  /** Without a `@Path` the path is the empty string. */
  lemma {:induction false} ScanMethodNoPath(anns: seq<Annotation>, n: nat)
    requires n <= |anns|
    requires forall i :: 0 <= i < n ==> !anns[i].PathAnnotation?
    ensures ScanMethod(anns, n).path == ""
  {
    if n > 0 {
      ScanMethodNoPath(anns, n - 1);
    }
  }

  /** The path is the value of the last `@Path`, `anns[k]`. */
  lemma {:induction false} ScanMethodLastPath(anns: seq<Annotation>, n: nat, k: nat)
    requires k < n <= |anns| && anns[k].PathAnnotation?
    requires forall j :: k < j < n ==> !anns[j].PathAnnotation?
    ensures ScanMethod(anns, n).path == anns[k].value
  {
    if k < n - 1 {
      ScanMethodLastPath(anns, n - 1, k);
    }
  }

  /** Produced and consumed types are every `@Produces` / `@Consumes` value in
      annotation order. */
  /** One method annotation adds its own media types. */
  lemma MethodStepMediaTypes(s: MethodScan, a: Annotation)
    ensures MethodStep(s, a).produced == s.produced + MediaTypesOf(a, true)
    ensures MethodStep(s, a).consumed == s.consumed + MediaTypesOf(a, false)
  {
  }

  lemma {:induction false} ScanMethodMediaTypes(anns: seq<Annotation>, n: nat)
    requires n <= |anns|
    ensures ScanMethod(anns, n).produced == DeclaredMediaTypes(anns[..n], true)
    ensures ScanMethod(anns, n).consumed == DeclaredMediaTypes(anns[..n], false)
  {
    if n > 0 {
      ScanMethodMediaTypes(anns, n - 1);
      MethodStepMediaTypes(ScanMethod(anns, n - 1), anns[n - 1]);
      assert anns[..n] == anns[..n - 1] + [anns[n - 1]];
      DeclaredMediaTypesAppend(anns[..n - 1], anns[n - 1], true);
      DeclaredMediaTypesAppend(anns[..n - 1], anns[n - 1], false);
    }
  }

  /** `analyzeMethod` in one statement: no verb gives null; otherwise the last
      verb, the last path (default ""), all media types in order and the
      method's own parameter annotations. */
  lemma AnalyzeMethodMeaning(m: JavaMethod)
    ensures AnalyzeMethodSpec(m).None? <==> forall i :: 0 <= i < |m.annotations| ==> !m.annotations[i].VerbAnnotation?
    ensures AnalyzeMethodSpec(m).Some? ==>
      var d := AnalyzeMethodSpec(m).value;
      && d.path.Some?
      && ((forall i :: 0 <= i < |m.annotations| ==> !m.annotations[i].PathAnnotation?) ==> d.path == Some(""))
      && d.produced == DeclaredMediaTypes(m.annotations, true)
      && d.consumed == DeclaredMediaTypes(m.annotations, false)
      && d.parameterAnnotations == m.parameterAnnotations
  {
    var n := |m.annotations|;
    ScanMethodNoVerb(m.annotations, n);
    if forall i :: 0 <= i < n ==> !m.annotations[i].PathAnnotation? {
      ScanMethodNoPath(m.annotations, n);
    }
    ScanMethodMediaTypes(m.annotations, n);
    assert m.annotations[..n] == m.annotations;
  }

  // ---------------------------------------------------------------------------
  // doAnalyze

  /** The variables of `doAnalyze`'s loop over the type's annotations. */
  datatype ClassScan = ClassScan(path: Option<string>, produced: seq<string>, consumed: seq<string>)

  function ClassStep(s: ClassScan, a: Annotation): ClassScan
  {
    match a
    case PathAnnotation(v) => s.(path := Some(v))
    case ProducesAnnotation(vs) => s.(produced := s.produced + vs)
    case ConsumesAnnotation(vs) => s.(consumed := s.consumed + vs)
    case _ => s
  }

  /** The loop variables after the first `n` annotations; the path starts as null. */
  function ScanClass(anns: seq<Annotation>, n: nat): ClassScan
    requires n <= |anns|
  {
    if n == 0 then ClassScan(None, [], []) else ClassStep(ScanClass(anns, n - 1), anns[n - 1])
  }

  /** A method that enters the method map: public and carrying a verb. */
  predicate Qualifies(m: JavaMethod)
  {
    m.isPublic && AnalyzeMethodSpec(m).Some?
  }

  /** The method map after the first `n` methods. */
  function MethodMap(ms: seq<JavaMethod>, n: nat): LinkedMap<JavaMethod, RestMethodMetadata>
    requires n <= |ms|
  {
    if n == 0 then []
    else
      var prev := MethodMap(ms, n - 1);
      var m := ms[n - 1];
      if Qualifies(m) then Put(prev, m, AnalyzeMethodSpec(m).value) else prev
  }

  function DoAnalyzeSpec(c: JavaClass): Result<RestInterfaceMetadata, AnalysisError>
  {
    var s := ScanClass(c.annotations, |c.annotations|);
    var mm := MethodMap(c.methods, |c.methods|);
    if mm == [] then Failure(NotRestInterface(c.name))
    else Success(RestInterfaceMetadata(s.path, s.produced, s.consumed, mm))
  }

  method DoAnalyze(c: JavaClass) returns (r: Result<RestInterfaceMetadata, AnalysisError>)
    ensures r == DoAnalyzeSpec(c)
  {
    var produced: seq<string> := [];
    var consumed: seq<string> := [];
    var path: Option<string> := None;
    var i := 0;
    while i < |c.annotations|
      invariant i <= |c.annotations|
      invariant ScanClass(c.annotations, i) == ClassScan(path, produced, consumed)
    {
      match c.annotations[i] {
        case PathAnnotation(v) => path := Some(v);
        case ProducesAnnotation(vs) => produced := produced + vs;
        case ConsumesAnnotation(vs) => consumed := consumed + vs;
        case _ =>
      }
      i := i + 1;
    }
    var methodMetadataMap: LinkedMap<JavaMethod, RestMethodMetadata> := [];
    var j := 0;
    while j < |c.methods|
      invariant j <= |c.methods|
      invariant methodMetadataMap == MethodMap(c.methods, j)
    {
      var candidate := c.methods[j];
      if candidate.isPublic {
        var methodMetadata := AnalyzeMethod(candidate);
        if methodMetadata.Some? {
          methodMetadataMap := Put(methodMetadataMap, candidate, methodMetadata.value);
        }
      }
      j := j + 1;
    }
    if methodMetadataMap == [] {
      return Failure(NotRestInterface(c.name));
    }
    r := Success(RestInterfaceMetadata(path, produced, consumed, methodMetadataMap));
  }

  /** The method map is empty exactly when no method qualifies. */
  lemma {:induction false} MethodMapEmpty(ms: seq<JavaMethod>, n: nat)
    requires n <= |ms|
    ensures MethodMap(ms, n) == [] <==> forall i :: 0 <= i < n ==> !Qualifies(ms[i])
  {
    if n > 0 {
      MethodMapEmpty(ms, n - 1);
    }
  }

  /** Every qualifying method is bound to its own analysis; no other method is bound. */
  lemma {:induction false} MethodMapGet(ms: seq<JavaMethod>, n: nat, m: JavaMethod)
    requires n <= |ms|
    ensures Get(MethodMap(ms, n), m) == if m in ms[..n] && Qualifies(m) then AnalyzeMethodSpec(m) else None
  {
    if n > 0 {
      MethodMapGet(ms, n - 1, m);
      assert ms[..n] == ms[..n - 1] + [ms[n - 1]];
      var prev := MethodMap(ms, n - 1);
      if Qualifies(ms[n - 1]) {
        if m == ms[n - 1] {
          PutGet(prev, m, AnalyzeMethodSpec(m).value);
        } else {
          PutOther(prev, ms[n - 1], AnalyzeMethodSpec(ms[n - 1]).value, m);
        }
      }
    }
  }

  /** The qualifying methods of `ms`, in discovery order. */
  function QualifyingMethods(ms: seq<JavaMethod>): seq<JavaMethod>
  {
    if ms == [] then [] else (if Qualifies(ms[0]) then [ms[0]] else []) + QualifyingMethods(ms[1..])
  }

  lemma {:induction false} QualifyingMethodsAppend(ms: seq<JavaMethod>, m: JavaMethod)
    ensures QualifyingMethods(ms + [m]) == QualifyingMethods(ms) + (if Qualifies(m) then [m] else [])
  {
    if ms != [] {
      assert (ms + [m])[1..] == ms[1..] + [m];
      QualifyingMethodsAppend(ms[1..], m);
    }
  }

  /** Every entry of the method map is a qualifying method with its own
      descriptor. */
  lemma {:induction false} MethodMapMembers(ms: seq<JavaMethod>, n: nat, e: (JavaMethod, RestMethodMetadata))
    requires n <= |ms|
    requires e in MethodMap(ms, n)
    ensures e.0 in ms[..n] && Qualifies(e.0) && AnalyzeMethodSpec(e.0) == Some(e.1)
  {
    var m := ms[n - 1];
    var prev := MethodMap(ms, n - 1);
    if Qualifies(m) && e !in prev {
      PutMembers(prev, m, AnalyzeMethodSpec(m).value, e);
      assert ms[..n] == ms[..n - 1] + [m];
    } else {
      MethodMapMembers(ms, n - 1, e);
      assert ms[..n - 1] <= ms[..n];
    }
  }

  /** For the distinct methods reflection reports, the map's keys are the
      qualifying methods in discovery order. */
  lemma {:induction false} MethodMapKeys(ms: seq<JavaMethod>, n: nat)
    requires n <= |ms|
    requires forall i, j :: 0 <= i < j < |ms| ==> ms[i] != ms[j]
    ensures Keys(MethodMap(ms, n)) == QualifyingMethods(ms[..n])
  {
    if n > 0 {
      MethodMapKeys(ms, n - 1);
      assert ms[..n] == ms[..n - 1] + [ms[n - 1]];
      QualifyingMethodsAppend(ms[..n - 1], ms[n - 1]);
      var prev := MethodMap(ms, n - 1);
      if Qualifies(ms[n - 1]) {
        PutKeys(prev, ms[n - 1], AnalyzeMethodSpec(ms[n - 1]).value);
        MethodMapGet(ms, n - 1, ms[n - 1]);
      }
    }
  }

  /** Without a `@Path` on the type the interface path is null. */
  lemma {:induction false} ScanClassNoPath(anns: seq<Annotation>, n: nat)
    requires n <= |anns|
    requires forall i :: 0 <= i < n ==> !anns[i].PathAnnotation?
    ensures ScanClass(anns, n).path == None
  {
    if n > 0 {
      ScanClassNoPath(anns, n - 1);
    }
  }

  /** The interface path is the value of the last `@Path`, `anns[k]`. */
  lemma {:induction false} ScanClassLastPath(anns: seq<Annotation>, n: nat, k: nat)
    requires k < n <= |anns| && anns[k].PathAnnotation?
    requires forall j :: k < j < n ==> !anns[j].PathAnnotation?
    ensures ScanClass(anns, n).path == Some(anns[k].value)
  {
    if k < n - 1 {
      ScanClassLastPath(anns, n - 1, k);
    }
  }

  /** One class annotation adds its own media types. */
  lemma ClassStepMediaTypes(s: ClassScan, a: Annotation)
    ensures ClassStep(s, a).produced == s.produced + MediaTypesOf(a, true)
    ensures ClassStep(s, a).consumed == s.consumed + MediaTypesOf(a, false)
  {
  }

  lemma {:induction false} ScanClassMediaTypes(anns: seq<Annotation>, n: nat)
    requires n <= |anns|
    ensures ScanClass(anns, n).produced == DeclaredMediaTypes(anns[..n], true)
    ensures ScanClass(anns, n).consumed == DeclaredMediaTypes(anns[..n], false)
  {
    if n > 0 {
      ScanClassMediaTypes(anns, n - 1);
      ClassStepMediaTypes(ScanClass(anns, n - 1), anns[n - 1]);
      assert anns[..n] == anns[..n - 1] + [anns[n - 1]];
      DeclaredMediaTypesAppend(anns[..n - 1], anns[n - 1], true);
      DeclaredMediaTypesAppend(anns[..n - 1], anns[n - 1], false);
    }
  }

  /** `doAnalyze` in one statement: it fails exactly when no public method
      carries a verb; otherwise the descriptor holds the type's media types in
      order, a null path when the type has no `@Path`, and binds exactly the
      qualifying methods, each to its own analysis. */
  lemma DoAnalyzeMeaning(c: JavaClass)
    ensures DoAnalyzeSpec(c).Failure? <==> forall i :: 0 <= i < |c.methods| ==> !Qualifies(c.methods[i])
    ensures DoAnalyzeSpec(c).Failure? ==> DoAnalyzeSpec(c).error == NotRestInterface(c.name)
    ensures DoAnalyzeSpec(c).Success? ==>
      var d := DoAnalyzeSpec(c).value;
      && d.produced == DeclaredMediaTypes(c.annotations, true)
      && d.consumed == DeclaredMediaTypes(c.annotations, false)
      && ((forall i :: 0 <= i < |c.annotations| ==> !c.annotations[i].PathAnnotation?) ==> d.path.None?)
      && (forall m :: Get(d.methodMetaData, m) == if m in c.methods && Qualifies(m) then AnalyzeMethodSpec(m) else None)
  {
    MethodMapEmpty(c.methods, |c.methods|);
    if forall i :: 0 <= i < |c.annotations| ==> !c.annotations[i].PathAnnotation? {
      ScanClassNoPath(c.annotations, |c.annotations|);
    }
    ScanClassMediaTypes(c.annotations, |c.annotations|);
    assert c.annotations[..|c.annotations|] == c.annotations;
    assert c.methods[..|c.methods|] == c.methods;
    forall m ensures Get(MethodMap(c.methods, |c.methods|), m) ==
                     if m in c.methods && Qualifies(m) then AnalyzeMethodSpec(m) else None {
      MethodMapGet(c.methods, |c.methods|, m);
    }
  }

  // ---------------------------------------------------------------------------
  // analyze, with the per-type cache

  class RestInterfaceAnalyzer {
    /** The cache from type to descriptor; failed analyses are not stored. */
    var metadataCache: map<JavaClass, RestInterfaceMetadata>
    /** How many times `doAnalyze` has run on this analyzer. */
    ghost var loads: nat

    /** Every cached descriptor is the analysis of its type. */
    ghost predicate Valid()
      reads this
    {
      forall c :: c in metadataCache ==> DoAnalyzeSpec(c) == Success(metadataCache[c])
    }

    constructor ()
      ensures Valid() && metadataCache == map[] && loads == 0
    {
      metadataCache := map[];
      loads := 0;
    }

    /** `analyze`: a cached type is answered from the cache without running
        `doAnalyze`; otherwise the type is analyzed, and stored only on success. */
    method Analyze(klass: JavaClass) returns (r: Result<RestInterfaceMetadata, AnalysisError>)
      requires Valid()
      modifies this
      ensures Valid()
      ensures r == DoAnalyzeSpec(klass)
      ensures klass in old(metadataCache) ==> metadataCache == old(metadataCache) && loads == old(loads)
      ensures klass !in old(metadataCache) ==>
        && loads == old(loads) + 1
        && metadataCache == if r.Success? then old(metadataCache)[klass := r.value] else old(metadataCache)
    {
      if klass in metadataCache {
        return Success(metadataCache[klass]);
      }
      r := DoAnalyze(klass);
      loads := loads + 1;
      if r.Success? {
        metadataCache := metadataCache[klass := r.value];
      }
    }
  }

  /** Two independently created analyzers give equal descriptors for one type,
      and a second call on the same analyzer gives the first call's answer
      without analyzing again. */
  method AnalyzersAgree(klass: JavaClass) returns (first: Result<RestInterfaceMetadata, AnalysisError>,
                                                   again: Result<RestInterfaceMetadata, AnalysisError>,
                                                   other: Result<RestInterfaceMetadata, AnalysisError>)
    ensures first == again == other
    ensures first.Success? <==> exists i :: 0 <= i < |klass.methods| && Qualifies(klass.methods[i])
  {
    var a := new RestInterfaceAnalyzer();
    first := a.Analyze(klass);
    var loadsAfterFirst := a.loads;
    again := a.Analyze(klass);
    assert first.Success? ==> a.loads == loadsAfterFirst;
    var b := new RestInterfaceAnalyzer();
    other := b.Analyze(klass);
    DoAnalyzeMeaning(klass);
  }
}

=== FILE: client_factory.dfy ===
/** `RestMethodInvocationHandler`: assembles the request for one call of a
    service method from the method's descriptor, the interface descriptor,
    the base URI and the live arguments, and decides which verb is sent with
    which entity. The HTTP exchange itself is outside the model: a call ends
    in the `Request` that would be sent. */
module ClientFactory {
  import opened Common
  import opened LinkedMap
  import opened Metadata
  import opened ErrorCodec
  import opened ErrorModel

  datatype Cookie = Cookie(name: string, value: string)

  /** A live argument, by the runtime type the handler tests for. `text` is
      what `toString` gives for the object. */
  datatype Argument =
    | Null
    | Scalar(text: string)
    | Arr(elements: seq<Argument>, text: string)
    | Coll(elements: seq<Argument>, text: string)
    | FileArg(path: string, text: string)
    | Stream(text: string)
    | Disposition(fileName: Option<string>, text: string)
    | CookieArg(cookie: Cookie, text: string)
    | MultiPartArg(mediaType: string, text: string)

  /** `ObjectUtils.toString`: the empty string for null. */
  function Str(a: Argument): string
  {
    if a.Null? then "" else a.text
  }

  // ---------------------------------------------------------------------------
  // The order in which the handler's loops visit annotations

  /** One annotation of a parameter together with that parameter's argument. */
  datatype Binding = Binding(annotation: ParamAnnotation, argument: Argument)

  /** The annotations of parameter `i`: none past the annotation array. */
  function Annotated(pa: seq<seq<ParamAnnotation>>, i: nat): seq<ParamAnnotation>
  {
    if i < |pa| then pa[i] else []
  }

  function Pair(anns: seq<ParamAnnotation>, arg: Argument): (bs: seq<Binding>)
    ensures |bs| == |anns|
    ensures forall k :: 0 <= k < |anns| ==> bs[k] == Binding(anns[k], arg)
  {
    seq(|anns|, k requires 0 <= k < |anns| => Binding(anns[k], arg))
  }

  /** The bindings of the first `n` arguments: argument by argument, and
      within an argument in annotation order. */
  function Bindings(pa: seq<seq<ParamAnnotation>>, args: seq<Argument>, n: nat): seq<Binding>
    requires n <= |args|
  {
    if n == 0 then [] else Bindings(pa, args, n - 1) + Pair(Annotated(pa, n - 1), args[n - 1])
  }

  /** The bindings grow by the next parameter's annotations, or not at all
      past the annotation array. */
  lemma BindingsNext(pa: seq<seq<ParamAnnotation>>, args: seq<Argument>, i: nat)
    requires i < |args|
    ensures i < |pa| ==> Bindings(pa, args, i + 1) == Bindings(pa, args, i) + Pair(pa[i], args[i])
    ensures i >= |pa| ==> Bindings(pa, args, i + 1) == Bindings(pa, args, i)
  {
    if i >= |pa| {
      assert Pair(Annotated(pa, i), args[i]) == [];
    }
  }

  lemma PairSnoc(anns: seq<ParamAnnotation>, arg: Argument, j: nat)
    requires j < |anns|
    ensures Pair(anns[..j + 1], arg) == Pair(anns[..j], arg) + [Binding(anns[j], arg)]
  {
  }

  /** A binding is visited exactly when its annotation sits on a parameter
      among the first `n` arguments. */
  lemma {:induction false} BindingsMembership(pa: seq<seq<ParamAnnotation>>, args: seq<Argument>, n: nat, b: Binding)
    requires n <= |args|
    ensures b in Bindings(pa, args, n) <==>
            exists i :: 0 <= i < n && b.argument == args[i] && b.annotation in Annotated(pa, i)
  {
    if n > 0 {
      BindingsMembership(pa, args, n - 1, b);
      var last := Pair(Annotated(pa, n - 1), args[n - 1]);
      assert b in last <==> b.argument == args[n - 1] && b.annotation in Annotated(pa, n - 1) by {
        if b.argument == args[n - 1] && b.annotation in Annotated(pa, n - 1) {
          var k :| 0 <= k < |Annotated(pa, n - 1)| && Annotated(pa, n - 1)[k] == b.annotation;
          assert last[k] == b;
        }
      }
    }
  }

  /** What each binding contributes, collected in visiting order. */
  function Collect<T>(bs: seq<Binding>, f: Binding -> seq<T>): seq<T>
  {
    if bs == [] then [] else Collect(bs[..|bs| - 1], f) + f(bs[|bs| - 1])
  }

  lemma CollectSnoc<T>(bs: seq<Binding>, b: Binding, f: Binding -> seq<T>)
    ensures Collect(bs + [b], f) == Collect(bs, f) + f(b)
  {
    assert (bs + [b])[..|bs|] == bs;
  }

  /** An element is collected exactly when some visited binding contributes it. */
  lemma {:induction false} CollectMembership<T>(bs: seq<Binding>, f: Binding -> seq<T>, x: T)
    ensures x in Collect(bs, f) <==> exists k :: 0 <= k < |bs| && x in f(bs[k])
  {
    if bs != [] {
      var init := bs[..|bs| - 1];
      CollectMembership(init, f, x);
      assert forall k :: 0 <= k < |init| ==> init[k] == bs[k];
    }
  }

  // ---------------------------------------------------------------------------
  // getPath

  /** The values a matrix parameter takes from its argument: an array's or
      collection's elements, otherwise the argument itself (null included). */
  function MatrixValues(arg: Argument): seq<Argument>
  {
    match arg
    case Arr(elements, _) => elements
    case Coll(elements, _) => elements
    case _ => [arg]
  }

  function MatrixOf(b: Binding): seq<(string, seq<Argument>)>
  {
    if b.annotation.MatrixParam? then [(b.annotation.name, MatrixValues(b.argument))] else []
  }

  /** The path-template map: a later `@PathParam` of the same name wins. */
  function TemplateValues(bs: seq<Binding>): LinkedMap<string, Argument>
  {
    if bs == [] then []
    else
      var prev := TemplateValues(bs[..|bs| - 1]);
      var b := bs[|bs| - 1];
      if b.annotation.PathParam? then Put(prev, b.annotation.name, b.argument) else prev
  }

  /** The path handed to `UriBuilder`: the base URI, the segments appended to
      it, the matrix parameters of the last segment in the order added, and
      the template values `buildFromMap` substitutes. */
  datatype UriPath = UriPath(
    base: string,
    segments: seq<string>,
    matrixParams: seq<(string, seq<Argument>)>,
    templateValues: LinkedMap<string, Argument>)

  /** The segments: the interface path, then the method path, each only when
      it is not blank. */
  function Segments(iface: RestInterfaceMetadata, m: RestMethodMetadata): seq<string>
  {
    (if IsBlank(iface.path) then [] else [iface.path.value]) + (if IsBlank(m.path) then [] else [m.path.value])
  }

  function Min(a: nat, b: nat): nat
  {
    if a < b then a else b
  }

  /** The arguments `getPath` scans: those below both the annotation count
      and the argument count. */
  function PathBindings(m: RestMethodMetadata, args: seq<Argument>): seq<Binding>
  {
    Bindings(m.parameterAnnotations, args, Min(|m.parameterAnnotations|, |args|))
  }

  function PathSpec(base: string, iface: RestInterfaceMetadata, m: RestMethodMetadata, args: seq<Argument>): UriPath
  {
    var bs := PathBindings(m, args);
    UriPath(base, Segments(iface, m), Collect(bs, MatrixOf), TemplateValues(bs))
  }

  /** One iteration of `getPath`'s inner loop. */
  lemma PathStep(done: seq<Binding>, anns: seq<ParamAnnotation>, arg: Argument, j: nat)
    requires j < |anns|
    ensures var prefix := done + Pair(anns[..j], arg);
      && Collect(done + Pair(anns[..j + 1], arg), MatrixOf) == Collect(prefix, MatrixOf) + MatrixOf(Binding(anns[j], arg))
      && TemplateValues(done + Pair(anns[..j + 1], arg))
         == if anns[j].PathParam? then Put(TemplateValues(prefix), anns[j].name, arg) else TemplateValues(prefix)
  {
    var prefix := done + Pair(anns[..j], arg);
    PairSnoc(anns, arg, j);
    assert done + Pair(anns[..j + 1], arg) == prefix + [Binding(anns[j], arg)];
    CollectSnoc(prefix, Binding(anns[j], arg), MatrixOf);
    assert (prefix + [Binding(anns[j], arg)])[..|prefix|] == prefix;
  }

  /** `getPath`'s inner loop over the annotations of one parameter. */
  method AddPathParameter(ghost done: seq<Binding>, annotations: seq<ParamAnnotation>, argument: Argument,
                          matrixParams: seq<(string, seq<Argument>)>, pathParamsMap: LinkedMap<string, Argument>)
    returns (matrixParams': seq<(string, seq<Argument>)>, pathParamsMap': LinkedMap<string, Argument>)
    requires matrixParams == Collect(done, MatrixOf) && pathParamsMap == TemplateValues(done)
    ensures matrixParams' == Collect(done + Pair(annotations, argument), MatrixOf)
    ensures pathParamsMap' == TemplateValues(done + Pair(annotations, argument))
  {
    matrixParams', pathParamsMap' := matrixParams, pathParamsMap;
    assert done + Pair(annotations[..0], argument) == done;
    var j := 0;
    while j < |annotations|
      invariant j <= |annotations|
      invariant matrixParams' == Collect(done + Pair(annotations[..j], argument), MatrixOf)
      invariant pathParamsMap' == TemplateValues(done + Pair(annotations[..j], argument))
    {
      var annotation := annotations[j];
      PathStep(done, annotations, argument, j);
      if annotation.MatrixParam? {
        matrixParams' := matrixParams' + [(annotation.name, MatrixValues(argument))];
      } else if annotation.PathParam? {
        pathParamsMap' := Put(pathParamsMap', annotation.name, argument);
      }
      j := j + 1;
    }
    assert annotations[..|annotations|] == annotations;
  }

  /** `getPath`'s outer loop: the parameters below both the annotation count
      and the argument count, in argument order. */
  method ScanPathParameters(pa: seq<seq<ParamAnnotation>>, args: seq<Argument>)
    returns (matrixParams: seq<(string, seq<Argument>)>, pathParamsMap: LinkedMap<string, Argument>)
    ensures matrixParams == Collect(Bindings(pa, args, Min(|pa|, |args|)), MatrixOf)
    ensures pathParamsMap == TemplateValues(Bindings(pa, args, Min(|pa|, |args|)))
  {
    matrixParams, pathParamsMap := [], [];
    assert Bindings(pa, args, 0) == [];
    var i := 0;
    while i < |pa| && i < |args|
      invariant i <= |pa| && i <= |args|
      invariant matrixParams == Collect(Bindings(pa, args, i), MatrixOf)
      invariant pathParamsMap == TemplateValues(Bindings(pa, args, i))
    {
      BindingsNext(pa, args, i);
      matrixParams, pathParamsMap := AddPathParameter(Bindings(pa, args, i), pa[i], args[i], matrixParams, pathParamsMap);
      i := i + 1;
    }
  }

  /** `getPath`: the segments, then the parameters scanned in argument order,
      each parameter's annotations in declaration order. */
  method GetPath(base: string, iface: RestInterfaceMetadata, m: RestMethodMetadata, args: seq<Argument>) returns (p: UriPath)
    ensures p == PathSpec(base, iface, m, args)
  {
    var segments: seq<string> := [];
    if !IsBlank(iface.path) {
      segments := segments + [iface.path.value];
    }
    if !IsBlank(m.path) {
      segments := segments + [m.path.value];
    }
    var matrixParams, pathParamsMap := ScanPathParameters(m.parameterAnnotations, args);
    p := UriPath(base, segments, matrixParams, pathParamsMap);
  }

  /** The matrix parameters are exactly one (name, values) pair for each
      `@MatrixParam` on a scanned parameter, the values taken from that
      parameter's argument. */
  lemma MatrixParamsMeaning(base: string, iface: RestInterfaceMetadata, m: RestMethodMetadata, args: seq<Argument>,
                            name: string, values: seq<Argument>)
    ensures (name, values) in PathSpec(base, iface, m, args).matrixParams <==>
      exists i :: 0 <= i < |m.parameterAnnotations| && i < |args| &&
                  MatrixParam(name) in m.parameterAnnotations[i] && values == MatrixValues(args[i])
  {
    var pa := m.parameterAnnotations;
    var n := Min(|pa|, |args|);
    CollectBindingsMembership(pa, args, n, MatrixOf, (name, values));
    if (name, values) in PathSpec(base, iface, m, args).matrixParams {
      var i, a :| 0 <= i < n && a in Annotated(pa, i) && (name, values) in MatrixOf(Binding(a, args[i]));
      assert a == MatrixParam(name);
    }
    if exists i :: 0 <= i < |pa| && i < |args| && MatrixParam(name) in pa[i] && values == MatrixValues(args[i]) {
      var i :| 0 <= i < |pa| && i < |args| && MatrixParam(name) in pa[i] && values == MatrixValues(args[i]);
      assert (name, values) in MatrixOf(Binding(MatrixParam(name), args[i]));
    }
  }

  /** A name that no visited binding's `@PathParam` carries has no template value. */
  lemma {:induction false} TemplateValuesUnbound(bs: seq<Binding>, name: string)
    requires forall k :: 0 <= k < |bs| ==> bs[k].annotation != PathParam(name)
    ensures Get(TemplateValues(bs), name).None?
  {
    if bs != [] {
      var init := bs[..|bs| - 1];
      var b := bs[|bs| - 1];
      assert forall k :: 0 <= k < |init| ==> init[k] == bs[k];
      TemplateValuesUnbound(init, name);
      if b.annotation.PathParam? {
        PutOther(TemplateValues(init), b.annotation.name, b.argument, name);
      }
    }
  }

  /** A template value is bound by the last `@PathParam` of its name in
      visiting order, `bs[k]`. */
  lemma {:induction false} TemplateValuesMeaning(bs: seq<Binding>, name: string, k: nat)
    requires k < |bs| && bs[k].annotation == PathParam(name)
    requires forall l :: k < l < |bs| ==> bs[l].annotation != PathParam(name)
    ensures Get(TemplateValues(bs), name) == Some(bs[k].argument)
  {
    var init := bs[..|bs| - 1];
    var b := bs[|bs| - 1];
    if k == |bs| - 1 {
      PutGet(TemplateValues(init), name, b.argument);
    } else {
      assert forall l :: 0 <= l < |init| ==> init[l] == bs[l];
      TemplateValuesMeaning(init, name, k);
      if b.annotation.PathParam? {
        PutOther(TemplateValues(init), b.annotation.name, b.argument, name);
      }
    }
  }

  /** `x` is collected from the bindings of the first `n` arguments exactly
      when some annotation of one of those parameters, paired with its
      argument, contributes it. */
  lemma CollectBindingsMembership<T>(pa: seq<seq<ParamAnnotation>>, args: seq<Argument>, n: nat,
                                     f: Binding -> seq<T>, x: T)
    requires n <= |args|
    ensures x in Collect(Bindings(pa, args, n), f) <==>
      exists i, a :: 0 <= i < n && a in Annotated(pa, i) && x in f(Binding(a, args[i]))
  {
    var bs := Bindings(pa, args, n);
    CollectMembership(bs, f, x);
    if x in Collect(bs, f) {
      var k :| 0 <= k < |bs| && x in f(bs[k]);
      BindingsMembership(pa, args, n, bs[k]);
    }
    if exists i, a :: 0 <= i < n && a in Annotated(pa, i) && x in f(Binding(a, args[i])) {
      var i, a :| 0 <= i < n && a in Annotated(pa, i) && x in f(Binding(a, args[i]));
      BindingsMembership(pa, args, n, Binding(a, args[i]));
      var k :| 0 <= k < |bs| && bs[k] == Binding(a, args[i]);
    }
  }

  // ---------------------------------------------------------------------------
  // The entity

  datatype BodyPart =
    | FieldPart(name: string, value: string)
    | FilePart(name: string, file: Argument)
    | StreamPart(name: string, stream: Argument, fileName: Option<string>)

  /** What an entity wraps: an unannotated argument, a urlencoded form, or a
      multipart form. */
  datatype EntityPayload =
    | ArgumentBody(argument: Argument)
    | FormBody(params: seq<(string, string)>)
    | MultipartBody(parts: seq<BodyPart>)

  datatype Entity = Entity(payload: EntityPayload, mediaType: string)

  const WildcardMediaType := "*/*"
  const FormMediaType := "application/x-www-form-urlencoded"
  const MultipartMediaType := "multipart/form-data"

  /** A `MultiPart` object carries its own media type. */
  function OwnMediaType(payload: EntityPayload): Option<string>
  {
    match payload
    case ArgumentBody(MultiPartArg(mediaType, _)) => Some(mediaType)
    case MultipartBody(_) => Some(MultipartMediaType)
    case _ => None
  }

  /** `toEntity`: a multipart object uses its own media type; anything else
      the one given; a blank or missing type becomes the wildcard. */
  function ToEntity(payload: EntityPayload, mediaType: Option<string>): (e: Entity)
    ensures e.payload == payload
    ensures OwnMediaType(payload).Some? && !IsBlank(OwnMediaType(payload)) ==> e.mediaType == OwnMediaType(payload).value
    ensures OwnMediaType(payload).None? && !IsBlank(mediaType) ==> e.mediaType == mediaType.value
    ensures e.mediaType != WildcardMediaType ==> !IsBlank(Some(e.mediaType))
    ensures IsBlank(if OwnMediaType(payload).Some? then OwnMediaType(payload) else mediaType) ==> e.mediaType == WildcardMediaType
  {
    var chosen := if OwnMediaType(payload).Some? then OwnMediaType(payload) else mediaType;
    if !IsBlank(chosen) then Entity(payload, chosen.value) else Entity(payload, WildcardMediaType)
  }

  // ---------------------------------------------------------------------------
  // invoke: the first argument loop (query parameters and the body)

  function QueryOf(b: Binding): seq<(string, string)>
  {
    if b.annotation.QueryParam? then [(b.annotation.name, Str(b.argument))] else []
  }

  /** An argument with no annotations, or past the annotation array, is the body. */
  predicate Unannotated(pa: seq<seq<ParamAnnotation>>, i: nat)
  {
    i >= |pa| || pa[i] == []
  }

  /** The body argument after the first `n` arguments: the latest unannotated one. */
  function BodyArgument(pa: seq<seq<ParamAnnotation>>, args: seq<Argument>, n: nat): Option<Argument>
    requires n <= |args|
  {
    if n == 0 then None
    else if Unannotated(pa, n - 1) then Some(args[n - 1])
    else BodyArgument(pa, args, n - 1)
  }

  /** There is no body exactly when every argument is annotated. */
  lemma {:induction false} BodyArgumentNone(pa: seq<seq<ParamAnnotation>>, args: seq<Argument>, n: nat)
    requires n <= |args|
    ensures BodyArgument(pa, args, n).None? <==> forall i :: 0 <= i < n ==> !Unannotated(pa, i)
  {
    if n > 0 {
      BodyArgumentNone(pa, args, n - 1);
    }
  }

  /** The last unannotated argument is the body. */
  lemma {:induction false} BodyArgumentLast(pa: seq<seq<ParamAnnotation>>, args: seq<Argument>, n: nat, i: nat)
    requires i < n <= |args| && Unannotated(pa, i)
    requires forall j :: i < j < n ==> !Unannotated(pa, j)
    ensures BodyArgument(pa, args, n) == Some(args[i])
  {
    if i < n - 1 {
      BodyArgumentLast(pa, args, n - 1, i);
    }
  }

  /** The inner loop over one parameter's annotations, adding query parameters. */
  method AddQueryParameters(ghost done: seq<Binding>, annotations: seq<ParamAnnotation>, argument: Argument,
                            query: seq<(string, string)>) returns (query': seq<(string, string)>)
    requires query == Collect(done, QueryOf)
    ensures query' == Collect(done + Pair(annotations, argument), QueryOf)
  {
    query' := query;
    assert done + Pair(annotations[..0], argument) == done;
    var j := 0;
    while j < |annotations|
      invariant j <= |annotations|
      invariant query' == Collect(done + Pair(annotations[..j], argument), QueryOf)
    {
      PairSnoc(annotations, argument, j);
      assert done + Pair(annotations[..j + 1], argument) == (done + Pair(annotations[..j], argument)) + [Binding(annotations[j], argument)];
      CollectSnoc(done + Pair(annotations[..j], argument), Binding(annotations[j], argument), QueryOf);
      if annotations[j].QueryParam? {
        query' := query' + [(annotations[j].name, Str(argument))];
      }
      j := j + 1;
    }
    assert annotations[..|annotations|] == annotations;
  }

  // ---------------------------------------------------------------------------
  // invoke: the second argument loop (cookies, headers, form parameters)

  /** A `Cookie` argument passes through; anything else is wrapped under the
      annotation's name. */
  function CookieOf(b: Binding): seq<Cookie>
  {
    if !b.annotation.CookieParam? then []
    else if b.argument.CookieArg? then [b.argument.cookie]
    else [Cookie(b.annotation.name, Str(b.argument))]
  }

  function HeaderOf(b: Binding): seq<(string, string)>
  {
    if b.annotation.HeaderParam? then [(b.annotation.name, Str(b.argument))] else []
  }

  function FormOf(b: Binding): seq<(string, string)>
  {
    if b.annotation.FormParam? then [(b.annotation.name, Str(b.argument))] else []
  }

  /** The state of the second loop: cookies and headers added to the
      request builder, and the form parameters (an empty list standing for
      the form not yet created: every `@FormParam` adds a pair). */
  datatype RequestParams = RequestParams(cookies: seq<Cookie>, headers: seq<(string, string)>, form: seq<(string, string)>)

  function RequestParamsOf(bs: seq<Binding>): RequestParams
  {
    RequestParams(Collect(bs, CookieOf), Collect(bs, HeaderOf), Collect(bs, FormOf))
  }

  /** One iteration of the inner loop of the second argument loop. */
  lemma RequestParamsStep(done: seq<Binding>, anns: seq<ParamAnnotation>, arg: Argument, j: nat)
    requires j < |anns|
    ensures var before := RequestParamsOf(done + Pair(anns[..j], arg));
            var b := Binding(anns[j], arg);
            RequestParamsOf(done + Pair(anns[..j + 1], arg))
            == RequestParams(before.cookies + CookieOf(b), before.headers + HeaderOf(b), before.form + FormOf(b))
  {
    var prefix := done + Pair(anns[..j], arg);
    var b := Binding(anns[j], arg);
    PairSnoc(anns, arg, j);
    assert done + Pair(anns[..j + 1], arg) == prefix + [b];
    CollectSnoc(prefix, b, CookieOf);
    CollectSnoc(prefix, b, HeaderOf);
    CollectSnoc(prefix, b, FormOf);
  }

  method AddRequestParameters(ghost done: seq<Binding>, annotations: seq<ParamAnnotation>, argument: Argument,
                              params: RequestParams) returns (params': RequestParams)
    requires params == RequestParamsOf(done)
    ensures params' == RequestParamsOf(done + Pair(annotations, argument))
  {
    var cookies, headers, form := params.cookies, params.headers, params.form;
    assert done + Pair(annotations[..0], argument) == done;
    var j := 0;
    while j < |annotations|
      invariant j <= |annotations|
      invariant RequestParams(cookies, headers, form) == RequestParamsOf(done + Pair(annotations[..j], argument))
    {
      RequestParamsStep(done, annotations, argument, j);
      var annotation := annotations[j];
      if annotation.CookieParam? {
        var cookie := if argument.CookieArg? then argument.cookie else Cookie(annotation.name, Str(argument));
        cookies := cookies + [cookie];
      } else if annotation.HeaderParam? {
        headers := headers + [(annotation.name, Str(argument))];
      } else if annotation.FormParam? {
        form := form + [(annotation.name, Str(argument))];
      }
      j := j + 1;
    }
    assert annotations[..|annotations|] == annotations;
    params' := RequestParams(cookies, headers, form);
  }

  // ---------------------------------------------------------------------------
  // processFormDataParams

  /** The name of a `@FormDataParam`; its presence is what creates the multipart. */
  function FormDataNameOf(b: Binding): seq<string>
  {
    if b.annotation.FormDataParam? then [b.annotation.name] else []
  }

  /** The parts added in the first pass: a file part for a `File`, a text
      field for anything that is neither a stream nor a disposition. */
  function FixedPartOf(b: Binding): seq<BodyPart>
  {
    if !b.annotation.FormDataParam? then []
    else match b.argument
      case FileArg(_, _) => [FilePart(b.annotation.name, b.argument)]
      case Stream(_) => []
      case Disposition(_, _) => []
      case _ => [FieldPart(b.annotation.name, Str(b.argument))]
  }

  /** A name-keyed map built binding by binding, a later entry of a name
      replacing an earlier one. */
  function Index<T>(bs: seq<Binding>, f: Binding -> Option<(string, T)>): map<string, T>
  {
    if bs == [] then map[]
    else
      var prev := Index(bs[..|bs| - 1], f);
      var e := f(bs[|bs| - 1]);
      if e.None? then prev else prev[e.value.0 := e.value.1]
  }

  lemma IndexSnoc<T>(bs: seq<Binding>, b: Binding, f: Binding -> Option<(string, T)>)
    ensures Index(bs + [b], f) == if f(b).None? then Index(bs, f) else Index(bs, f)[f(b).value.0 := f(b).value.1]
  {
    assert (bs + [b])[..|bs|] == bs;
  }

  function StreamEntry(b: Binding): Option<(string, Argument)>
  {
    if b.annotation.FormDataParam? && b.argument.Stream? then Some((b.annotation.name, b.argument)) else None
  }

  function DispositionEntry(b: Binding): Option<(string, Option<string>)>
  {
    if b.annotation.FormDataParam? && b.argument.Disposition? then Some((b.annotation.name, b.argument.fileName)) else None
  }

  /** The state of the first pass. */
  datatype FormDataScan = FormDataScan(
    created: bool,
    parts: seq<BodyPart>,
    inputStreams: map<string, Argument>,
    contentDispositions: map<string, Option<string>>)

  function FormDataScanOf(bs: seq<Binding>): FormDataScan
  {
    FormDataScan(Collect(bs, FormDataNameOf) != [], Collect(bs, FixedPartOf), Index(bs, StreamEntry), Index(bs, DispositionEntry))
  }

  /** The stream part for `name`: its file name is that of the disposition
      of the same name, or the parameter name when there is none. */
  function StreamPartOf(name: string, inputStreams: map<string, Argument>, contentDispositions: map<string, Option<string>>): BodyPart
    requires name in inputStreams
  {
    StreamPart(name, inputStreams[name], if name in contentDispositions then contentDispositions[name] else Some(name))
  }

  function PartNames(sp: seq<BodyPart>): set<string>
  {
    if sp == [] then {} else PartNames(sp[..|sp| - 1]) + {sp[|sp| - 1].name}
  }

  /** `sp` holds one stream part for each name in `names`, in some order. */
  predicate StreamPartsFor(sp: seq<BodyPart>, names: set<string>,
                           inputStreams: map<string, Argument>, contentDispositions: map<string, Option<string>>)
  {
    && (forall k :: 0 <= k < |sp| ==> sp[k].name in names && sp[k].name in inputStreams &&
                                      sp[k] == StreamPartOf(sp[k].name, inputStreams, contentDispositions))
    && (forall k, l :: 0 <= k < l < |sp| ==> sp[k].name != sp[l].name)
    && PartNames(sp) == names
  }

  /** What `processFormDataParams` may return for the bindings `bs`: nothing
      without a `@FormDataParam`; otherwise the first-pass parts in binding
      order followed by one stream part per stream name, in the hash map's
      order. */
  predicate ValidMultipart(multipart: Option<seq<BodyPart>>, bs: seq<Binding>)
  {
    var scan := FormDataScanOf(bs);
    && (multipart.None? <==> !scan.created)
    && (multipart.Some? ==>
          && |scan.parts| <= |multipart.value|
          && multipart.value[..|scan.parts|] == scan.parts
          && StreamPartsFor(multipart.value[|scan.parts|..], scan.inputStreams.Keys, scan.inputStreams, scan.contentDispositions))
  }

  /** One annotation of the first pass: a `@FormDataParam` creates the
      multipart and files its argument as a file part, a stream, a
      disposition or a text field. */
  method AddFormDataAnnotation(ghost prefix: seq<Binding>, annotation: ParamAnnotation, argument: Argument,
                               scan: FormDataScan) returns (scan': FormDataScan)
    requires scan == FormDataScanOf(prefix)
    ensures scan' == FormDataScanOf(prefix + [Binding(annotation, argument)])
  {
    var b := Binding(annotation, argument);
    CollectSnoc(prefix, b, FormDataNameOf);
    CollectSnoc(prefix, b, FixedPartOf);
    IndexSnoc(prefix, b, StreamEntry);
    IndexSnoc(prefix, b, DispositionEntry);
    var created, parts, inputStreams, contentDispositions := scan.created, scan.parts, scan.inputStreams, scan.contentDispositions;
    if annotation.FormDataParam? {
      created := true;
      var paramName := annotation.name;
      if argument.FileArg? {
        parts := parts + [FilePart(paramName, argument)];
      } else if argument.Stream? {
        inputStreams := inputStreams[paramName := argument];
      } else if argument.Disposition? {
        contentDispositions := contentDispositions[paramName := argument.fileName];
      } else {
        parts := parts + [FieldPart(paramName, Str(argument))];
      }
    }
    scan' := FormDataScan(created, parts, inputStreams, contentDispositions);
  }

  /** The first pass's inner loop over one parameter's annotations. */
  method AddFormDataParameter(ghost done: seq<Binding>, annotations: seq<ParamAnnotation>, argument: Argument,
                              scan: FormDataScan) returns (scan': FormDataScan)
    requires scan == FormDataScanOf(done)
    ensures scan' == FormDataScanOf(done + Pair(annotations, argument))
  {
    scan' := scan;
    assert done + Pair(annotations[..0], argument) == done;
    var j := 0;
    while j < |annotations|
      invariant j <= |annotations|
      invariant scan' == FormDataScanOf(done + Pair(annotations[..j], argument))
    {
      PairSnoc(annotations, argument, j);
      assert done + Pair(annotations[..j + 1], argument)
          == (done + Pair(annotations[..j], argument)) + [Binding(annotations[j], argument)];
      scan' := AddFormDataAnnotation(done + Pair(annotations[..j], argument), annotations[j], argument, scan');
      j := j + 1;
    }
    assert annotations[..|annotations|] == annotations;
  }

  /** Adding the part of a name not yet visited keeps `StreamPartsFor` over
      the visited names. */
  lemma StreamPartsSnoc(sp: seq<BodyPart>, remaining: set<string>, name: string,
                        inputStreams: map<string, Argument>, contentDispositions: map<string, Option<string>>)
    requires remaining <= inputStreams.Keys && name in remaining
    requires StreamPartsFor(sp, inputStreams.Keys - remaining, inputStreams, contentDispositions)
    ensures StreamPartsFor(sp + [StreamPartOf(name, inputStreams, contentDispositions)], inputStreams.Keys - (remaining - {name}),
                           inputStreams, contentDispositions)
  {
    var sp' := sp + [StreamPartOf(name, inputStreams, contentDispositions)];
    assert sp'[..|sp|] == sp;
    assert (inputStreams.Keys - remaining) + {name} == inputStreams.Keys - (remaining - {name});
  }

  /** The second pass: one stream part per stream name, in the order the
      hash map yields its entries (any order). */
  method AddStreamParts(fixed: seq<BodyPart>, inputStreams: map<string, Argument>,
                        contentDispositions: map<string, Option<string>>) returns (parts: seq<BodyPart>)
    ensures |fixed| <= |parts| && parts[..|fixed|] == fixed
    ensures StreamPartsFor(parts[|fixed|..], inputStreams.Keys, inputStreams, contentDispositions)
  {
    parts := fixed;
    ghost var streamParts: seq<BodyPart> := [];
    var remaining := inputStreams.Keys;
    while remaining != {}
      invariant remaining <= inputStreams.Keys
      invariant parts == fixed + streamParts
      invariant StreamPartsFor(streamParts, inputStreams.Keys - remaining, inputStreams, contentDispositions)
      decreases |remaining|
    {
      var paramName :| paramName in remaining;
      var fileName := if paramName in contentDispositions then contentDispositions[paramName] else Some(paramName);
      var part := StreamPart(paramName, inputStreams[paramName], fileName);
      assert part == StreamPartOf(paramName, inputStreams, contentDispositions);
      StreamPartsSnoc(streamParts, remaining, paramName, inputStreams, contentDispositions);
      streamParts := streamParts + [part];
      parts := parts + [part];
      remaining := remaining - {paramName};
    }
    assert parts[..|fixed|] == fixed && parts[|fixed|..] == streamParts;
  }

  /** One iteration of the first pass: an argument past the annotation array
      is skipped. */
  method ScanFormDataArgument(pa: seq<seq<ParamAnnotation>>, args: seq<Argument>, i: nat, scan: FormDataScan)
    returns (scan': FormDataScan)
    requires i < |args| && scan == FormDataScanOf(Bindings(pa, args, i))
    ensures scan' == FormDataScanOf(Bindings(pa, args, i + 1))
  {
    BindingsNext(pa, args, i);
    scan' := scan;
    if i < |pa| {
      scan' := AddFormDataParameter(Bindings(pa, args, i), pa[i], args[i], scan);
    }
  }

  /** The first pass of `processFormDataParams`, over every argument. */
  method ScanFormDataParams(pa: seq<seq<ParamAnnotation>>, args: seq<Argument>) returns (scan: FormDataScan)
    ensures scan == FormDataScanOf(Bindings(pa, args, |args|))
  {
    scan := FormDataScan(false, [], map[], map[]);
    assert Bindings(pa, args, 0) == [];
    var i := 0;
    while i < |args|
      invariant i <= |args|
      invariant scan == FormDataScanOf(Bindings(pa, args, i))
    {
      scan := ScanFormDataArgument(pa, args, i, scan);
      i := i + 1;
    }
  }

  method ProcessFormDataParams(pa: seq<seq<ParamAnnotation>>, args: seq<Argument>) returns (multipart: Option<seq<BodyPart>>)
    ensures ValidMultipart(multipart, Bindings(pa, args, |args|))
  {
    var scan := ScanFormDataParams(pa, args);
    if !scan.created {
      return None;
    }
    var parts := AddStreamParts(scan.parts, scan.inputStreams, scan.contentDispositions);
    multipart := Some(parts);
  }

  // ---------------------------------------------------------------------------
  // invoke

  datatype Dispatch = DoGet | DoPut(entity: Option<Entity>) | DoPost(entity: Option<Entity>) | DoDelete

  /** The call that would go out: target path, query parameters, accepted
      media types, headers, cookies, and the verb with its entity. */
  datatype Request = Request(
    path: UriPath,
    query: seq<(string, string)>,
    accept: seq<string>,
    headers: seq<(string, string)>,
    cookies: seq<Cookie>,
    dispatch: Dispatch)

  /** Why `invoke` builds no request: the method has no descriptor, or,
      with Java assertions enabled, a form or multipart `assert` fails. */
  datatype InvokeError = NotRestMethod(javaMethod: JavaMethod) | AssertionFailed

  /** GET and DELETE send no entity; PUT and POST send the resolved one,
      which may be null. */
  function DispatchFor(verb: Verb, entity: Option<Entity>): Dispatch
  {
    match verb
    case GET => DoGet
    case PUT => DoPut(entity)
    case POST => DoPost(entity)
    case DELETE => DoDelete
  }

  /** The media type of an unannotated body: the first consumed type. */
  function BodyMediaType(m: RestMethodMetadata): Option<string>
  {
    if m.consumed == [] then None else Some(m.consumed[0])
  }

  /** The entity after both loops and the multipart pass, from the last
      unannotated argument `body`, the form parameters `form` and the result
      of `processFormDataParams`: each later source replaces the earlier one,
      and the multipart and the form carry their own media types. */
  function EntityChoice(body: Option<Argument>, bodyMediaType: Option<string>, form: seq<(string, string)>,
                        multipart: Option<seq<BodyPart>>): (e: Option<Entity>)
    ensures multipart.Some? ==> e == Some(Entity(MultipartBody(multipart.value), MultipartMediaType))
    ensures multipart.None? && form != [] ==> e == Some(Entity(FormBody(form), FormMediaType))
    ensures multipart.None? && form == [] ==> (e.None? <==> body.None?)
    ensures multipart.None? && form == [] && body.Some? ==>
              && e.value.payload == ArgumentBody(body.value)
              && (!body.value.MultiPartArg? && !IsBlank(bodyMediaType) ==> e.value.mediaType == bodyMediaType.value)
              && (!body.value.MultiPartArg? && IsBlank(bodyMediaType) ==> e.value.mediaType == WildcardMediaType)
  {
    assert !IsWhitespace(MultipartMediaType[0]);
    assert !IsWhitespace(FormMediaType[0]);
    if multipart.Some? then Some(ToEntity(MultipartBody(multipart.value), Some(MultipartMediaType)))
    else if form != [] then Some(ToEntity(FormBody(form), Some(FormMediaType)))
    else if body.Some? then Some(ToEntity(ArgumentBody(body.value), bodyMediaType))
    else None
  }

  function EntityFor(m: RestMethodMetadata, args: seq<Argument>, multipart: Option<seq<BodyPart>>): Option<Entity>
  {
    EntityChoice(BodyArgument(m.parameterAnnotations, args, |args|), BodyMediaType(m),
                 Collect(Bindings(m.parameterAnnotations, args, |args|), FormOf), multipart)
  }

  /** The request `invoke` sends for a method with descriptor `m`, given the
      multipart entity `processFormDataParams` built. */
  function RequestFor(base: string, iface: RestInterfaceMetadata, m: RestMethodMetadata, args: seq<Argument>,
                      multipart: Option<seq<BodyPart>>): Request
  {
    var all := Bindings(m.parameterAnnotations, args, |args|);
    var params := RequestParamsOf(all);
    Request(PathSpec(base, iface, m, args), Collect(all, QueryOf), m.produced + m.consumed,
            params.headers, params.cookies, DispatchFor(m.httpMethod, EntityFor(m, args, multipart)))
  }

  /** The two Java `assert`s: form or multipart parameters come with no
      unannotated body and a POST, and a multipart comes with no form. */
  predicate FormAssertionsHold(m: RestMethodMetadata, args: seq<Argument>)
  {
    var all := Bindings(m.parameterAnnotations, args, |args|);
    var noBody := BodyArgument(m.parameterAnnotations, args, |args|).None?;
    && (Collect(all, FormOf) != [] ==> noBody && m.httpMethod == POST)
    && (FormDataScanOf(all).created ==> noBody && Collect(all, FormOf) == [] && m.httpMethod == POST)
  }

  /** One iteration of the first argument loop: an unannotated argument
      becomes the body, an annotated one adds its query parameters. */
  method ScanQueryAndBodyArgument(pa: seq<seq<ParamAnnotation>>, args: seq<Argument>, i: nat,
                                  query: seq<(string, string)>, body: Option<Argument>)
    returns (query': seq<(string, string)>, body': Option<Argument>)
    requires i < |args|
    requires query == Collect(Bindings(pa, args, i), QueryOf) && body == BodyArgument(pa, args, i)
    ensures query' == Collect(Bindings(pa, args, i + 1), QueryOf) && body' == BodyArgument(pa, args, i + 1)
  {
    ghost var done := Bindings(pa, args, i);
    BindingsNext(pa, args, i);
    query', body' := query, body;
    if |pa| <= i || pa[i] == [] {
      body' := Some(args[i]);
      assert Bindings(pa, args, i + 1) == done by {
        assert Pair(Annotated(pa, i), args[i]) == [];
        assert done + [] == done;
      }
    } else {
      query' := AddQueryParameters(done, pa[i], args[i], query);
    }
  }

  /** The first argument loop of `invoke`: query parameters in order, and
      the last unannotated argument, which becomes the entity. */
  method ScanQueryAndBody(pa: seq<seq<ParamAnnotation>>, args: seq<Argument>)
    returns (query: seq<(string, string)>, body: Option<Argument>)
    ensures query == Collect(Bindings(pa, args, |args|), QueryOf)
    ensures body == BodyArgument(pa, args, |args|)
  {
    body := None;
    query := [];
    assert Bindings(pa, args, 0) == [];
    var i := 0;
    while i < |args|
      invariant i <= |args|
      invariant query == Collect(Bindings(pa, args, i), QueryOf)
      invariant body == BodyArgument(pa, args, i)
    {
      query, body := ScanQueryAndBodyArgument(pa, args, i, query, body);
      i := i + 1;
    }
  }

  /** The second argument loop of `invoke`: cookies, headers and form
      parameters in argument order. */
  method ScanRequestParams(pa: seq<seq<ParamAnnotation>>, args: seq<Argument>) returns (params: RequestParams)
    ensures params == RequestParamsOf(Bindings(pa, args, |args|))
  {
    params := RequestParams([], [], []);
    assert Bindings(pa, args, 0) == [];
    var i := 0;
    while i < |args|
      invariant i <= |args|
      invariant params == RequestParamsOf(Bindings(pa, args, i))
    {
      ghost var done := Bindings(pa, args, i);
      BindingsNext(pa, args, i);
      if i < |pa| {
        params := AddRequestParameters(done, pa[i], args[i], params);
      }
      i := i + 1;
    }
  }

  /** `invoke`: a method without a descriptor fails with `NotRestMethod`
      before anything is built. Otherwise the request is `RequestFor` up to
      the order of the multipart's stream parts, unless assertions are
      enabled and a form or multipart `assert` fails. */
  method Invoke(base: string, iface: RestInterfaceMetadata, thisMethod: JavaMethod, args: seq<Argument>,
                assertionsEnabled: bool)
    returns (r: Result<Request, InvokeError>)
    ensures Get(iface.methodMetaData, thisMethod).None? <==> r == Failure(NotRestMethod(thisMethod))
    ensures Get(iface.methodMetaData, thisMethod).Some? ==>
      && (r.Success? <==> !assertionsEnabled || FormAssertionsHold(Get(iface.methodMetaData, thisMethod).value, args))
      && (r.Failure? ==> r.error == AssertionFailed)
    ensures r.Success? ==>
      exists multipart :: ValidMultipart(multipart, Bindings(Get(iface.methodMetaData, thisMethod).value.parameterAnnotations, args, |args|))
                       && r.value == RequestFor(base, iface, Get(iface.methodMetaData, thisMethod).value, args, multipart)
  {
    var lookup := Get(iface.methodMetaData, thisMethod);
    if lookup.None? {
      return Failure(NotRestMethod(thisMethod));
    }
    var methodMetaData := lookup.value;
    var path := GetPath(base, iface, methodMetaData, args);
    var pa := methodMetaData.parameterAnnotations;
    var bodyParameterMediaType := BodyMediaType(methodMetaData);

    var query, body := ScanQueryAndBody(pa, args);
    var entity: Option<Entity> := None;
    if body.Some? {
      entity := Some(ToEntity(ArgumentBody(body.value), bodyParameterMediaType));
    }
    var accept := methodMetaData.produced + methodMetaData.consumed;
    var params := ScanRequestParams(pa, args);
    if params.form != [] {
      if assertionsEnabled && !(entity.None? && methodMetaData.httpMethod == POST) {
        return Failure(AssertionFailed);
      }
      entity := Some(ToEntity(FormBody(params.form), Some(FormMediaType)));
    }
    var multipart := ProcessFormDataParams(pa, args);
    if multipart.Some? {
      if assertionsEnabled && !(entity.None? && methodMetaData.httpMethod == POST) {
        return Failure(AssertionFailed);
      }
      entity := Some(ToEntity(MultipartBody(multipart.value), Some(MultipartMediaType)));
    }
    var dispatch := DispatchFor(methodMetaData.httpMethod, entity);
    r := Success(Request(path, query, accept, params.headers, params.cookies, dispatch));
    assert r.value == RequestFor(base, iface, methodMetaData, args, multipart);
  }

  /** The entity that goes out: under the form assertions a multipart or a
      form is always posted; a PUT or POST without either carries the body
      entity or nothing; GET and DELETE carry nothing. */
  lemma RequestEntityMeaning(base: string, iface: RestInterfaceMetadata, m: RestMethodMetadata, args: seq<Argument>,
                             multipart: Option<seq<BodyPart>>)
    requires FormAssertionsHold(m, args)
    ensures var d := RequestFor(base, iface, m, args, multipart).dispatch;
            var all := Bindings(m.parameterAnnotations, args, |args|);
            && (m.httpMethod == GET <==> d == DoGet)
            && (m.httpMethod == DELETE <==> d == DoDelete)
            && (FormDataScanOf(all).created || Collect(all, FormOf) != [] ==> d == DoPost(EntityFor(m, args, multipart)))
            && (m.httpMethod == PUT || m.httpMethod == POST ==> d.entity == EntityFor(m, args, multipart))
  {
    var req := RequestFor(base, iface, m, args, multipart);
    assert req.dispatch == DispatchFor(m.httpMethod, EntityFor(m, args, multipart));
  }

  /** Query parameters: a pair is sent exactly when some argument carries a
      `@QueryParam` of that name and the pair's value is its text. */
  lemma RequestQueryMeaning(base: string, iface: RestInterfaceMetadata, m: RestMethodMetadata, args: seq<Argument>,
                            multipart: Option<seq<BodyPart>>, key: string, value: string)
    ensures (key, value) in RequestFor(base, iface, m, args, multipart).query <==>
      exists i, a :: 0 <= i < |args| && a in Annotated(m.parameterAnnotations, i) && a == QueryParam(key) && value == Str(args[i])
  {
    var pa := m.parameterAnnotations;
    assert RequestFor(base, iface, m, args, multipart).query == Collect(Bindings(pa, args, |args|), QueryOf);
    CollectBindingsMembership(pa, args, |args|, QueryOf, (key, value));
    if exists i, a :: 0 <= i < |args| && a in Annotated(pa, i) && a == QueryParam(key) && value == Str(args[i]) {
      var i, a :| 0 <= i < |args| && a in Annotated(pa, i) && a == QueryParam(key) && value == Str(args[i]);
      assert (key, value) in QueryOf(Binding(a, args[i]));
    }
  }

  /** Header parameters, in the same way. */
  lemma RequestHeaderMeaning(base: string, iface: RestInterfaceMetadata, m: RestMethodMetadata, args: seq<Argument>,
                             multipart: Option<seq<BodyPart>>, key: string, value: string)
    ensures (key, value) in RequestFor(base, iface, m, args, multipart).headers <==>
      exists i, a :: 0 <= i < |args| && a in Annotated(m.parameterAnnotations, i) && a == HeaderParam(key) && value == Str(args[i])
  {
    var pa := m.parameterAnnotations;
    assert RequestFor(base, iface, m, args, multipart).headers == Collect(Bindings(pa, args, |args|), HeaderOf);
    CollectBindingsMembership(pa, args, |args|, HeaderOf, (key, value));
    if exists i, a :: 0 <= i < |args| && a in Annotated(pa, i) && a == HeaderParam(key) && value == Str(args[i]) {
      var i, a :| 0 <= i < |args| && a in Annotated(pa, i) && a == HeaderParam(key) && value == Str(args[i]);
      assert (key, value) in HeaderOf(Binding(a, args[i]));
    }
  }

  /** Cookies: a `Cookie` argument is sent as it is, whatever the name in its
      `@CookieParam`; any other argument becomes a cookie named after the
      annotation with the argument's text. */
  lemma RequestCookieMeaning(base: string, iface: RestInterfaceMetadata, m: RestMethodMetadata, args: seq<Argument>,
                             multipart: Option<seq<BodyPart>>, c: Cookie)
    ensures c in RequestFor(base, iface, m, args, multipart).cookies <==>
      exists i, a :: 0 <= i < |args| && a in Annotated(m.parameterAnnotations, i) && a.CookieParam?
                  && c == (if args[i].CookieArg? then args[i].cookie else Cookie(a.name, Str(args[i])))
  {
    var pa := m.parameterAnnotations;
    assert RequestFor(base, iface, m, args, multipart).cookies == Collect(Bindings(pa, args, |args|), CookieOf);
    CollectBindingsMembership(pa, args, |args|, CookieOf, c);
    if exists i, a :: 0 <= i < |args| && a in Annotated(pa, i) && a.CookieParam?
                      && c == (if args[i].CookieArg? then args[i].cookie else Cookie(a.name, Str(args[i]))) {
      var i, a :| 0 <= i < |args| && a in Annotated(pa, i) && a.CookieParam?
                  && c == (if args[i].CookieArg? then args[i].cookie else Cookie(a.name, Str(args[i])));
      assert c in CookieOf(Binding(a, args[i]));
    }
  }

  // ---------------------------------------------------------------------------
  // invoke: failures

  /** What leaves `invoke` when the client library raises `thrown` for the
      response: the decoded throwable, or `thrown` itself. */
  datatype CallOutcome = Raise(raised: Raised) | Propagate(thrown: JaxRsException)

  /** The `catch` of `invoke`: only an `InternalServerErrorException` goes
      through the response-to-throwable mapper, with `body` the entity read
      as text; any other exception passes unchanged. */
  function HandleFailure(thrown: JaxRsException, body: Option<string>, jk: Jackson, constructionFails: bool): (o: CallOutcome)
    ensures o.Raise? <==> thrown.StatusException? && thrown.kind == InternalServerError
    ensures o.Propagate? ==> o.thrown == thrown
    ensures o.Raise? && body.None? ==> o.raised == StatusMapped(ResponseToJaxRs(thrown.response, constructionFails))
    ensures o.Raise? && body.Some? ==> o.raised == ResponseToThrowable(thrown.response, body, jk, constructionFails)
  {
    if thrown.StatusException? && thrown.kind == InternalServerError
    then Raise(ResponseToThrowable(thrown.response, body, jk, constructionFails))
    else Propagate(thrown)
  }

  /** End to end, with the client library raising the exception of the
      JAX-RS status table: a throwable the server maps to status 500 is
      rebuilt on the client as `RoundTrip` describes; one with any other
      status reaches the caller as that status's JAX-RS exception, its
      payload unread. */
  lemma ServerFailureReachesCaller(t: Throwable, jk: Jackson, constructionFails: bool)
    requires WritesReadBack(jk) && ClassesNamed(jk) && ValidStatus(t) && Rebuildable(t, jk)
    ensures var r := ThrowableToResponse(t, jk);
            var outcome := HandleFailure(ResponseToJaxRs(r, false), r.entity, jk, constructionFails);
            && (StatusOf(t) == 500 ==>
                  outcome == Raise(Decoded(t.(message := if jk.classes[t.className].messageConstructor then t.message
                                                         else jk.classes[t.className].defaultMessage,
                                              cause := None, stackTrace := [], suppressed := []))))
            && (StatusOf(t) != 500 ==> outcome == Propagate(StatusException(StatusKind(StatusOf(t)), r)))
  {
    RoundTrip(t, jk, constructionFails);
    var r := ThrowableToResponse(t, jk);
    StatusKindTable(r.status);
  }
}

=== FILE: common.dfy ===
/** Small shared vocabulary: optional values, results, and the blank-string test
    (`StringUtils.isBlank`) that every core file uses to treat a missing or
    whitespace-only string as absent. */
module Common {

  /** A Java reference that may be null. */
  datatype Option<+T> = None | Some(value: T)

  /** The outcome of an operation that may raise a checked error. */
  datatype Result<+T, +E> = Success(value: T) | Failure(error: E)

  /** `Character.isWhitespace`: the space, line and paragraph separators other
      than the non-breaking spaces, plus the control characters TAB, LF, VT, FF,
      CR and FS, GS, RS, US. */
  predicate IsWhitespace(c: char)
  {
    || c == ' ' || c == '\t' || c == '\n' || c == '\U{000B}' || c == '\U{000C}' || c == '\r'
    || ('\U{001C}' <= c <= '\U{001F}')
    || c == '\U{1680}'
    || ('\U{2000}' <= c <= '\U{2006}') || ('\U{2008}' <= c <= '\U{200A}')
    || c == '\U{2028}' || c == '\U{2029}' || c == '\U{205F}' || c == '\U{3000}'
  }

  /** `StringUtils.isBlank` on a non-null string: empty or whitespace only. */
  predicate BlankText(s: string)
  {
    forall i :: 0 <= i < |s| ==> IsWhitespace(s[i])
  }

  /** `StringUtils.isBlank` on a string that may be null. */
  predicate IsBlank(s: Option<string>)
  {
    s.None? || BlankText(s.value)
  }
}

=== FILE: error_codec.dfy ===
/** The error-propagation codec: the server-side encoder
    (`ThrowableToResponseMapper`), the client-side decoder chain
    (`ResponseToThrowableMapper` with `ExceptionPayloadDeserializer`) and the
    status-code table of `ResponseToJaxRsExceptionMapper`. Where the code as
    written lets an exception escape, the as-written function is kept beside
    the corrected one the rest of the model uses. */
module ErrorCodec {
  import opened Common
  import opened ErrorModel

  /** The parts of Jackson the codec relies on: reading text as a tree
      (`None` for text that is not JSON), writing a tree as text, the
      exception classes `ReflectionUtils.forName` can load, and the types the
      mask mix-in is registered for. */
  datatype Jackson = Jackson(
    parse: string -> Option<Json>,
    write: Json -> string,
    classes: map<string, ExceptionClass>,
    mixinTargets: set<string>)

  /** Every tree Jackson writes reads back as itself. */
  ghost predicate WritesReadBack(jk: Jackson)
  {
    forall j :: jk.parse(jk.write(j)) == Some(j)
  }

  /** Each loadable class is registered under its own name. */
  predicate ClassesNamed(jk: Jackson)
  {
    forall n :: n in jk.classes ==> jk.classes[n].name == n
  }

  /** Runtime exceptions that leave a mapper uncaught. */
  datatype Escaped = NullPointerException | ClassCastException | IllegalArgumentException

  datatype Response = Response(status: int, entity: Option<string>)

  // ---------------------------------------------------------------------------
  // Status table (ResponseToJaxRsExceptionMapper)

  /** `Response.Status.fromStatusCode(code) != null`: the codes of the
      JAX-RS 2.0 status enum. */
  predicate IsStandardStatus(code: int)
  {
    code in {200, 201, 202, 204, 205, 206, 301, 302, 303, 304, 305, 307,
             400, 401, 402, 403, 404, 405, 406, 407, 408, 409, 410, 411, 412, 413, 414, 415, 416, 417,
             500, 501, 502, 503, 504, 505}
  }

  datatype JaxRsKind =
    | BadRequest | NotAuthorized | Forbidden | NotFound | NotAllowed | NotAcceptable | NotSupported
    | InternalServerError | ServiceUnavailable
    | Redirection | ClientError | ServerError | WebApplication

  /** `createExceptionForFamily`: by status class (section 6 of RFC 7231). */
  function FamilyKind(code: int): JaxRsKind
  {
    if 300 <= code < 400 then Redirection
    else if 400 <= code < 500 then ClientError
    else if 500 <= code < 600 then ServerError
    else WebApplication
  }

  /** The switch of `apply`: nine listed statuses get their own kind, any
      other status (known or not) goes by its class. */
  function StatusKind(code: int): (k: JaxRsKind)
    ensures Admits(k, code)
    ensures k == WebApplication <==> code < 300 || code >= 600
  {
    if !IsStandardStatus(code) then FamilyKind(code)
    else if code == 400 then BadRequest
    else if code == 401 then NotAuthorized
    else if code == 403 then Forbidden
    else if code == 404 then NotFound
    else if code == 405 then NotAllowed
    else if code == 406 then NotAcceptable
    else if code == 415 then NotSupported
    else if code == 500 then InternalServerError
    else if code == 503 then ServiceUnavailable
    else FamilyKind(code)
  }

  /** The statuses each exception kind may carry: the JAX-RS constructors
      check this of the response they are given. */
  predicate Admits(k: JaxRsKind, code: int)
  {
    match k
    case BadRequest => code == 400
    case NotAuthorized => code == 401
    case Forbidden => code == 403
    case NotFound => code == 404
    case NotAllowed => code == 405
    case NotAcceptable => code == 406
    case NotSupported => code == 415
    case InternalServerError => code == 500
    case ServiceUnavailable => code == 503
    case Redirection => 300 <= code < 400
    case ClientError => 400 <= code < 500
    case ServerError => 500 <= code < 600
    case WebApplication => true
  }

  /** The table is total and sound: every code gets a kind that admits it,
      the most specific one there is; a code outside the status enum goes the
      same way as a listed-but-unswitched one. */
  lemma StatusKindTable(code: int)
    ensures Admits(StatusKind(code), code)
    ensures (StatusKind(code) == WebApplication) <==> (code < 300 || code >= 600)
    ensures forall k :: k != WebApplication && k != Redirection && k != ClientError && k != ServerError ==>
                        (StatusKind(code) == k <==> Admits(k, code))
    ensures !(code in {400, 401, 403, 404, 405, 406, 415, 500, 503}) ==> StatusKind(code) == FamilyKind(code)
  {
  }

  datatype JaxRsException = StatusException(kind: JaxRsKind, response: Response) | ProcessingException

  /** `ResponseToJaxRsExceptionMapper.apply`. `constructionFails` stands for
      any failure of the JAX-RS library while building the exception, which
      the mapper turns into a `ProcessingException` rather than throwing. */
  function ResponseToJaxRs(r: Response, constructionFails: bool): (e: JaxRsException)
    ensures constructionFails <==> e.ProcessingException?
    ensures e.StatusException? ==> e.response == r && Admits(e.kind, r.status) && e.kind == StatusKind(r.status)
    ensures e.StatusException? && 300 <= r.status < 600 ==> e.kind != WebApplication
  {
    StatusKindTable(r.status);
    if constructionFails then ProcessingException else StatusException(StatusKind(r.status), r)
  }

  // ---------------------------------------------------------------------------
  // ExceptionPayloadDeserializer

  /** The class name of the fallback `new InternalServerErrorException(message)`. */
  const InternalServerErrorClass := "javax.ws.rs.InternalServerErrorException"

  function InternalServerErrorOf(message: Option<string>): Throwable
  {
    Throwable(InternalServerErrorClass,
              {InternalServerErrorClass, "javax.ws.rs.ServerErrorException", "javax.ws.rs.WebApplicationException",
               "java.lang.RuntimeException", "java.lang.Exception", "java.lang.Throwable"},
              message, Some(500), map[], None, [], [])
  }

  /** The message read from the tree: the text of "exceptionMessage" when
      the key is there, null otherwise. */
  function WireMessage(tree: map<string, Json>): Option<string>
  {
    if "exceptionMessage" in tree then Some(AsText(tree["exceptionMessage"])) else None
  }

  /** The try block: a missing class-name key, a class `forName` cannot
      load, a missing "exception" key or a tree the class cannot bind from
      all fail (and are caught); a JSON null binds to null. */
  function RebuildException(tree: map<string, Json>, jk: Jackson): Rebuild
  {
    if "exceptionClassFQN" !in tree then RebuildFailed
    else
      var className := AsText(tree["exceptionClassFQN"]);
      if className !in jk.classes || "exception" !in tree then RebuildFailed
      else Bind(jk.classes[className], tree["exception"])
  }

  /** `deserialize` as written: a null rebuilt exception reaches
      `exception.getClass()` outside the try block. */
  function DeserializeAsWritten(tree: map<string, Json>, jk: Jackson): (r: Result<ExceptionPayload, Escaped>)
    ensures r.Failure? ==> r.error == NullPointerException
    ensures r.Success? ==> r.value.exception.Some? && r.value.exceptionMessage == WireMessage(tree)
  {
    var message := WireMessage(tree);
    match RebuildException(tree, jk)
    case Rebuilt(t) => Success(ExceptionPayload(Some(t.className), message, Some(t)))
    case RebuildFailed =>
      var e := InternalServerErrorOf(message);
      Success(ExceptionPayload(Some(e.className), message, Some(e)))
    case RebuiltNull => Failure(NullPointerException)
  }

  /** `deserialize` as intended: a null rebuilt exception falls back like
      every other failure. */
  function Deserialize(tree: map<string, Json>, jk: Jackson): (p: ExceptionPayload)
    ensures p.exception.Some? && p.exceptionMessage == WireMessage(tree)
    ensures p.exceptionClassFQN == Some(p.exception.value.className)
  {
    var message := WireMessage(tree);
    var exception := match RebuildException(tree, jk)
      case Rebuilt(t) => t
      case _ => InternalServerErrorOf(message);
    ExceptionPayload(Some(exception.className), message, Some(exception))
  }

  /** What `deserialize` promises: the payload's message is the wire
      message whatever the rebuilt exception says; the payload names the
      class of the exception it holds, not the wire string; the exception is
      rebuilt as the named class when that class is loadable and binds, and
      is otherwise an `InternalServerErrorException` carrying the message with
      status 500. No failure propagates. */
  lemma DeserializeMeaning(tree: map<string, Json>, jk: Jackson)
    requires ClassesNamed(jk)
    ensures var p := Deserialize(tree, jk);
      && p.exceptionMessage == WireMessage(tree)
      && p.exception.Some?
      && p.exceptionClassFQN == Some(p.exception.value.className)
      && (RebuildException(tree, jk).Rebuilt? ==>
            p.exception.value.className == AsText(tree["exceptionClassFQN"]))
      && (!RebuildException(tree, jk).Rebuilt? ==>
            p.exception.value.className == InternalServerErrorClass &&
            p.exception.value.message == WireMessage(tree) &&
            p.exception.value.status == Some(500))
  {
  }

  /** The as-written deserializer agrees with the corrected one except for a
      JSON-null "exception" under a loadable class, where it throws. */
  lemma DeserializeAsWrittenAgrees(tree: map<string, Json>, jk: Jackson)
    ensures DeserializeAsWritten(tree, jk).Success? ==> DeserializeAsWritten(tree, jk).value == Deserialize(tree, jk)
    ensures DeserializeAsWritten(tree, jk).Failure? <==>
      && "exceptionClassFQN" in tree && AsText(tree["exceptionClassFQN"]) in jk.classes
      && "exception" in tree && tree["exception"] == JNull
  {
  }

  /** A loadable class with `"exception": null` makes the as-written
      deserializer throw a `NullPointerException`. */
  lemma NullExceptionSubtreeEscapes(jk: Jackson)
    requires "java.lang.Exception" in jk.classes
    ensures DeserializeAsWritten(map["exceptionClassFQN" := JStr("java.lang.Exception"), "exception" := JNull], jk)
         == Failure(NullPointerException)
  {
  }

  // ---------------------------------------------------------------------------
  // ResponseToThrowableMapper

  /** What reading a body as `ExceptionPayload` gives: a payload, a null (for
      a JSON null, which bypasses the custom deserializer), or an
      `IOException` for text that is not JSON. */
  datatype PayloadRead = Payload(payload: ExceptionPayload) | NullPayload | NotJson

  /** `readValue(text, ExceptionPayload.class)` as written: the cast of the
      tree to an object node throws for a scalar or array. */
  function ReadPayloadAsWritten(text: string, jk: Jackson): (r: Result<PayloadRead, Escaped>)
    ensures r.Success? && r.value.Payload? ==> r.value.payload.exception.Some?
  {
    match jk.parse(text)
    case None => Success(NotJson)
    case Some(JNull) => Success(NullPayload)
    case Some(JObj(tree)) =>
      (match DeserializeAsWritten(tree, jk)
       case Success(p) => Success(Payload(p))
       case Failure(e) => Failure(e))
    case Some(_) => Failure(ClassCastException)
  }

  /** The corrected reading: only a JSON object is a payload. */
  function ReadPayload(text: string, jk: Jackson): Option<ExceptionPayload>
  {
    match jk.parse(text)
    case Some(JObj(tree)) => Some(Deserialize(tree, jk))
    case _ => None
  }

  /** `ObjectUtils.toString` of a value Jackson binds into a `Map`: "" for
      null, the text of a scalar. */
  function JavaText(j: Json): string
  {
    if j.JNull? then "" else AsText(j)
  }

  /** `getMessage`: the "exceptionMessage" entry of a JSON object, null when
      the body is not an object or has no such key. */
  function GetMessage(text: string, jk: Jackson): (r: Option<string>)
    ensures r.Some? <==> exists tree :: jk.parse(text) == Some(JObj(tree)) && "exceptionMessage" in tree
  {
    match jk.parse(text)
    case Some(JObj(tree)) => if "exceptionMessage" in tree then Some(JavaText(tree["exceptionMessage"])) else None
    case _ => None
  }

  /** A present key counts even when its value is null: the message is "". */
  lemma GetMessageNullValue(text: string, jk: Jackson, tree: map<string, Json>)
    requires jk.parse(text) == Some(JObj(tree)) && "exceptionMessage" in tree && tree["exceptionMessage"] == JNull
    ensures GetMessage(text, jk) == Some("")
  {
  }

  /** The three things the client can raise: the decoded exception, a
      `WebApplicationException` with only a message and the response status,
      or the status-table exception. */
  datatype Raised = Decoded(exception: Throwable) | MessageOnly(message: string, status: int) | StatusMapped(mapped: JaxRsException)

  /** `apply` as written. `body` is the entity read as text, `None` when
      reading it fails. */
  function ResponseToThrowableAsWritten(r: Response, body: Option<string>, jk: Jackson, constructionFails: bool): (res: Result<Raised, Escaped>)
    ensures res.Failure? ==> body.Some? && (res.error == ClassCastException || res.error == NullPointerException)
    ensures res.Success? && res.value.StatusMapped? ==> res.value.mapped == ResponseToJaxRs(r, constructionFails)
    ensures res.Success? && res.value.MessageOnly? ==> res.value.status == r.status
  {
    if body.None? then Success(StatusMapped(ResponseToJaxRs(r, constructionFails)))
    else match ReadPayloadAsWritten(body.value, jk)
      case Failure(e) => Failure(e)
      case Success(Payload(p)) => Success(Decoded(p.exception.value))
      case Success(NullPayload) => Failure(NullPointerException)
      case Success(NotJson) =>
        var message := GetMessage(body.value, jk);
        if message.Some? then Success(MessageOnly(message.value, r.status))
        else Success(StatusMapped(ResponseToJaxRs(r, constructionFails)))
  }

  /** `apply` as intended: a body that is JSON but not an object is not a
      payload and falls through like unparsable text. */
  function ResponseToThrowable(r: Response, body: Option<string>, jk: Jackson, constructionFails: bool): (res: Raised)
    ensures body.None? ==> res.StatusMapped?
    ensures res.StatusMapped? ==> res.mapped == ResponseToJaxRs(r, constructionFails)
    ensures res.MessageOnly? ==> res.status == r.status
  {
    if body.None? then StatusMapped(ResponseToJaxRs(r, constructionFails))
    else match ReadPayload(body.value, jk)
      case Some(p) => Decoded(p.exception.value)
      case None =>
        var message := GetMessage(body.value, jk);
        if message.Some? then MessageOnly(message.value, r.status)
        else StatusMapped(ResponseToJaxRs(r, constructionFails))
  }

  /** The preference order: a body that cannot be read goes to the status
      table; a readable payload wins over everything; a message-only
      exception is raised only when no payload could be read; the status
      table is the last resort. Since any JSON object is a payload, the
      message-only branch is never taken. */
  lemma ResponseToThrowableOrder(r: Response, body: Option<string>, jk: Jackson, constructionFails: bool)
    ensures body.None? ==> ResponseToThrowable(r, body, jk, constructionFails) == StatusMapped(ResponseToJaxRs(r, constructionFails))
    ensures body.Some? && ReadPayload(body.value, jk).Some? ==>
      ResponseToThrowable(r, body, jk, constructionFails) == Decoded(ReadPayload(body.value, jk).value.exception.value)
    ensures ResponseToThrowable(r, body, jk, constructionFails).Decoded? <==>
      body.Some? && jk.parse(body.value).Some? && jk.parse(body.value).value.JObj?
    ensures ResponseToThrowable(r, body, jk, constructionFails).StatusMapped? <==>
      !ResponseToThrowable(r, body, jk, constructionFails).Decoded?
    ensures !ResponseToThrowable(r, body, jk, constructionFails).MessageOnly?
  {
    if body.Some? {
      ReadPayloadMeaning(body.value, jk);
    }
  }

  /** A body reads as a payload exactly when it parses to a JSON object, the
      payload then always carries an exception, and a body `getMessage` finds
      a message in reads as a payload too (so the message-only branch is
      never taken). */
  lemma ReadPayloadMeaning(text: string, jk: Jackson)
    ensures ReadPayload(text, jk).Some? ==> ReadPayload(text, jk).value.exception.Some?
    ensures ReadPayload(text, jk).Some? <==> (jk.parse(text).Some? && jk.parse(text).value.JObj?)
    ensures GetMessage(text, jk).Some? ==> ReadPayload(text, jk).Some?
  {
  }

  /** Where the as-written chain returns, it returns what the corrected one
      does; it throws exactly for a body that is JSON but not an object, or
      an object whose loadable class comes with a null "exception". */
  lemma ResponseToThrowableAsWrittenAgrees(r: Response, body: Option<string>, jk: Jackson, constructionFails: bool)
    ensures ResponseToThrowableAsWritten(r, body, jk, constructionFails).Success? ==>
      ResponseToThrowableAsWritten(r, body, jk, constructionFails).value == ResponseToThrowable(r, body, jk, constructionFails)
    ensures ResponseToThrowableAsWritten(r, body, jk, constructionFails).Failure? <==>
      body.Some? && jk.parse(body.value).Some? &&
      (!jk.parse(body.value).value.JObj? ||
       DeserializeAsWritten(jk.parse(body.value).value.members, jk).Failure?)
  {
    if body.Some? && jk.parse(body.value).Some? && jk.parse(body.value).value.JObj? {
      DeserializeAsWrittenAgrees(jk.parse(body.value).value.members, jk);
    }
  }

  /** A body that is a JSON scalar makes the as-written chain throw a
      `ClassCastException`; a JSON null, a `NullPointerException`. */
  lemma NonObjectBodyEscapes(r: Response, jk: Jackson, constructionFails: bool)
    requires jk.parse("42") == Some(JNum("42")) && jk.parse("null") == Some(JNull)
    ensures ResponseToThrowableAsWritten(r, Some("42"), jk, constructionFails) == Failure(ClassCastException)
    ensures ResponseToThrowableAsWritten(r, Some("null"), jk, constructionFails) == Failure(NullPointerException)
    ensures ResponseToThrowable(r, Some("42"), jk, constructionFails) == StatusMapped(ResponseToJaxRs(r, constructionFails))
  {
  }

  // ---------------------------------------------------------------------------
  // ThrowableToResponseMapper

  /** The status the encoder picks: a `WebApplicationException`'s own
      response status, 500 for anything else. */
  function StatusOf(t: Throwable): int
  {
    if t.status.Some? then t.status.value else 500
  }

  /** `apply` as written: `Response.status(Status.fromStatusCode(code))`
      throws for a code outside the status enum. */
  function ThrowableToResponseAsWritten(t: Throwable, jk: Jackson): (res: Result<Response, Escaped>)
    ensures res.Failure? <==> !IsStandardStatus(StatusOf(t))
    ensures res.Failure? ==> res.error == IllegalArgumentException
    ensures res.Success? ==> res.value.status == StatusOf(t) || res.value == Response(500, t.message)
  {
    var status := StatusOf(t);
    if !IsStandardStatus(status) then Failure(IllegalArgumentException)
    else match PayloadJson(PayloadOf(t), jk.mixinTargets)
      case None => Success(Response(500, t.message))
      case Some(j) => Success(Response(status, Some(jk.write(j))))
  }

  /** A status a `Response` can carry (what `Response.status(int)` accepts). */
  predicate ValidStatus(t: Throwable)
  {
    t.status.Some? ==> 100 <= t.status.value < 600
  }

  /** `apply` as intended, with the status code used as it is. */
  function ThrowableToResponse(t: Throwable, jk: Jackson): (r: Response)
    requires ValidStatus(t)
    ensures PayloadJson(PayloadOf(t), jk.mixinTargets).Some? ==> r.status == StatusOf(t) && r.entity.Some?
    ensures PayloadJson(PayloadOf(t), jk.mixinTargets).None? ==> r == Response(500, t.message)
  {
    match PayloadJson(PayloadOf(t), jk.mixinTargets)
    case None => Response(500, t.message)
    case Some(j) => Response(StatusOf(t), Some(jk.write(j)))
  }

  /** For a status in the enum the as-written encoder is the corrected one;
      a `WebApplicationException` with status 422 makes it throw. */
  lemma ThrowableToResponseAsWrittenAgrees(t: Throwable, jk: Jackson)
    requires ValidStatus(t)
    ensures ThrowableToResponseAsWritten(t, jk).Failure? <==> !IsStandardStatus(StatusOf(t))
    ensures ThrowableToResponseAsWritten(t, jk).Success? ==> ThrowableToResponseAsWritten(t, jk).value == ThrowableToResponse(t, jk)
  {
  }

  lemma UnprocessableEntityEscapes(t: Throwable, jk: Jackson)
    requires t.status == Some(422)
    ensures ThrowableToResponseAsWritten(t, jk) == Failure(IllegalArgumentException)
  {
  }

  // ---------------------------------------------------------------------------
  // The round trip

  /** A throwable the client can rebuild: masked, with serialisable own
      properties, whose class is loadable and describes it. */
  predicate Rebuildable(t: Throwable, jk: Jackson)
  {
    && Masked(t, jk.mixinTargets) && NoReservedProperties(t) && OwnPropertiesSerializable(t)
    && t.className in jk.classes
    && var c := jk.classes[t.className];
       c.instantiable && c.ancestry == t.ancestry && c.status == t.status && t.properties.Keys <= c.properties
  }

  /** Encoding on the server and decoding the body on the client gives back
      the throwable's class, status and properties, with no cause, no
      suppressed exceptions and none of the server's stack frames; the
      message comes back when the class takes it in its constructor. The
      response keeps the throwable's status. */
  lemma RoundTrip(t: Throwable, jk: Jackson, constructionFails: bool)
    requires WritesReadBack(jk) && ClassesNamed(jk) && ValidStatus(t) && Rebuildable(t, jk)
    ensures var r := ThrowableToResponse(t, jk);
      && r.status == StatusOf(t)
      && ResponseToThrowable(r, r.entity, jk, constructionFails)
         == Decoded(t.(message := if jk.classes[t.className].messageConstructor then t.message
                                  else jk.classes[t.className].defaultMessage,
                       cause := None, stackTrace := [], suppressed := []))
  {
    var c := jk.classes[t.className];
    BindMaskedJson(t, jk.mixinTargets, c);
    var tj := ThrowableJson(t, jk.mixinTargets).value;
    var pj := PayloadJson(PayloadOf(t), jk.mixinTargets).value;
    assert pj.members["exceptionClassFQN"] == JStr(t.className);
    assert pj.members["exception"] == tj;
    assert jk.parse(jk.write(pj)) == Some(pj);
  }

  // ---------------------------------------------------------------------------
  // The two service failures exercised end to end

  const ExceptionClassName := "java.lang.Exception"
  const CustomExceptionClassName := "com.strandls.alchemy.rest.client.TestCustomException"

  /** `new Exception("A failing without a reason.")` thrown on the server. */
  function GenericFailure(stackTrace: seq<string>): Throwable
  {
    Throwable(ExceptionClassName, {ExceptionClassName, "java.lang.Throwable"},
              Some("A failing without a reason."), None, map[], None, stackTrace, [])
  }

  /** `new TestCustomException(10)`: message from its constructor, one
      property `statusCode`. */
  function CustomFailure(stackTrace: seq<string>): Throwable
  {
    Throwable(CustomExceptionClassName, {CustomExceptionClassName, ExceptionClassName, "java.lang.Throwable"},
              Some("Failed with status code:10"), None, map["statusCode" := Some(JNum("10"))], None, stackTrace, [])
  }

  /** The classes and mix-in registrations of the test server. */
  predicate TestJackson(jk: Jackson)
  {
    && jk.mixinTargets == {ExceptionClassName, CustomExceptionClassName}
    && jk.classes == map[
         ExceptionClassName := ExceptionClass(ExceptionClassName, {ExceptionClassName, "java.lang.Throwable"},
                                              true, true, None, {}, None),
         CustomExceptionClassName := ExceptionClass(CustomExceptionClassName,
                                              {CustomExceptionClassName, ExceptionClassName, "java.lang.Throwable"},
                                              true, false, Some("Failed with status code:0"), {"statusCode"}, None)]
  }

  /** A generic exception reaches the client as a 500 with the same
      message, no cause and no suppressed exceptions. */
  lemma GenericFailureCrosses(stackTrace: seq<string>, jk: Jackson, constructionFails: bool)
    requires WritesReadBack(jk) && TestJackson(jk)
    ensures var r := ThrowableToResponse(GenericFailure(stackTrace), jk);
      && r.status == 500
      && var raised := ResponseToThrowable(r, r.entity, jk, constructionFails);
      && raised.Decoded?
      && raised.exception.className == ExceptionClassName
      && raised.exception.message == Some("A failing without a reason.")
      && raised.exception.cause.None? && raised.exception.suppressed == [] && raised.exception.stackTrace == []
  {
    var t := GenericFailure(stackTrace);
    assert ExceptionClassName in t.ancestry;
    RoundTrip(t, jk, constructionFails);
  }

  /** `TestCustomException(10)` is rebuilt as its own type with `statusCode`
      10, no cause and no suppressed exceptions. */
  lemma CustomFailureCrosses(stackTrace: seq<string>, jk: Jackson, constructionFails: bool)
    requires WritesReadBack(jk) && TestJackson(jk)
    ensures var r := ThrowableToResponse(CustomFailure(stackTrace), jk);
      && var raised := ResponseToThrowable(r, r.entity, jk, constructionFails);
      && raised.Decoded?
      && raised.exception.className == CustomExceptionClassName
      && raised.exception.properties == map["statusCode" := Some(JNum("10"))]
      && raised.exception.cause.None? && raised.exception.suppressed == []
  {
    var t := CustomFailure(stackTrace);
    assert CustomExceptionClassName in t.ancestry;
    RoundTrip(t, jk, constructionFails);
  }
}

=== FILE: error_model.dfy ===
/** The values that cross the wire when a server-side exception is sent to a
    client: a JSON tree, the throwable being encoded, the envelope around it
    (`ExceptionPayload`), the mix-in that masks cause, stack trace and
    suppressed list, and Jackson's rebuilding of a throwable from a tree. */
module ErrorModel {
  import opened Common

  datatype Json =
    | JNull
    | JBool(b: bool)
    | JNum(lexeme: string)
    | JStr(text: string)
    | JArr(items: seq<Json>)
    | JObj(members: map<string, Json>)

  /** Jackson's `JsonNode.asText`: the text of a scalar, "null" for a null
      node and the empty string for a container. */
  function AsText(j: Json): string
  {
    match j
    case JNull => "null"
    case JBool(b) => if b then "true" else "false"
    case JNum(lexeme) => lexeme
    case JStr(text) => text
    case _ => ""
  }

  /** A Java string as a JSON value: null becomes a JSON null. */
  function TextJson(s: Option<string>): Json
  {
    if s.None? then JNull else JStr(s.value)
  }

  /** A throwable as the encoder sees it. `status` is the status of the
      response a `WebApplicationException` carries, and `None` for every other
      throwable; `ancestry` names the class and all its superclasses;
      `properties` are its other bean properties, `None` standing for a value
      Jackson cannot serialise. */
  datatype Throwable = Throwable(
    className: string,
    ancestry: set<string>,
    message: Option<string>,
    status: Option<int>,
    properties: map<string, Option<Json>>,
    cause: Option<Throwable>,
    stackTrace: seq<string>,
    suppressed: seq<Throwable>)

  /** Property names `Throwable` itself defines; no bean property shares them. */
  const ReservedNames: set<string> := {"message", "cause", "stackTrace", "suppressed", "localizedMessage"}

  predicate NoReservedProperties(t: Throwable)
  {
    forall p :: p in t.properties ==> p !in ReservedNames
  }

  /** Every own property of `t` has a JSON form. */
  predicate OwnPropertiesSerializable(t: Throwable)
  {
    forall p :: p in t.properties ==> t.properties[p].Some?
  }

  /** `ThrowableMaskMixin` applies to `t` when it is registered for the class
      of `t` or for one of its superclasses. */
  predicate Masked(t: Throwable, mixinTargets: set<string>)
  {
    exists a :: a in t.ancestry && a in mixinTargets
  }

  /** The JSON Jackson writes for a throwable: its message and own
      properties, and, unless masked, its cause, stack trace and suppressed
      list. `None` when some value reached cannot be serialised. */
  function ThrowableJson(t: Throwable, mixinTargets: set<string>): Option<Json>
    decreases t, 1
  {
    if !OwnPropertiesSerializable(t) then None
    else
      var own := (map p | p in t.properties :: t.properties[p].value)["message" := TextJson(t.message)];
      if Masked(t, mixinTargets) then Some(JObj(own))
      else
        var cause := if t.cause.None? then Some(JNull) else ThrowableJson(t.cause.value, mixinTargets);
        var suppressed := ThrowablesJson(t.suppressed, mixinTargets);
        if cause.None? || suppressed.None? then None
        else
          var frames := seq(|t.stackTrace|, i requires 0 <= i < |t.stackTrace| => JStr(t.stackTrace[i]));
          Some(JObj(own["cause" := cause.value]["stackTrace" := JArr(frames)]["suppressed" := JArr(suppressed.value)]))
  }

  function ThrowablesJson(ts: seq<Throwable>, mixinTargets: set<string>): Option<seq<Json>>
    decreases ts, 0
  {
    if ts == [] then Some([])
    else
      var head := ThrowableJson(ts[0], mixinTargets);
      var tail := ThrowablesJson(ts[1..], mixinTargets);
      if head.None? || tail.None? then None else Some([head.value] + tail.value)
  }

  /** The mask: a masked throwable is written as exactly its message and its
      own properties, so no cause, stack trace or suppressed list leaves the
      server; it can be written exactly when its own properties can. */
  lemma MaskedThrowableJson(t: Throwable, mixinTargets: set<string>)
    requires Masked(t, mixinTargets) && NoReservedProperties(t)
    ensures ThrowableJson(t, mixinTargets).Some? <==> OwnPropertiesSerializable(t)
    ensures ThrowableJson(t, mixinTargets).Some? ==>
      var j := ThrowableJson(t, mixinTargets).value;
      && j.JObj?
      && j.members.Keys == t.properties.Keys + {"message"}
      && "cause" !in j.members && "stackTrace" !in j.members && "suppressed" !in j.members
      && j.members["message"] == TextJson(t.message)
      && (forall p :: p in t.properties ==> j.members[p] == t.properties[p].value)
  {
  }

  /** Without the mask the cause, the stack trace and the suppressed list are
      all written. */
  lemma UnmaskedThrowableJson(t: Throwable, mixinTargets: set<string>)
    requires !Masked(t, mixinTargets)
    ensures ThrowableJson(t, mixinTargets).Some? ==>
      var j := ThrowableJson(t, mixinTargets).value;
      && j.JObj?
      && "cause" in j.members && "stackTrace" in j.members && "suppressed" in j.members
      && |j.members["stackTrace"].items| == |t.stackTrace|
      && |j.members["suppressed"].items| == |t.suppressed|
  {
    if ThrowableJson(t, mixinTargets).Some? {
      ThrowablesJsonLength(t.suppressed, mixinTargets);
    }
  }

  lemma {:induction false} ThrowablesJsonLength(ts: seq<Throwable>, mixinTargets: set<string>)
    ensures ThrowablesJson(ts, mixinTargets).Some? ==> |ThrowablesJson(ts, mixinTargets).value| == |ts|
  {
    if ts != [] {
      ThrowablesJsonLength(ts[1..], mixinTargets);
    }
  }

  /** `ExceptionPayload`: the envelope written to the response body. */
  datatype ExceptionPayload = ExceptionPayload(
    exceptionClassFQN: Option<string>,
    exceptionMessage: Option<string>,
    exception: Option<Throwable>)

  /** The constructor from a throwable: its class name, its message, and the
      throwable itself. */
  function PayloadOf(t: Throwable): (p: ExceptionPayload)
    ensures p.exceptionClassFQN == Some(t.className)
    ensures p.exceptionMessage == t.message
    ensures p.exception == Some(t)
  {
    ExceptionPayload(Some(t.className), t.message, Some(t))
  }

  /** The no-argument constructor Jackson may use: every field null. */
  function EmptyPayload(): (p: ExceptionPayload)
    ensures p.exceptionClassFQN.None? && p.exceptionMessage.None? && p.exception.None?
  {
    ExceptionPayload(None, None, None)
  }

  /** The JSON Jackson writes for a payload (its three getters). */
  function PayloadJson(p: ExceptionPayload, mixinTargets: set<string>): Option<Json>
  {
    var exception := if p.exception.None? then Some(JNull) else ThrowableJson(p.exception.value, mixinTargets);
    if exception.None? then None
    else Some(JObj(map["exceptionClassFQN" := TextJson(p.exceptionClassFQN),
                       "exceptionMessage" := TextJson(p.exceptionMessage),
                       "exception" := exception.value]))
  }

  /** What Jackson needs to know about an exception class to rebuild an
      instance: whether it can create one at all, whether a single-String
      constructor receives the "message" property (otherwise the message is
      whatever the no-argument construction leaves), which bean properties it
      can set, and the response status a `WebApplicationException` subclass
      is built with. */
  datatype ExceptionClass = ExceptionClass(
    name: string,
    ancestry: set<string>,
    instantiable: bool,
    messageConstructor: bool,
    defaultMessage: Option<string>,
    properties: set<string>,
    status: Option<int>)

  datatype Rebuild = Rebuilt(exception: Throwable) | RebuiltNull | RebuildFailed

  /** The message a rebuilt instance carries. */
  function BoundMessage(c: ExceptionClass, members: map<string, Json>): Option<string>
  {
    if c.messageConstructor && "message" in members then
      (if members["message"].JNull? then None else Some(AsText(members["message"])))
    else c.defaultMessage
  }

  /** `treeToValue(tree, c)`: a JSON null binds to null, a non-object or a
      class Jackson cannot create fails, and an object gives a fresh instance
      with the bound message and the settable properties present in the
      tree; unknown properties are ignored, and the rebuilt instance has no
      cause, no suppressed exceptions and none of the server's stack frames. */
  function Bind(c: ExceptionClass, tree: Json): Rebuild
  {
    match tree
    case JNull => RebuiltNull
    case JObj(members) =>
      if !c.instantiable then RebuildFailed
      else
        var props := map p | p in c.properties && p in members && p !in ReservedNames :: Some(members[p]);
        Rebuilt(Throwable(c.name, c.ancestry, BoundMessage(c, members), c.status, props, None, [], []))
    case _ => RebuildFailed
  }

  /** Binding a masked throwable's own JSON with a class that describes it
      gives the throwable back without cause, stack trace or suppressed list;
      the message comes back when the class takes it in its constructor. */
  lemma BindMaskedJson(t: Throwable, mixinTargets: set<string>, c: ExceptionClass)
    requires Masked(t, mixinTargets) && NoReservedProperties(t) && OwnPropertiesSerializable(t)
    requires c.instantiable && c.name == t.className && c.ancestry == t.ancestry && c.status == t.status
    requires t.properties.Keys <= c.properties
    ensures ThrowableJson(t, mixinTargets).Some?
    ensures Bind(c, ThrowableJson(t, mixinTargets).value)
         == Rebuilt(t.(message := if c.messageConstructor then t.message else c.defaultMessage,
                       cause := None, stackTrace := [], suppressed := []))
  {
    MaskedThrowableJson(t, mixinTargets);
    var members := ThrowableJson(t, mixinTargets).value.members;
    var props := map p | p in c.properties && p in members && p !in ReservedNames :: Some(members[p]);
    assert props == t.properties;
  }
}

=== FILE: linked_map.dfy ===
/** An insertion-ordered map, the model of `java.util.LinkedHashMap` as the
    analyzer (method map) and the invocation handler (path-template values) use
    it: `put` of a new key appends it, `put` of a present key replaces the value
    and keeps the key where it was. */
module LinkedMap {
  import opened Common

  type LinkedMap<K, V> = seq<(K, V)>

  function Keys<K, V>(m: LinkedMap<K, V>): (ks: seq<K>)
    ensures |ks| == |m|
    ensures forall i :: 0 <= i < |m| ==> ks[i] == m[i].0
  {
    if m == [] then [] else [m[0].0] + Keys(m[1..])
  }

  function Values<K, V>(m: LinkedMap<K, V>): (vs: seq<V>)
    ensures |vs| == |m|
    ensures forall i :: 0 <= i < |m| ==> vs[i] == m[i].1
  {
    if m == [] then [] else [m[0].1] + Values(m[1..])
  }

  /** No key occurs twice, as in every map. */
  predicate DistinctKeys<K(==), V>(m: LinkedMap<K, V>)
  {
    forall i, j :: 0 <= i < j < |m| ==> m[i].0 != m[j].0
  }

  /** `get`: the value bound to `k`, or null. */
  function Get<K(==), V>(m: LinkedMap<K, V>, k: K): (r: Option<V>)
    ensures r.None? <==> k !in Keys(m)
    ensures r.Some? ==> (k, r.value) in m
  {
    if m == [] then None
    else if m[0].0 == k then Some(m[0].1)
    else Get(m[1..], k)
  }

  /** `put`: bind `k` to `v`; a new key goes to the end, a present key keeps its
      position and takes the new value. */
  function Put<K(==), V>(m: LinkedMap<K, V>, k: K, v: V): (r: LinkedMap<K, V>)
    ensures |r| == if k in Keys(m) then |m| else |m| + 1
  {
    if m == [] then [(k, v)]
    else if m[0].0 == k then [(k, v)] + m[1..]
    else [m[0]] + Put(m[1..], k, v)
  }

  /** After `put(k, v)`, `get(k)` is `v`: a later binding of a key wins. */
  lemma {:induction false} PutGet<K, V>(m: LinkedMap<K, V>, k: K, v: V)
    ensures Get(Put(m, k, v), k) == Some(v)
  {
    if m != [] && m[0].0 != k {
      PutGet(m[1..], k, v);
      assert Put(m, k, v)[1..] == Put(m[1..], k, v);
    }
  }

  /** `put(k, v)` leaves every other key's binding alone. */
  lemma {:induction false} PutOther<K, V>(m: LinkedMap<K, V>, k: K, v: V, k': K)
    requires k' != k
    ensures Get(Put(m, k, v), k') == Get(m, k')
  {
    if m != [] && m[0].0 != k && m[0].0 != k' {
      PutOther(m[1..], k, v, k');
      assert Put(m, k, v)[1..] == Put(m[1..], k, v);
    } else if m != [] && m[0].0 == k {
      assert Put(m, k, v)[1..] == m[1..];
    }
  }

  /** `put` keeps the key order: a present key stays put, a new key is last. */
  lemma {:induction false} PutKeys<K, V>(m: LinkedMap<K, V>, k: K, v: V)
    ensures Keys(Put(m, k, v)) == if k in Keys(m) then Keys(m) else Keys(m) + [k]
  {
    if m != [] && m[0].0 != k {
      PutKeys(m[1..], k, v);
      assert Keys(m) == [m[0].0] + Keys(m[1..]);
      assert Keys(Put(m, k, v)) == [m[0].0] + Keys(Put(m[1..], k, v));
    }
  }

  /** Keys stay distinct under `put`. */
  lemma PutDistinct<K, V>(m: LinkedMap<K, V>, k: K, v: V)
    requires DistinctKeys(m)
    ensures DistinctKeys(Put(m, k, v))
  {
    PutKeys(m, k, v);
    var r := Put(m, k, v);
    assert forall i :: 0 <= i < |r| ==> r[i].0 == Keys(r)[i];
    assert forall i :: 0 <= i < |m| ==> m[i].0 == Keys(m)[i];
  }

  /** `put` adds no binding other than its own. */
  lemma {:induction false} PutMembers<K, V>(m: LinkedMap<K, V>, k: K, v: V, e: (K, V))
    requires e in Put(m, k, v)
    ensures e in m || e == (k, v)
  {
    if m != [] && m[0].0 != k {
      if e != m[0] {
        assert e in Put(m[1..], k, v);
        PutMembers(m[1..], k, v, e);
      }
    }
  }
}

=== FILE: metadata.dfy ===
/** The descriptor records (`RestMethodMetadata`, `RestInterfaceMetadata`) and
    the reflective view of a Java type that the analyzer reads instead of
    calling the reflection API: annotations become datatypes, a method becomes a
    record of its name, visibility, annotations and parameter annotations. */
module Metadata {
  import opened Common
  import opened LinkedMap

  /** The four HTTP verbs the analyzer recognises (`@GET`, `@PUT`, `@POST`, `@DELETE`). */
  datatype Verb = GET | PUT | POST | DELETE

  /** A JAX-RS annotation on a type or a method. Any other annotation
      (including a custom `@HttpMethod` verb) is `OtherAnnotation`. */
  datatype Annotation =
    | PathAnnotation(value: string)
    | VerbAnnotation(verb: Verb)
    | ProducesAnnotation(values: seq<string>)
    | ConsumesAnnotation(values: seq<string>)
    | OtherAnnotation(typeName: string)

  /** An annotation on a method parameter, each JAX-RS parameter annotation with
      its `value`; any other annotation keeps its type and its `value` member if
      it has one. */
  datatype ParamAnnotation =
    | PathParam(name: string)
    | MatrixParam(name: string)
    | QueryParam(name: string)
    | HeaderParam(name: string)
    | CookieParam(name: string)
    | FormParam(name: string)
    | FormDataParam(name: string)
    | OtherParam(typeName: string, value: Option<string>)

  /** What reflection reports about one method. `genericString` is
      `Method.toGenericString()`; the length of `parameterTypes` is the number
      of parameters. */
  datatype JavaMethod = JavaMethod(
    name: string,
    genericString: string,
    isPublic: bool,
    returnType: string,
    annotations: seq<Annotation>,
    parameterTypes: seq<string>,
    parameterAnnotations: seq<seq<ParamAnnotation>>,
    exceptionTypes: seq<string>)

  /** What reflection reports about a service type: its names, every annotation
      on it and its super types, and every method it declares or inherits. */
  datatype JavaClass = JavaClass(
    name: string,
    simpleName: string,
    canonicalName: string,
    annotations: seq<Annotation>,
    methods: seq<JavaMethod>)

  /** `RestMethodMetadata`: only `path` may be null. */
  datatype RestMethodMetadata = RestMethodMetadata(
    path: Option<string>,
    httpMethod: Verb,
    produced: seq<string>,
    consumed: seq<string>,
    parameterAnnotations: seq<seq<ParamAnnotation>>)

  /** `RestInterfaceMetadata`: the base path may be null; the method map is
      insertion ordered. */
  datatype RestInterfaceMetadata = RestInterfaceMetadata(
    path: Option<string>,
    produced: seq<string>,
    consumed: seq<string>,
    methodMetaData: LinkedMap<JavaMethod, RestMethodMetadata>)

  /** The failure of a lombok `@NonNull` check in a generated constructor. */
  datatype NullArgument = NullArgument(field: string)

  /** The generated constructor of `RestMethodMetadata`: every field but `path`
      is checked for null, in declaration order. */
  function NewRestMethodMetadata(
    path: Option<string>, httpMethod: Option<Verb>, produced: Option<seq<string>>,
    consumed: Option<seq<string>>, parameterAnnotations: Option<seq<seq<ParamAnnotation>>>)
    : (r: Result<RestMethodMetadata, NullArgument>)
    ensures r.Success? <==> httpMethod.Some? && produced.Some? && consumed.Some? && parameterAnnotations.Some?
    ensures r.Success? ==> r.value == RestMethodMetadata(path, httpMethod.value, produced.value,
                                                         consumed.value, parameterAnnotations.value)
    ensures r.Failure? && httpMethod.None? ==> r.error == NullArgument("httpMethod")
  {
    if httpMethod.None? then Failure(NullArgument("httpMethod"))
    else if produced.None? then Failure(NullArgument("produced"))
    else if consumed.None? then Failure(NullArgument("consumed"))
    else if parameterAnnotations.None? then Failure(NullArgument("parameterAnnotations"))
    else Success(RestMethodMetadata(path, httpMethod.value, produced.value, consumed.value,
                                    parameterAnnotations.value))
  }

  /** The generated constructor of `RestInterfaceMetadata`: every field but
      `path` is checked for null, in declaration order. */
  function NewRestInterfaceMetadata(
    path: Option<string>, produced: Option<seq<string>>, consumed: Option<seq<string>>,
    methodMetaData: Option<LinkedMap<JavaMethod, RestMethodMetadata>>)
    : (r: Result<RestInterfaceMetadata, NullArgument>)
    ensures r.Success? <==> produced.Some? && consumed.Some? && methodMetaData.Some?
    ensures r.Success? ==> r.value == RestInterfaceMetadata(path, produced.value, consumed.value,
                                                            methodMetaData.value)
    ensures r.Failure? && produced.None? ==> r.error == NullArgument("produced")
  {
    if produced.None? then Failure(NullArgument("produced"))
    else if consumed.None? then Failure(NullArgument("consumed"))
    else if methodMetaData.None? then Failure(NullArgument("methodMetaData"))
    else Success(RestInterfaceMetadata(path, produced.value, consumed.value, methodMetaData.value))
  }
}

=== FILE: proxy_generator.dfy ===
/** `RestProxyGenerator`, the build task that selects service types by
    include and exclude patterns, names their stubs and proxies, writes the
    stubs, then the proxies, then the module binding each stub to its proxy.
    Class-path scanning and Java regular expressions are parameters: the
    scanned types are a set, and `matches(pattern, name)` stands for
    `Pattern.matches`. */
module ProxyGenerator {
  import opened Common
  import opened Metadata
  import opened Analyzer
  import opened StubGenerator

  // ---------------------------------------------------------------------------
  // Names

  /** `getStubClassName`: the simple name, followed by the suffix when that is
      not blank. */
  function StubClassName(c: JavaClass, classSuffix: Option<string>): (r: string)
    ensures |r| >= |c.simpleName| && r[..|c.simpleName|] == c.simpleName
    ensures IsBlank(classSuffix) ==> r == c.simpleName
    ensures !IsBlank(classSuffix) ==> r[|c.simpleName|..] == classSuffix.value
  {
    c.simpleName + (if !IsBlank(classSuffix) then classSuffix.value else "")
  }

  /** `getProxyImplemenationName`: the stub name followed by `Proxy`. */
  function ProxyName(c: JavaClass, classSuffix: Option<string>): (r: string)
    ensures |r| == |StubClassName(c, classSuffix)| + 5
    ensures r[..|StubClassName(c, classSuffix)|] == StubClassName(c, classSuffix)
    ensures r[|StubClassName(c, classSuffix)|..] == "Proxy"
  {
    StubClassName(c, classSuffix) + "Proxy"
  }

  /** Types with different simple names get different stubs and proxies. */
  lemma StubNamesDistinct(c: JavaClass, d: JavaClass, classSuffix: Option<string>)
    requires c.simpleName != d.simpleName
    ensures StubClassName(c, classSuffix) != StubClassName(d, classSuffix)
    ensures ProxyName(c, classSuffix) != ProxyName(d, classSuffix)
  {
  }

  // ---------------------------------------------------------------------------
  // `patterns.split("\\s*,\\s*")`

  /** `\s` in a Java regular expression: the six ASCII white-space characters. */
  predicate RegexSpace(c: char)
  {
    c == ' ' || c == '\t' || c == '\n' || c == '\U{000B}' || c == '\U{000C}' || c == '\r'
  }

  /** The text between the commas of `s`, in order. */
  function RawPieces(s: string): (ps: seq<string>)
    ensures |ps| >= 1
  {
    if s == [] then [[]]
    else
      var p := RawPieces(s[..|s| - 1]);
      var c := s[|s| - 1];
      if c == ',' then p + [[]] else p[..|p| - 1] + [p[|p| - 1] + [c]]
  }

  function TrimStart(s: string): (r: string)
    ensures |r| <= |s| && r == s[|s| - |r|..]
    ensures r == [] || !RegexSpace(r[0])
  {
    if s != [] && RegexSpace(s[0]) then TrimStart(s[1..]) else s
  }

  function TrimEnd(s: string): (r: string)
    ensures |r| <= |s| && r == s[..|r|]
    ensures r == [] || !RegexSpace(r[|r| - 1])
  {
    if s != [] && RegexSpace(s[|s| - 1]) then TrimEnd(s[..|s| - 1]) else s
  }

  /** Piece `k` of `raw` without the white space a comma match swallows: the
      space before a following comma and the space after a preceding one. */
  function StripPiece(raw: seq<string>, k: nat): string
    requires k < |raw|
  {
    var p := if k < |raw| - 1 then TrimEnd(raw[k]) else raw[k];
    if k > 0 then TrimStart(p) else p
  }

  function DropTrailingEmpty(ps: seq<string>): (r: seq<string>)
    ensures |r| <= |ps| && r == ps[..|r|]
    ensures r == [] || r[|r| - 1] != []
    ensures forall k :: |r| <= k < |ps| ==> ps[k] == []
  {
    if ps != [] && ps[|ps| - 1] == [] then DropTrailingEmpty(ps[..|ps| - 1]) else ps
  }

  /** `String.split("\\s*,\\s*")`: without a comma the string itself;
      otherwise the stripped pieces, trailing empty ones removed. */
  function SplitPatterns(s: string): (r: seq<string>)
    ensures |r| <= |RawPieces(s)|
    ensures |RawPieces(s)| == 1 ==> r == RawPieces(s)
    ensures |RawPieces(s)| > 1 ==> r == [] || r[|r| - 1] != []
  {
    var raw := RawPieces(s);
    if |raw| == 1 then raw
    else DropTrailingEmpty(seq(|raw|, k requires 0 <= k < |raw| => StripPiece(raw, k)))
  }

  /** The comma-separated list of `ps`. */
  function Join(ps: seq<string>): string
    requires |ps| >= 1
  {
    if |ps| == 1 then ps[0] else Join(ps[..|ps| - 1]) + [','] + ps[|ps| - 1]
  }

  lemma {:induction false} RawPiecesNoComma(s: string)
    ensures forall k :: 0 <= k < |RawPieces(s)| ==> ',' !in RawPieces(s)[k]
  {
    if s != [] {
      RawPiecesNoComma(s[..|s| - 1]);
    }
  }

  /** Stripping white space from a piece without a comma leaves none. */
  lemma StripPieceNoComma(raw: seq<string>, k: nat)
    requires k < |raw| && ',' !in raw[k]
    ensures ',' !in StripPiece(raw, k)
  {
    var p := if k < |raw| - 1 then TrimEnd(raw[k]) else raw[k];
    assert forall i :: 0 <= i < |p| ==> p[i] in raw[k];
    var q := StripPiece(raw, k);
    assert forall i :: 0 <= i < |q| ==> q[i] in p;
  }

  /** No pattern of the list holds a comma. */
  lemma SplitPatternsNoComma(s: string)
    ensures forall k :: 0 <= k < |SplitPatterns(s)| ==> ',' !in SplitPatterns(s)[k]
  {
    var raw := RawPieces(s);
    RawPiecesNoComma(s);
    if |raw| > 1 {
      var stripped := seq(|raw|, k requires 0 <= k < |raw| => StripPiece(raw, k));
      forall k | 0 <= k < |raw|
        ensures ',' !in stripped[k]
      {
        StripPieceNoComma(raw, k);
      }
      var r := DropTrailingEmpty(stripped);
      assert forall k :: 0 <= k < |r| ==> r[k] == stripped[k];
    }
  }

  /** Appending one character other than a comma extends the last piece. */
  lemma RawPiecesSnoc(s: string, c: char)
    requires c != ','
    ensures var p := RawPieces(s);
            RawPieces(s + [c]) == p[..|p| - 1] + [p[|p| - 1] + [c]]
  {
    assert (s + [c])[..|s + [c]| - 1] == s;
  }

  /** Appending comma-free text extends the last piece. */
  lemma {:induction false} RawPiecesAppend(s: string, t: string)
    requires ',' !in t
    ensures var p := RawPieces(s);
            RawPieces(s + t) == p[..|p| - 1] + [p[|p| - 1] + t]
  {
    var p := RawPieces(s);
    if t == [] {
      assert s + t == s;
      assert p[..|p| - 1] + [p[|p| - 1]] == p;
      assert p[|p| - 1] + t == p[|p| - 1];
    } else {
      var t' := t[..|t| - 1];
      var c := t[|t| - 1];
      assert s + t == (s + t') + [c];
      RawPiecesAppend(s, t');
      RawPiecesSnoc(s + t', c);
      var q := RawPieces(s + t');
      assert q[..|q| - 1] == p[..|p| - 1];
      assert q[|q| - 1] + [c] == p[|p| - 1] + t;
    }
  }

  /** A comma followed by comma-free `last` adds the piece `last`. */
  lemma RawPiecesCommaLast(j: string, last: string)
    requires ',' !in last
    ensures RawPieces(j + [','] + last) == RawPieces(j) + [last]
  {
    var jc := j + [','];
    assert jc[..|jc| - 1] == j;
    assert RawPieces(jc) == RawPieces(j) + [[]];
    RawPiecesAppend(jc, last);
    assert [] + last == last;
  }

  /** The pieces of a joined list are the list's elements. */
  lemma {:induction false} RawPiecesJoin(ps: seq<string>)
    requires |ps| >= 1
    requires forall k :: 0 <= k < |ps| ==> ',' !in ps[k]
    ensures RawPieces(Join(ps)) == ps
  {
    if |ps| == 1 {
      RawPiecesAppend([], ps[0]);
      assert [] + ps[0] == ps[0];
      assert RawPieces([]) == [[]];
    } else {
      var init := ps[..|ps| - 1];
      RawPiecesJoin(init);
      RawPiecesCommaLast(Join(init), ps[|ps| - 1]);
      assert init + [ps[|ps| - 1]] == ps;
    }
  }

  /** A pattern as the list format keeps it: no comma, no white space at
      either end, and not empty. */
  predicate PlainPattern(p: string)
  {
    && p != []
    && ',' !in p
    && !RegexSpace(p[0]) && !RegexSpace(p[|p| - 1])
  }

  lemma TrimPlain(p: string)
    requires PlainPattern(p)
    ensures TrimStart(p) == p && TrimEnd(p) == p
  {
  }

  /** Stripping leaves plain pieces as they are. */
  lemma StripPlain(raw: seq<string>)
    requires forall k :: 0 <= k < |raw| ==> PlainPattern(raw[k])
    ensures seq(|raw|, k requires 0 <= k < |raw| => StripPiece(raw, k)) == raw
  {
    var stripped := seq(|raw|, k requires 0 <= k < |raw| => StripPiece(raw, k));
    forall k | 0 <= k < |raw|
      ensures stripped[k] == raw[k]
    {
      TrimPlain(raw[k]);
    }
  }

  /** A list whose last element is not empty loses nothing. */
  lemma DropTrailingEmptyKeeps(ps: seq<string>)
    requires ps != [] && ps[|ps| - 1] != []
    ensures DropTrailingEmpty(ps) == ps
  {
  }

  /** Splitting the comma-separated list of plain patterns gives the patterns
      back, in order. */
  lemma SplitJoin(ps: seq<string>)
    requires |ps| >= 1
    requires forall k :: 0 <= k < |ps| ==> PlainPattern(ps[k])
    ensures SplitPatterns(Join(ps)) == ps
  {
    RawPiecesJoin(ps);
    if |ps| > 1 {
      StripPlain(ps);
      DropTrailingEmptyKeeps(ps);
    }
  }

  /** White space only, as `\s*` matches it. */
  predicate AllSpace(w: string)
  {
    forall i :: 0 <= i < |w| ==> RegexSpace(w[i])
  }

  /** White space on both sides of every comma. */
  predicate Padding(pads: seq<(string, string)>)
  {
    forall k :: 0 <= k < |pads| ==> AllSpace(pads[k].0) && AllSpace(pads[k].1)
  }

  /** The list `ps` written with white space around its commas: `pads[k]`
      is the white space before and after the comma that follows `ps[k]`. */
  function JoinPadded(ps: seq<string>, pads: seq<(string, string)>): string
    requires |ps| >= 1 && |pads| == |ps| - 1
  {
    if |ps| == 1 then ps[0]
    else
      var n := |ps| - 1;
      JoinPadded(ps[..n], pads[..n - 1]) + pads[n - 1].0 + [','] + (pads[n - 1].1 + ps[n])
  }

  /** Piece `k` of a padded list as the commas cut it: the pattern, after the
      white space that follows the preceding comma and before the white space
      that precedes the following one. */
  function PaddedPiece(ps: seq<string>, pads: seq<(string, string)>, k: nat): string
    requires |pads| == |ps| - 1 && k < |ps|
  {
    (if k > 0 then pads[k - 1].1 else []) + ps[k] + (if k < |ps| - 1 then pads[k].0 else [])
  }

  /** Appending comma-free `before`, a comma and comma-free `last` extends
      the last piece by `before` and starts the piece `last`. */
  lemma RawPiecesComma(j: string, before: string, last: string)
    requires ',' !in before && ',' !in last
    ensures var p := RawPieces(j);
            RawPieces(j + before + [','] + last) == p[..|p| - 1] + [p[|p| - 1] + before] + [last]
  {
    RawPiecesAppend(j, before);
    RawPiecesCommaLast(j + before, last);
  }

  /** The padded pieces of a list with one more pattern: the last piece
      gains the white space before the new comma, and the new pattern, after
      the white space that follows it, is the new last piece. */
  lemma PaddedPiecesSnoc(ps: seq<string>, pads: seq<(string, string)>, p: seq<string>)
    requires |ps| >= 2 && |pads| == |ps| - 1 && |p| == |ps| - 1
    requires forall k :: 0 <= k < |p| ==> p[k] == PaddedPiece(ps[..|ps| - 1], pads[..|pads| - 1], k)
    ensures var n := |ps| - 1;
            var r := p[..n - 1] + [p[n - 1] + pads[n - 1].0] + [pads[n - 1].1 + ps[n]];
            forall k :: 0 <= k < |ps| ==> r[k] == PaddedPiece(ps, pads, k)
  {
    var n := |ps| - 1;
    var r := p[..n - 1] + [p[n - 1] + pads[n - 1].0] + [pads[n - 1].1 + ps[n]];
    forall k | 0 <= k < |ps|
      ensures r[k] == PaddedPiece(ps, pads, k)
    {
      if k < n {
        assert p[k] == PaddedPiece(ps[..n], pads[..n - 1], k);
      }
    }
  }

  /** The commas of a padded list cut it into the padded pieces. */
  lemma {:induction false} RawPiecesPadded(ps: seq<string>, pads: seq<(string, string)>)
    requires |ps| >= 1 && |pads| == |ps| - 1
    requires forall k :: 0 <= k < |ps| ==> ',' !in ps[k]
    requires Padding(pads)
    ensures |RawPieces(JoinPadded(ps, pads))| == |ps|
    ensures forall k :: 0 <= k < |ps| ==> RawPieces(JoinPadded(ps, pads))[k] == PaddedPiece(ps, pads, k)
  {
    if |ps| == 1 {
      RawPiecesAppend([], ps[0]);
      assert [] + ps[0] == ps[0];
      assert RawPieces([]) == [[]];
      assert PaddedPiece(ps, pads, 0) == ps[0];
    } else {
      var n := |ps| - 1;
      var init, initPads := ps[..n], pads[..n - 1];
      assert AllSpace(pads[n - 1].0) && AllSpace(pads[n - 1].1);
      assert ',' !in pads[n - 1].0 && ',' !in pads[n - 1].1;
      RawPiecesPadded(init, initPads);
      assert ',' !in pads[n - 1].1 + ps[n];
      RawPiecesComma(JoinPadded(init, initPads), pads[n - 1].0, pads[n - 1].1 + ps[n]);
      PaddedPiecesSnoc(ps, pads, RawPieces(JoinPadded(init, initPads)));
    }
  }

  /** Trailing white space after a text that does not end in it is trimmed. */
  lemma {:induction false} TrimEndSpace(x: string, w: string)
    requires AllSpace(w) && (x == [] || !RegexSpace(x[|x| - 1]))
    ensures TrimEnd(x + w) == x
  {
    if w == [] {
      assert x + w == x;
    } else {
      var w' := w[..|w| - 1];
      assert (x + w)[..|x + w| - 1] == x + w';
      TrimEndSpace(x, w');
    }
  }

  /** Leading white space before a text that does not start with it is trimmed. */
  lemma {:induction false} TrimStartSpace(w: string, x: string)
    requires AllSpace(w) && (x == [] || !RegexSpace(x[0]))
    ensures TrimStart(w + x) == x
  {
    if w == [] {
      assert w + x == x;
    } else {
      assert (w + x)[1..] == w[1..] + x;
      TrimStartSpace(w[1..], x);
    }
  }

  /** Stripping a padded piece gives back its plain pattern. */
  lemma StripPadded(ps: seq<string>, pads: seq<(string, string)>, raw: seq<string>, k: nat)
    requires |pads| == |ps| - 1 && |raw| == |ps| && k < |ps|
    requires forall i :: 0 <= i < |ps| ==> PlainPattern(ps[i])
    requires Padding(pads)
    requires forall i :: 0 <= i < |ps| ==> raw[i] == PaddedPiece(ps, pads, i)
    ensures StripPiece(raw, k) == ps[k]
  {
    var pre := if k > 0 then pads[k - 1].1 else [];
    var post := if k < |ps| - 1 then pads[k].0 else [];
    assert PlainPattern(ps[k]);
    assert raw[k] == (pre + ps[k]) + post;
    assert (pre + ps[k])[|pre + ps[k]| - 1] == ps[k][|ps[k]| - 1];
    if k < |raw| - 1 {
      TrimEndSpace(pre + ps[k], post);
    } else {
      assert raw[k] == pre + ps[k];
    }
    if k > 0 {
      TrimStartSpace(pre, ps[k]);
    } else {
      assert pre + ps[k] == ps[k];
    }
  }

  /** Stripping every padded piece gives back the plain patterns. */
  lemma StripAllPadded(ps: seq<string>, pads: seq<(string, string)>, raw: seq<string>)
    requires |pads| == |ps| - 1 && |raw| == |ps|
    requires forall i :: 0 <= i < |ps| ==> PlainPattern(ps[i])
    requires Padding(pads)
    requires forall i :: 0 <= i < |ps| ==> raw[i] == PaddedPiece(ps, pads, i)
    ensures seq(|raw|, k requires 0 <= k < |raw| => StripPiece(raw, k)) == ps
  {
    var stripped := seq(|raw|, k requires 0 <= k < |raw| => StripPiece(raw, k));
    forall k | 0 <= k < |raw|
      ensures stripped[k] == ps[k]
    {
      StripPadded(ps, pads, raw, k);
    }
  }

  /** Splitting a list of plain patterns written with any white space around
      its commas gives the patterns back, stripped, in order. */
  lemma SplitJoinPadded(ps: seq<string>, pads: seq<(string, string)>)
    requires |ps| >= 1 && |pads| == |ps| - 1
    requires forall k :: 0 <= k < |ps| ==> PlainPattern(ps[k])
    requires Padding(pads)
    ensures SplitPatterns(JoinPadded(ps, pads)) == ps
  {
    var raw := RawPieces(JoinPadded(ps, pads));
    RawPiecesPadded(ps, pads);
    if |ps| == 1 {
      assert raw[0] == PaddedPiece(ps, pads, 0) == ps[0];
      assert raw == ps;
    } else {
      StripAllPadded(ps, pads, raw);
      DropTrailingEmptyKeeps(ps);
    }
  }

  /** Comma-free text in front of a string joins its first piece. */
  lemma {:induction false} RawPiecesPrefix(lead: string, s: string)
    requires ',' !in lead
    ensures |RawPieces(lead + s)| == |RawPieces(s)|
    ensures RawPieces(lead + s)[0] == lead + RawPieces(s)[0]
    ensures forall k :: 0 < k < |RawPieces(s)| ==> RawPieces(lead + s)[k] == RawPieces(s)[k]
  {
    if s == [] {
      RawPiecesAppend([], lead);
      assert lead + s == [] + lead;
      assert RawPieces([]) == [[]];
      assert lead + [] == lead;
    } else {
      var s' := s[..|s| - 1];
      var c := s[|s| - 1];
      assert (lead + s)[..|lead + s| - 1] == lead + s';
      assert (lead + s)[|lead + s| - 1] == c;
      RawPiecesPrefix(lead, s');
      var p := RawPieces(s');
      if c != ',' && |p| == 1 {
        assert lead + (p[0] + [c]) == (lead + p[0]) + [c];
      }
    }
  }

  /** The first of several pieces loses the white space before the comma. */
  lemma StripFirst(raw: seq<string>, x: string, post: string)
    requires |raw| >= 2 && raw[0] == x + post
    requires AllSpace(post) && x != [] && !RegexSpace(x[|x| - 1])
    ensures StripPiece(raw, 0) == x
  {
    TrimEndSpace(x, post);
  }

  /** The last of several pieces loses the white space after the comma. */
  lemma StripLast(raw: seq<string>, pre: string, x: string)
    requires |raw| >= 2 && raw[|raw| - 1] == pre + x
    requires AllSpace(pre) && x != [] && !RegexSpace(x[0])
    ensures StripPiece(raw, |raw| - 1) == x
  {
    TrimStartSpace(pre, x);
  }

  /** A piece between two commas loses the white space on both sides. */
  lemma StripMiddle(raw: seq<string>, k: nat, pre: string, x: string, post: string)
    requires 0 < k < |raw| - 1 && raw[k] == pre + x + post
    requires AllSpace(pre) && AllSpace(post) && PlainPattern(x)
    ensures StripPiece(raw, k) == x
  {
    assert (pre + x)[|pre + x| - 1] == x[|x| - 1];
    TrimEndSpace(pre + x, post);
    TrimStartSpace(pre, x);
  }

  /** Pattern `k` of a padded list with white space `lead` before it and
      `trail` after it: the first keeps `lead`, the last keeps `trail`. */
  function EndPattern(lead: string, ps: seq<string>, trail: string, k: nat): string
    requires k < |ps|
  {
    if k == 0 then lead + ps[0] else if k == |ps| - 1 then ps[k] + trail else ps[k]
  }

  /** The stripped pieces of a padded list with white space `lead` before it
      and `trail` after it. */
  lemma StripEnds(lead: string, ps: seq<string>, pads: seq<(string, string)>, trail: string, raw: seq<string>, k: nat)
    requires |ps| >= 2 && |pads| == |ps| - 1 && |raw| == |ps| && k < |ps|
    requires forall i :: 0 <= i < |ps| ==> PlainPattern(ps[i])
    requires Padding(pads) && AllSpace(lead) && AllSpace(trail)
    requires raw[0] == lead + PaddedPiece(ps, pads, 0)
    requires forall i :: 0 < i < |ps| - 1 ==> raw[i] == PaddedPiece(ps, pads, i)
    requires raw[|ps| - 1] == PaddedPiece(ps, pads, |ps| - 1) + trail
    ensures StripPiece(raw, k) == EndPattern(lead, ps, trail, k)
  {
    var n := |ps| - 1;
    assert PlainPattern(ps[k]);
    if k == 0 {
      assert raw[0] == (lead + ps[0]) + pads[0].0;
      assert (lead + ps[0])[|lead + ps[0]| - 1] == ps[0][|ps[0]| - 1];
      StripFirst(raw, lead + ps[0], pads[0].0);
    } else if k == n {
      assert raw[n] == pads[n - 1].1 + (ps[n] + trail);
      assert (ps[n] + trail)[0] == ps[n][0];
      StripLast(raw, pads[n - 1].1, ps[n] + trail);
    } else {
      assert raw[k] == pads[k - 1].1 + ps[k] + pads[k].0;
      StripMiddle(raw, k, pads[k - 1].1, ps[k], pads[k].0);
    }
  }

  /** The commas of a padded list with white space `lead` before it and
      `trail` after it cut it into the padded pieces, `lead` on the first
      and `trail` on the last. */
  lemma RawPiecesEnds(lead: string, ps: seq<string>, pads: seq<(string, string)>, trail: string)
    requires |ps| >= 1 && |pads| == |ps| - 1
    requires forall k :: 0 <= k < |ps| ==> ',' !in ps[k]
    requires Padding(pads) && AllSpace(lead) && AllSpace(trail)
    ensures var raw := RawPieces(lead + JoinPadded(ps, pads) + trail);
            && |raw| == |ps|
            && (|ps| == 1 ==> raw[0] == lead + ps[0] + trail)
            && (|ps| >= 2 ==> raw[0] == lead + PaddedPiece(ps, pads, 0))
            && (forall i :: 0 < i < |ps| - 1 ==> raw[i] == PaddedPiece(ps, pads, i))
            && (|ps| >= 2 ==> raw[|ps| - 1] == PaddedPiece(ps, pads, |ps| - 1) + trail)
  {
    var j := JoinPadded(ps, pads);
    RawPiecesPadded(ps, pads);
    assert ',' !in lead && ',' !in trail;
    RawPiecesPrefix(lead, j);
    RawPiecesAppend(lead + j, trail);
    var q := RawPieces(lead + j);
    var n := |ps| - 1;
    assert RawPieces(lead + j + trail) == q[..n] + [q[n] + trail];
    if n == 0 {
      assert PaddedPiece(ps, pads, 0) == ps[0];
    }
  }

  /** Splitting a string whose comma-cut pieces are those of a padded list
      with white space `lead` before it and `trail` after it. */
  lemma SplitEndPieces(lead: string, ps: seq<string>, pads: seq<(string, string)>, trail: string, s: string)
    requires |ps| >= 2 && |pads| == |ps| - 1
    requires forall k :: 0 <= k < |ps| ==> PlainPattern(ps[k])
    requires Padding(pads) && AllSpace(lead) && AllSpace(trail)
    requires |RawPieces(s)| == |ps|
    requires RawPieces(s)[0] == lead + PaddedPiece(ps, pads, 0)
    requires forall i :: 0 < i < |ps| - 1 ==> RawPieces(s)[i] == PaddedPiece(ps, pads, i)
    requires RawPieces(s)[|ps| - 1] == PaddedPiece(ps, pads, |ps| - 1) + trail
    ensures |SplitPatterns(s)| == |ps|
    ensures forall k :: 0 <= k < |ps| ==> SplitPatterns(s)[k] == EndPattern(lead, ps, trail, k)
  {
    var raw := RawPieces(s);
    var stripped := seq(|raw|, k requires 0 <= k < |raw| => StripPiece(raw, k));
    forall k | 0 <= k < |raw|
      ensures stripped[k] == EndPattern(lead, ps, trail, k)
    {
      StripEnds(lead, ps, pads, trail, raw, k);
    }
    assert stripped[|ps| - 1] == ps[|ps| - 1] + trail;
    DropTrailingEmptyKeeps(stripped);
  }

  /** White space at the two ends of the whole list is no separator: the
      split keeps it on the first and on the last pattern. */
  lemma SplitPaddedEnds(lead: string, ps: seq<string>, pads: seq<(string, string)>, trail: string)
    requires |ps| >= 1 && |pads| == |ps| - 1
    requires forall k :: 0 <= k < |ps| ==> PlainPattern(ps[k])
    requires Padding(pads) && AllSpace(lead) && AllSpace(trail)
    ensures var r := SplitPatterns(lead + JoinPadded(ps, pads) + trail);
            && (|ps| == 1 ==> r == [lead + ps[0] + trail])
            && (|ps| >= 2 ==> |r| == |ps| && r[0] == lead + ps[0] && r[|ps| - 1] == ps[|ps| - 1] + trail)
            && (forall k :: 0 < k < |ps| - 1 ==> r[k] == ps[k])
  {
    var s := lead + JoinPadded(ps, pads) + trail;
    RawPiecesEnds(lead, ps, pads, trail);
    if |ps| == 1 {
      assert RawPieces(s) == [lead + ps[0] + trail];
    } else {
      SplitEndPieces(lead, ps, pads, trail, s);
      var r := SplitPatterns(s);
      assert r[0] == EndPattern(lead, ps, trail, 0);
      assert r[|ps| - 1] == EndPattern(lead, ps, trail, |ps| - 1);
      forall k | 0 < k < |ps| - 1
        ensures r[k] == ps[k]
      {
        assert r[k] == EndPattern(lead, ps, trail, k);
      }
    }
  }

  // ---------------------------------------------------------------------------
  // Selection

  /** Whether one of the patterns `ps` matches `name`. */
  predicate SomeMatch(name: string, ps: seq<string>, matches: (string, string) -> bool)
  {
    exists k :: 0 <= k < |ps| && matches(ps[k], name)
  }

  lemma SomeMatchStep(name: string, ps: seq<string>, i: nat, matches: (string, string) -> bool)
    requires i < |ps|
    ensures SomeMatch(name, ps[..i + 1], matches) == (SomeMatch(name, ps[..i], matches) || matches(ps[i], name))
  {
    assert ps[..i + 1][i] == ps[i];
    assert forall k :: 0 <= k < i ==> ps[..i + 1][k] == ps[..i][k];
  }

  /** Whether one pattern of the list `patterns` matches `name`; a null list
      matches nothing. */
  predicate AnyMatch(name: string, patterns: Option<string>, matches: (string, string) -> bool)
  {
    patterns.Some? && SomeMatch(name, SplitPatterns(patterns.value), matches)
  }

  /** The loop of `doesMatch`: `matches |= Pattern.matches(pattern, name)`
      over the split patterns. */
  method MatchPatterns(name: string, ps: seq<string>, matches: (string, string) -> bool) returns (r: bool)
    ensures r == SomeMatch(name, ps, matches)
  {
    r := false;
    var i := 0;
    while i < |ps|
      invariant i <= |ps|
      invariant r == SomeMatch(name, ps[..i], matches)
    {
      var m := matches(ps[i], name);
      SomeMatchStep(name, ps, i, matches);
      r := r || m;
      i := i + 1;
    }
    assert ps[..i] == ps;
  }

  /** `doesMatch`: whether the list is non-null and one of its patterns
      matches the name. */
  method DoesMatch(name: string, patterns: Option<string>, matches: (string, string) -> bool) returns (r: bool)
    ensures r == AnyMatch(name, patterns, matches)
  {
    r := false;
    if patterns.Some? {
      r := MatchPatterns(name, SplitPatterns(patterns.value), matches);
    }
  }

  /** For a list written as plain patterns joined by commas, a match is a
      match of one of them. */
  lemma AnyMatchJoin(name: string, ps: seq<string>, matches: (string, string) -> bool)
    requires |ps| >= 1
    requires forall k :: 0 <= k < |ps| ==> PlainPattern(ps[k])
    ensures AnyMatch(name, Some(Join(ps)), matches) <==> exists k :: 0 <= k < |ps| && matches(ps[k], name)
  {
    SplitJoin(ps);
  }

  /** The same for a list written with white space around its commas. */
  lemma AnyMatchJoinPadded(name: string, ps: seq<string>, pads: seq<(string, string)>,
                           matches: (string, string) -> bool)
    requires |ps| >= 1 && |pads| == |ps| - 1
    requires forall k :: 0 <= k < |ps| ==> PlainPattern(ps[k])
    requires Padding(pads)
    ensures AnyMatch(name, Some(JoinPadded(ps, pads)), matches) <==> exists k :: 0 <= k < |ps| && matches(ps[k], name)
  {
    SplitJoinPadded(ps, pads);
  }

  /** An empty list is the one pattern `""`, which a Java regular expression
      matches only against the empty name. */
  lemma EmptyPatternList(name: string, matches: (string, string) -> bool)
    ensures SplitPatterns("") == [""]
    ensures AnyMatch(name, Some(""), matches) == matches("", name)
  {
    assert RawPieces("") == [[]];
    assert SplitPatterns("")[0] == "";
    if matches("", name) {
      assert SomeMatch(name, SplitPatterns(""), matches);
    }
  }

  predicate HasPathAnnotation(c: JavaClass)
  {
    exists k :: 0 <= k < |c.annotations| && c.annotations[k].PathAnnotation?
  }

  /** The filter of `findServiceClasses`: an included, not excluded canonical name. */
  predicate Selected(c: JavaClass, includes: Option<string>, excludes: Option<string>, matches: (string, string) -> bool)
  {
    AnyMatch(c.canonicalName, includes, matches) && !AnyMatch(c.canonicalName, excludes, matches)
  }

  /** `findServiceClasses`: the scanned types carrying `@Path` that the
      patterns select. Without include patterns nothing is selected. */
  function FindServiceClasses(scanned: set<JavaClass>, includes: Option<string>, excludes: Option<string>,
                              matches: (string, string) -> bool): (r: set<JavaClass>)
    ensures r <= scanned
    ensures includes.None? ==> r == {}
    ensures forall c :: c in r ==> HasPathAnnotation(c) && AnyMatch(c.canonicalName, includes, matches)
  {
    set c | c in scanned && HasPathAnnotation(c) && Selected(c, includes, excludes, matches)
  }

  /** The text of an optional pattern list: null stays null. */
  function ListText(ps: Option<seq<string>>, pads: seq<(string, string)>): Option<string>
    requires ps.Some? ==> |ps.value| >= 1 && |pads| == |ps.value| - 1
  {
    if ps.None? then None else Some(JoinPadded(ps.value, pads))
  }

  /** A type is selected exactly when it is a scanned `@Path` type, one
      include pattern matches its canonical name and no exclude pattern does;
      the lists may have white space around their commas, and a null exclude
      list (the default) excludes nothing. */
  lemma SelectionMeaning(scanned: set<JavaClass>, c: JavaClass,
                         includes: seq<string>, includePads: seq<(string, string)>,
                         excludes: Option<seq<string>>, excludePads: seq<(string, string)>,
                         matches: (string, string) -> bool)
    requires |includes| >= 1 && |includePads| == |includes| - 1 && Padding(includePads)
    requires forall k :: 0 <= k < |includes| ==> PlainPattern(includes[k])
    requires excludes.Some? ==> |excludes.value| >= 1 && |excludePads| == |excludes.value| - 1 && Padding(excludePads)
    requires excludes.Some? ==> forall k :: 0 <= k < |excludes.value| ==> PlainPattern(excludes.value[k])
    ensures c in FindServiceClasses(scanned, Some(JoinPadded(includes, includePads)), ListText(excludes, excludePads), matches) <==>
      && c in scanned && HasPathAnnotation(c)
      && (exists k :: 0 <= k < |includes| && matches(includes[k], c.canonicalName))
      && !(excludes.Some? && exists k :: 0 <= k < |excludes.value| && matches(excludes.value[k], c.canonicalName))
  {
    AnyMatchJoinPadded(c.canonicalName, includes, includePads, matches);
    if excludes.Some? {
      AnyMatchJoinPadded(c.canonicalName, excludes.value, excludePads, matches);
    }
  }

  // ---------------------------------------------------------------------------
  // Directories

  /** The file system as the task sees it: the existing directories, the
      existing other files, and the paths `mkdirs` is able to create. */
  datatype FileSystem = FileSystem(directories: set<string>, files: set<string>, creatable: set<string>)

  predicate Exists(fs: FileSystem, path: string)
  {
    path in fs.directories || path in fs.files
  }

  /** `File.mkdirs`: true, with the directory added, only when nothing is at
      `path` yet and it can be created. */
  function Mkdirs(fs: FileSystem, path: string): (r: (bool, FileSystem))
    ensures r.0 ==> r.1.directories == fs.directories + {path} && !Exists(fs, path)
    ensures !r.0 ==> r.1 == fs
  {
    if !Exists(fs, path) && path in fs.creatable then (true, fs.(directories := fs.directories + {path}))
    else (false, fs)
  }

  datatype TaskError =
    | InvalidOutputDirectory(outputDir: Option<string>)
    | CouldNotCreate(directory: string)
    | IllegalReplacement(replacement: string)
    | StubGenerationFailed(className: string, cause: AnalysisError)

  /** `validate`: the output directory must be set and must not be an
      existing file; a missing one is created. */
  function Validate(outputDir: Option<string>, fs: FileSystem): (r: Result<FileSystem, TaskError>)
    ensures r.Failure? <==>
      || outputDir.None?
      || (Exists(fs, outputDir.value) && outputDir.value !in fs.directories)
      || (!Exists(fs, outputDir.value) && outputDir.value !in fs.creatable)
    ensures r.Failure? && (outputDir.None? || Exists(fs, outputDir.value)) ==> r.error == InvalidOutputDirectory(outputDir)
    ensures r.Success? ==> r.value.directories == fs.directories + {outputDir.value} && r.value.files == fs.files
  {
    if outputDir.None? || (Exists(fs, outputDir.value) && outputDir.value !in fs.directories) then
      Failure(InvalidOutputDirectory(outputDir))
    else if outputDir.value !in fs.directories && !Mkdirs(fs, outputDir.value).0 then
      Failure(CouldNotCreate(outputDir.value))
    else
      Success(Mkdirs(fs, outputDir.value).1)
  }

  /** The text `Matcher.appendReplacement` inserts for the replacement `rep`:
      a backslash takes the next character literally, and a backslash with
      nothing after it is refused. */
  function ReplacementText(rep: string): Option<string>
    requires '$' !in rep
  {
    if rep == [] then Some([])
    else if rep[0] == '\\' then
      if |rep| == 1 then None
      else match ReplacementText(rep[2..])
        case None => None
        case Some(t) => Some([rep[1]] + t)
    else match ReplacementText(rep[1..])
      case None => None
      case Some(t) => Some([rep[0]] + t)
  }

  /** `s` with every dot replaced by `text`. */
  function ReplaceDots(s: string, text: string): (r: string)
    ensures |text| == 1 ==> |r| == |s| && forall k :: 0 <= k < |s| ==> r[k] == if s[k] == '.' then text[0] else s[k]
  {
    if s == [] then []
    else (if s[0] == '.' then text else [s[0]]) + ReplaceDots(s[1..], text)
  }

  /** The package folder as `getTargetSourceDirectory` computes it,
      `destinationPackage.replaceAll("\\.", File.separator)`: the separator
      is read as a replacement string, so a backslash separator is refused
      once there is a dot to replace. */
  function PackageFolderAsWritten(destinationPackage: Option<string>, separator: char): (r: Result<string, TaskError>)
    requires separator == '/' || separator == '\\'
    ensures IsBlank(destinationPackage) ==> r == Success("")
    ensures r.Failure? <==> !IsBlank(destinationPackage) && '.' in destinationPackage.value && separator == '\\'
    ensures r.Failure? ==> r.error == IllegalReplacement([separator])
  {
    if IsBlank(destinationPackage) then Success("")
    else if '.' !in destinationPackage.value then Success(destinationPackage.value)
    else
      assert ReplacementText("/") == Some("/") by {
        assert "/"[1..] == [];
        assert ReplacementText([]) == Some([]);
        assert ['/'] + [] == "/";
      }
      match ReplacementText([separator])
      case None => Failure(IllegalReplacement([separator]))
      case Some(t) => Success(ReplaceDots(destinationPackage.value, t))
  }

  /** The package folder as intended: every dot of a non-blank package
      becomes the separator. */
  function PackageFolder(destinationPackage: Option<string>, separator: char): (r: string)
    requires separator == '/' || separator == '\\'
    ensures IsBlank(destinationPackage) ==> r == ""
    ensures !IsBlank(destinationPackage) ==>
      && |r| == |destinationPackage.value|
      && forall k :: 0 <= k < |r| ==>
           r[k] == if destinationPackage.value[k] == '.' then separator else destinationPackage.value[k]
    ensures !IsBlank(destinationPackage) ==> !BlankText(r)
  {
    if IsBlank(destinationPackage) then ""
    else
      var r := ReplaceDots(destinationPackage.value, [separator]);
      assert !BlankText(r) by {
        var k :| 0 <= k < |destinationPackage.value| && !IsWhitespace(destinationPackage.value[k]);
        assert !IsWhitespace(r[k]);
      }
      r
  }

  /** Replacing the dots of a text without one changes nothing. */
  lemma {:induction false} ReplaceDotsNoDot(s: string, text: string)
    requires '.' !in s
    ensures ReplaceDots(s, text) == s
  {
    if s != [] {
      ReplaceDotsNoDot(s[1..], text);
      assert [s[0]] + s[1..] == s;
    }
  }

  /** With a forward slash separator the code as written computes the
      intended folder. */
  lemma PackageFolderSlash(destinationPackage: Option<string>)
    ensures PackageFolderAsWritten(destinationPackage, '/') == Success(PackageFolder(destinationPackage, '/'))
  {
    assert ReplacementText("/") == Some("/") by {
      assert "/"[1..] == [];
      assert ReplacementText([]) == Some([]);
      assert ['/'] + [] == "/";
    }
    if !IsBlank(destinationPackage) && '.' !in destinationPackage.value {
      ReplaceDotsNoDot(destinationPackage.value, "/");
    }
  }

  /** With a backslash separator (Windows) a dotted package makes
      `replaceAll` throw instead of naming a folder. */
  lemma PackageFolderBackslashFails(destinationPackage: Option<string>)
    requires !IsBlank(destinationPackage) && '.' in destinationPackage.value
    ensures PackageFolderAsWritten(destinationPackage, '\\') == Failure(IllegalReplacement("\\"))
  {
  }

  /** The input that shows it: package `com.example` on Windows. */
  lemma PackageFolderWindowsExample()
    ensures PackageFolderAsWritten(Some("com.example"), '\\').Failure?
  {
    assert "com.example"[3] == '.';
    assert !IsWhitespace("com.example"[0]);
    PackageFolderBackslashFails(Some("com.example"));
  }

  /** Where the code as written returns a folder, it is the intended one;
      so the two differ only on the failure `PackageFolderBackslashFails`
      exhibits. */
  lemma PackageFolderAsWrittenAgrees(destinationPackage: Option<string>, separator: char)
    requires separator == '/' || separator == '\\'
    ensures PackageFolderAsWritten(destinationPackage, separator).Success? ==>
              PackageFolderAsWritten(destinationPackage, separator).value == PackageFolder(destinationPackage, separator)
  {
    if separator == '/' {
      PackageFolderSlash(destinationPackage);
    } else if !IsBlank(destinationPackage) && '.' !in destinationPackage.value {
      ReplaceDotsNoDot(destinationPackage.value, [separator]);
    }
  }

  /** `getTargetSourceDirectory` without the creation: the output directory
      itself for a blank package, else the package folder inside it. */
  function TargetDirectory(outputDir: string, destinationPackage: Option<string>, separator: char): (r: string)
    requires separator == '/' || separator == '\\'
    ensures IsBlank(destinationPackage) ==> r == outputDir
    ensures !IsBlank(destinationPackage) ==>
      r == outputDir + [separator] + PackageFolder(destinationPackage, separator)
  {
    var folder := PackageFolder(destinationPackage, separator);
    if !IsBlank(Some(folder)) then outputDir + [separator] + folder else outputDir
  }

  /** `getTargetSourceDirectory`: the target directory, created when it is
      not a directory yet. */
  function TargetSourceDirectory(outputDir: string, destinationPackage: Option<string>, separator: char,
                                 fs: FileSystem): (r: Result<(string, FileSystem), TaskError>)
    requires separator == '/' || separator == '\\'
    ensures var dir := TargetDirectory(outputDir, destinationPackage, separator);
            && (r.Failure? <==> dir !in fs.directories && (Exists(fs, dir) || dir !in fs.creatable))
            && (r.Failure? ==> r.error == CouldNotCreate(dir))
            && (r.Success? ==> r.value.0 == dir && r.value.1.directories == fs.directories + {dir}
                               && r.value.1.files == fs.files)
  {
    var dir := TargetDirectory(outputDir, destinationPackage, separator);
    if dir in fs.directories then Success((dir, fs))
    else
      var (created, fs') := Mkdirs(fs, dir);
      if !created then Failure(CouldNotCreate(dir)) else Success((dir, fs'))
  }

  // ---------------------------------------------------------------------------
  // Generation

  /** What one run writes: the stubs, the proxies and the binding module. */
  datatype Artifact =
    | StubSource(directory: string, stub: StubInterface)
    | ProxySource(directory: string, packageName: string, stubName: string, proxyName: string)
    | GuiceModuleSource(directory: string, packageName: string, bindings: map<string, string>)

  /** `order` lists every type of `classes` once: the iteration order of the
      set of service types. */
  ghost predicate Enumerates(order: seq<JavaClass>, classes: set<JavaClass>)
  {
    |order| == |classes| && forall c :: c in order <==> c in classes
  }

  /** Iterating the set of service types; the same order serves every later
      pass, as the set is not changed between them. */
  method Enumerate(classes: set<JavaClass>) returns (order: seq<JavaClass>)
    ensures Enumerates(order, classes)
  {
    order := [];
    var remaining := classes;
    while remaining != {}
      invariant remaining <= classes
      invariant |order| + |remaining| == |classes|
      invariant forall c :: c in order ==> c in classes && c !in remaining
      invariant forall c :: c in classes && c !in remaining ==> c in order
    {
      var c :| c in remaining;
      order := order + [c];
      remaining := remaining - {c};
    }
  }

  /** The binding of each stub name to its proxy name, whatever the order the
      types are visited in. */
  function StubProxyMap(classes: set<JavaClass>, classSuffix: Option<string>): map<string, string>
  {
    map s | s in (set c | c in classes :: StubClassName(c, classSuffix)) :: s + "Proxy"
  }

  /** The stub names met along an enumeration are those of the whole set. */
  lemma EnumeratedStubNames(order: seq<JavaClass>, classes: set<JavaClass>, classSuffix: Option<string>)
    requires Enumerates(order, classes)
    ensures (set k | 0 <= k < |order| :: StubClassName(order[k], classSuffix))
            == (set c | c in classes :: StubClassName(c, classSuffix))
  {
    var seen := set k | 0 <= k < |order| :: StubClassName(order[k], classSuffix);
    var names := set c | c in classes :: StubClassName(c, classSuffix);
    forall s | s in names
      ensures s in seen
    {
      var c :| c in classes && s == StubClassName(c, classSuffix);
      var k :| 0 <= k < |order| && order[k] == c;
    }
  }

  /** The `stubProxyMap` loop of `generateGuiceModule`. Two types with the
      same simple name put the same key twice, with the same value, so the
      map does not depend on the iteration order. */
  method BindStubsToProxies(order: seq<JavaClass>, classes: set<JavaClass>, classSuffix: Option<string>)
    returns (bindings: map<string, string>)
    requires Enumerates(order, classes)
    ensures bindings == StubProxyMap(classes, classSuffix)
  {
    bindings := map[];
    var i := 0;
    while i < |order|
      invariant i <= |order|
      invariant bindings.Keys == set k | 0 <= k < i :: StubClassName(order[k], classSuffix)
      invariant forall s :: s in bindings ==> bindings[s] == s + "Proxy"
    {
      bindings := bindings[StubClassName(order[i], classSuffix) := ProxyName(order[i], classSuffix)];
      i := i + 1;
    }
    EnumeratedStubNames(order, classes, classSuffix);
  }

  /** `artifact` is the stub source written for `c` into `directory`. */
  ghost predicate StubArtifact(c: JavaClass, artifact: Artifact, directory: string, classSuffix: Option<string>,
                               packageName: string)
  {
    && artifact.StubSource?
    && artifact.directory == directory
    && GeneratedStub(c, artifact.stub, StubClassName(c, classSuffix), packageName)
  }

  /** The proxies written for `order`, in that order. */
  function ProxyArtifacts(order: seq<JavaClass>, directory: string, packageName: string,
                          classSuffix: Option<string>): (r: seq<Artifact>)
    ensures |r| == |order|
    ensures forall k :: 0 <= k < |r| ==> r[k].ProxySource? && r[k].proxyName == r[k].stubName + "Proxy"
  {
    seq(|order|, k requires 0 <= k < |order| =>
      ProxySource(directory, packageName, StubClassName(order[k], classSuffix), ProxyName(order[k], classSuffix)))
  }

  lemma ProxyArtifactsSnoc(order: seq<JavaClass>, i: nat, directory: string, packageName: string,
                           classSuffix: Option<string>)
    requires i < |order|
    ensures ProxyArtifacts(order[..i + 1], directory, packageName, classSuffix)
         == ProxyArtifacts(order[..i], directory, packageName, classSuffix)
            + [ProxySource(directory, packageName, StubClassName(order[i], classSuffix), ProxyName(order[i], classSuffix))]
  {
  }

  /** A type with a stub analyzes. */
  lemma StubArtifactAnalyzes(c: JavaClass, artifact: Artifact, directory: string, classSuffix: Option<string>,
                             packageName: string)
    requires StubArtifact(c, artifact, directory, classSuffix, packageName)
    ensures DoAnalyzeSpec(c).Success?
  {
  }

  /** One pass of the `generateServiceStubs` loop: the stub of `klass`, or
      the failure that stops the run. */
  method GenerateStub(analyzer: RestInterfaceAnalyzer, klass: JavaClass, directory: string,
                      classSuffix: Option<string>, packageName: string)
    returns (g: Result<Artifact, TaskError>)
    requires analyzer.Valid()
    modifies analyzer
    ensures analyzer.Valid()
    ensures g.Failure? <==> DoAnalyzeSpec(klass).Failure?
    ensures g.Failure? ==> g.error == StubGenerationFailed(klass.canonicalName, DoAnalyzeSpec(klass).error)
    ensures g.Success? ==> StubArtifact(klass, g.value, directory, classSuffix, packageName)
  {
    var generated := GenerateStubInterface(analyzer, klass, StubClassName(klass, classSuffix), packageName);
    if generated.Failure? {
      return Failure(StubGenerationFailed(klass.canonicalName, generated.error));
    }
    return Success(StubSource(directory, generated.value));
  }

  /** The loop of `generateServiceStubs`, with a fresh analyzer. */
  method GenerateStubs(order: seq<JavaClass>, directory: string, classSuffix: Option<string>, packageName: string)
    returns (r: Result<seq<Artifact>, TaskError>)
    ensures r.Success? <==> forall k :: 0 <= k < |order| ==> DoAnalyzeSpec(order[k]).Success?
    ensures r.Failure? ==>
      exists k :: && 0 <= k < |order| && DoAnalyzeSpec(order[k]).Failure?
                  && (forall j :: 0 <= j < k ==> DoAnalyzeSpec(order[j]).Success?)
                  && r.error == StubGenerationFailed(order[k].canonicalName, DoAnalyzeSpec(order[k]).error)
    ensures r.Success? ==>
      && |r.value| == |order|
      && forall k :: 0 <= k < |order| ==> StubArtifact(order[k], r.value[k], directory, classSuffix, packageName)
  {
    var analyzer := new RestInterfaceAnalyzer();
    var stubs: seq<Artifact> := [];
    var i := 0;
    while i < |order|
      invariant i <= |order| && |stubs| == i
      invariant analyzer.Valid()
      invariant forall k :: 0 <= k < i ==> StubArtifact(order[k], stubs[k], directory, classSuffix, packageName)
    {
      var generated := GenerateStub(analyzer, order[i], directory, classSuffix, packageName);
      if generated.Failure? {
        forall j | 0 <= j < i
          ensures DoAnalyzeSpec(order[j]).Success?
        {
          StubArtifactAnalyzes(order[j], stubs[j], directory, classSuffix, packageName);
        }
        r := Failure(generated.error);
        assert 0 <= i < |order| && DoAnalyzeSpec(order[i]).Failure?;
        return;
      }
      stubs := stubs + [generated.value];
      i := i + 1;
    }
    forall k | 0 <= k < |order|
      ensures DoAnalyzeSpec(order[k]).Success?
    {
      StubArtifactAnalyzes(order[k], stubs[k], directory, classSuffix, packageName);
    }
    return Success(stubs);
  }

  /** The Ant task with its settings; a setting not given is null. */
  class RestProxyGenerator {
    var classSuffix: Option<string>
    var destinationPackage: Option<string>
    var excludes: Option<string>
    var includes: Option<string>
    var outputDir: Option<string>

    /** Every setting null except the destination package, the default one. */
    constructor ()
      ensures classSuffix.None? && excludes.None? && includes.None? && outputDir.None?
      ensures destinationPackage == Some("")
    {
      classSuffix := None;
      destinationPackage := Some("");
      excludes := None;
      includes := None;
      outputDir := None;
    }

    /** The package the stubs are declared in. */
    function PackageName(): string
      reads this
    {
      if destinationPackage.Some? then destinationPackage.value else ""
    }

    /** `generateServiceStubs`: one stub per type, written under the output
      directory; the first type that is not a REST interface stops the run. */
    method GenerateServiceStubs(order: seq<JavaClass>) returns (r: Result<seq<Artifact>, TaskError>)
      requires outputDir.Some?
      ensures r.Success? <==> forall k :: 0 <= k < |order| ==> DoAnalyzeSpec(order[k]).Success?
      ensures r.Failure? ==>
        exists k :: && 0 <= k < |order| && DoAnalyzeSpec(order[k]).Failure?
                    && (forall j :: 0 <= j < k ==> DoAnalyzeSpec(order[j]).Success?)
                    && r.error == StubGenerationFailed(order[k].canonicalName, DoAnalyzeSpec(order[k]).error)
      ensures r.Success? ==>
        && |r.value| == |order|
        && forall k :: 0 <= k < |order| ==> StubArtifact(order[k], r.value[k], outputDir.value, classSuffix, PackageName())
    {
      r := GenerateStubs(order, outputDir.value, classSuffix, PackageName());
    }

    /** `generateProxyImplementations`: one proxy per type, in the target
      directory, created first when missing. */
    method GenerateProxyImplementations(order: seq<JavaClass>, separator: char, fs: FileSystem)
      returns (r: Result<(seq<Artifact>, FileSystem), TaskError>)
      requires outputDir.Some?
      requires separator == '/' || separator == '\\'
      ensures var target := TargetSourceDirectory(outputDir.value, destinationPackage, separator, fs);
              && (r.Failure? <==> target.Failure?)
              && (r.Failure? ==> r.error == target.error)
              && (r.Success? ==> r.value == (ProxyArtifacts(order, target.value.0, PackageName(), classSuffix),
                                             target.value.1))
    {
      var target := TargetSourceDirectory(outputDir.value, destinationPackage, separator, fs);
      if target.Failure? {
        return Failure(target.error);
      }
      var (directory, fs') := target.value;
      var packageName, suffix := PackageName(), classSuffix;
      var proxies: seq<Artifact> := [];
      var i := 0;
      while i < |order|
        invariant i <= |order|
        invariant proxies == ProxyArtifacts(order[..i], directory, packageName, suffix)
      {
        ProxyArtifactsSnoc(order, i, directory, packageName, suffix);
        proxies := proxies + [ProxySource(directory, packageName, StubClassName(order[i], suffix),
                                          ProxyName(order[i], suffix))];
        i := i + 1;
      }
      assert order[..i] == order;
      return Success((proxies, fs'));
    }

    /** `generateGuiceModule`: the module binding every stub to its proxy, in
      the target directory. */
    method GenerateGuiceModule(order: seq<JavaClass>, classes: set<JavaClass>, separator: char, fs: FileSystem)
      returns (r: Result<(Artifact, FileSystem), TaskError>)
      requires outputDir.Some?
      requires separator == '/' || separator == '\\'
      requires Enumerates(order, classes)
      ensures var target := TargetSourceDirectory(outputDir.value, destinationPackage, separator, fs);
              && (r.Failure? <==> target.Failure?)
              && (r.Failure? ==> r.error == target.error)
              && (r.Success? ==> r.value == (GuiceModuleSource(target.value.0, PackageName(),
                                                               StubProxyMap(classes, classSuffix)),
                                             target.value.1))
    {
      var target := TargetSourceDirectory(outputDir.value, destinationPackage, separator, fs);
      if target.Failure? {
        return Failure(target.error);
      }
      var bindings := BindStubsToProxies(order, classes, classSuffix);
      return Success((GuiceModuleSource(target.value.0, PackageName(), bindings), target.value.1));
    }

    /** `execute`: validate, then the stubs, the proxies and the module, in
      that order, over the selected service types; the first failure ends
      the run. */
    method Execute(scanned: set<JavaClass>, matches: (string, string) -> bool, separator: char, fs: FileSystem)
      returns (r: Result<seq<Artifact>, TaskError>, order: seq<JavaClass>)
      requires separator == '/' || separator == '\\'
      ensures Validate(outputDir, fs).Failure? ==> r == Failure(Validate(outputDir, fs).error)
      ensures var classes := FindServiceClasses(scanned, includes, excludes, matches);
              && (Validate(outputDir, fs).Success? && (exists c :: c in classes && DoAnalyzeSpec(c).Failure?)
                  ==> r.Failure? && r.error.StubGenerationFailed?)
              && (Validate(outputDir, fs).Success? && (forall c :: c in classes ==> DoAnalyzeSpec(c).Success?) ==>
                   var target := TargetSourceDirectory(outputDir.value, destinationPackage, separator, Validate(outputDir, fs).value);
                   && (r.Success? <==> target.Success?)
                   && (r.Failure? ==> r.error == target.error))
              && (r.Success? ==>
                   var n := |classes|;
                   var directory := TargetDirectory(outputDir.value, destinationPackage, separator);
                   && Validate(outputDir, fs).Success?
                   && Enumerates(order, classes)
                   && |r.value| == 2 * n + 1
                   && (forall k :: 0 <= k < n ==>
                         StubArtifact(order[k], r.value[k], outputDir.value, classSuffix, PackageName()))
                   && r.value[n..2 * n] == ProxyArtifacts(order, directory, PackageName(), classSuffix)
                   && r.value[2 * n] == GuiceModuleSource(directory, PackageName(), StubProxyMap(classes, classSuffix)))
    {
      order := [];
      var validated := Validate(outputDir, fs);
      if validated.Failure? {
        return Failure(validated.error), order;
      }
      var classes := FindServiceClasses(scanned, includes, excludes, matches);
      order := Enumerate(classes);
      var stubs := GenerateServiceStubs(order);
      if stubs.Failure? {
        return Failure(stubs.error), order;
      }
      var proxies := GenerateProxyImplementations(order, separator, validated.value);
      if proxies.Failure? {
        return Failure(proxies.error), order;
      }
      // the target directory exists now, so the second lookup cannot fail
      var guice := GenerateGuiceModule(order, classes, separator, proxies.value.1);
      assert guice.Success?;
      r := Success(stubs.value + proxies.value.0 + [guice.value.0]);
      assert r.value[|order|..2 * |order|] == proxies.value.0;
    }
  }
}

=== FILE: stub_generator.dfy ===
/** `ServiceStubGenerator`: the client-side stub interface written for a REST
    service type. The generated Java source is modelled as a declaration
    record (`StubInterface`); the JAX-RS annotations on it are the model's
    `Annotation` and `ParamAnnotation` values, so that the compiled stub can be
    read back by the analyzer. */
module StubGenerator {
  import opened Common
  import opened LinkedMap
  import opened Metadata
  import opened Analyzer

  // ---------------------------------------------------------------------------
  // Decimal numerals, for the `"arg" + i` parameter names

  function Digit(d: nat): char
    requires d < 10
  {
    (48 + d) as char
  }

  /** `Integer.toString` on a non-negative index. */
  function NatToString(n: nat): (s: string)
    ensures |s| >= 1
    ensures forall k :: 0 <= k < |s| ==> '0' <= s[k] <= '9'
  {
    if n < 10 then [Digit(n)] else NatToString(n / 10) + [Digit(n % 10)]
  }

  /** The value of a numeral, read most significant digit first. */
  function DecimalValue(s: string): int
  {
    if s == [] then 0 else DecimalValue(s[..|s| - 1]) * 10 + (s[|s| - 1] as int - 48)
  }

  /** Reading a numeral back gives the index it was written from. */
  lemma {:induction false} DecimalRoundTrip(n: nat)
    ensures DecimalValue(NatToString(n)) == n
  {
    if n >= 10 {
      var s := NatToString(n / 10);
      assert (s + [Digit(n % 10)])[..|s|] == s;
      DecimalRoundTrip(n / 10);
    }
  }

  /** The name the stub gives parameter `i`: the real names are not known. */
  function ArgName(i: nat): string
  {
    "arg" + NatToString(i)
  }

  /** Different parameters get different names. */
  lemma ArgNamesDistinct(i: nat, j: nat)
    requires i != j
    ensures ArgName(i) != ArgName(j)
  {
    if ArgName(i) == ArgName(j) {
      assert ArgName(i)[3..] == NatToString(i);
      assert ArgName(j)[3..] == NatToString(j);
      DecimalRoundTrip(i);
      DecimalRoundTrip(j);
    }
  }

  // ---------------------------------------------------------------------------
  // String.compareTo, the sort key of the stub's methods

  /** `a.compareTo(b) <= 0`: lexicographic order, a proper prefix first. */
  predicate StrLe(a: string, b: string)
  {
    if a == [] then true
    else if b == [] then false
    else if a[0] != b[0] then a[0] < b[0]
    else StrLe(a[1..], b[1..])
  }

  lemma {:induction false} StrLeTotal(a: string, b: string)
    ensures StrLe(a, b) || StrLe(b, a)
  {
    if a != [] && b != [] && a[0] == b[0] {
      StrLeTotal(a[1..], b[1..]);
    }
  }

  lemma {:induction false} StrLeTransitive(a: string, b: string, c: string)
    requires StrLe(a, b) && StrLe(b, c)
    ensures StrLe(a, c)
  {
    if a != [] && b != [] && c != [] && a[0] == b[0] && b[0] == c[0] {
      StrLeTransitive(a[1..], b[1..], c[1..]);
    }
  }

  lemma {:induction false} StrLeAntisymmetric(a: string, b: string)
    requires StrLe(a, b) && StrLe(b, a)
    ensures a == b
  {
    if a != [] && b != [] {
      StrLeAntisymmetric(a[1..], b[1..]);
      assert a == [a[0]] + a[1..];
      assert b == [b[0]] + b[1..];
    }
  }

  // ---------------------------------------------------------------------------
  // Annotations copied onto the stub

  const PathParamType := "javax.ws.rs.PathParam"
  const MatrixParamType := "javax.ws.rs.MatrixParam"
  const QueryParamType := "javax.ws.rs.QueryParam"
  const HeaderParamType := "javax.ws.rs.HeaderParam"
  const CookieParamType := "javax.ws.rs.CookieParam"
  const FormParamType := "javax.ws.rs.FormParam"
  const FormDataParamType := "org.glassfish.jersey.media.multipart.FormDataParam"

  /** An annotation as written on a stub parameter: its type, and its `value`
      member when one was copied. */
  datatype AnnotationUse = AnnotationUse(typeName: string, value: Option<string>)

  function AnnotationType(a: ParamAnnotation): string
  {
    match a
    case PathParam(_) => PathParamType
    case MatrixParam(_) => MatrixParamType
    case QueryParam(_) => QueryParamType
    case HeaderParam(_) => HeaderParamType
    case CookieParam(_) => CookieParamType
    case FormParam(_) => FormParamType
    case FormDataParam(_) => FormDataParamType
    case OtherParam(t, _) => t
  }

  /** `getValue`: the annotation's `value` member, or null when it has none. */
  function GetValue(a: ParamAnnotation): Option<string>
  {
    if a.OtherParam? then a.value else Some(a.name)
  }

  /** The stub's copy of a parameter annotation: its type, with `value` set
      when `getValue` found one. */
  function CopyAnnotation(a: ParamAnnotation): AnnotationUse
  {
    AnnotationUse(AnnotationType(a), GetValue(a))
  }

  /** How reflection on the compiled stub reports an annotation use. */
  function ReadAnnotation(u: AnnotationUse): ParamAnnotation
  {
    if u.value.None? then OtherParam(u.typeName, None)
    else if u.typeName == PathParamType then PathParam(u.value.value)
    else if u.typeName == MatrixParamType then MatrixParam(u.value.value)
    else if u.typeName == QueryParamType then QueryParam(u.value.value)
    else if u.typeName == HeaderParamType then HeaderParam(u.value.value)
    else if u.typeName == CookieParamType then CookieParam(u.value.value)
    else if u.typeName == FormParamType then FormParam(u.value.value)
    else if u.typeName == FormDataParamType then FormDataParam(u.value.value)
    else OtherParam(u.typeName, u.value)
  }

  /** An annotation the model can tell apart: a non-JAX-RS annotation does not
      carry the name of a JAX-RS one. */
  predicate Distinguishable(a: ParamAnnotation)
  {
    a.OtherParam? ==>
      a.typeName !in {PathParamType, MatrixParamType, QueryParamType, HeaderParamType,
                      CookieParamType, FormParamType, FormDataParamType}
  }

  /** Copying preserves every annotation: the stub's parameter reads back as
      the original one. */
  lemma CopyAnnotationRoundTrip(a: ParamAnnotation)
    requires Distinguishable(a)
    ensures ReadAnnotation(CopyAnnotation(a)) == a
  {
  }

  function CopyAnnotations(anns: seq<ParamAnnotation>): (us: seq<AnnotationUse>)
    ensures |us| == |anns|
    ensures forall k :: 0 <= k < |anns| ==> us[k] == CopyAnnotation(anns[k])
  {
    seq(|anns|, k requires 0 <= k < |anns| => CopyAnnotation(anns[k]))
  }

  function ReadAnnotations(us: seq<AnnotationUse>): (anns: seq<ParamAnnotation>)
    ensures |anns| == |us|
    ensures forall k :: 0 <= k < |us| ==> anns[k] == ReadAnnotation(us[k])
  {
    seq(|us|, k requires 0 <= k < |us| => ReadAnnotation(us[k]))
  }

  /** `addSingleValueAnnotation` with `@Path`: only a non-blank path is written. */
  function PathAnnotationIf(path: Option<string>): seq<Annotation>
  {
    if !IsBlank(path) then [PathAnnotation(path.value)] else []
  }

  /** `addListAnnotation` with `@Produces` or `@Consumes`: only a non-empty
      list is written, its values in order. */
  function ListAnnotationIf(produced: bool, values: seq<string>): seq<Annotation>
  {
    if values == [] then []
    else if produced then [ProducesAnnotation(values)]
    else [ConsumesAnnotation(values)]
  }

  // ---------------------------------------------------------------------------
  // The stub declaration

  datatype StubParam = StubParam(name: string, paramType: string, annotations: seq<AnnotationUse>)

  /** A stub method: `signature` is the generic signature of the method it
      was written from. */
  datatype StubMethod = StubMethod(
    name: string,
    signature: string,
    returnType: string,
    exceptionTypes: seq<string>,
    annotations: seq<Annotation>,
    params: seq<StubParam>)

  datatype StubInterface = StubInterface(
    packageName: string,
    name: string,
    doc: string,
    annotations: seq<Annotation>,
    methods: seq<StubMethod>)

  /** Parameter `i` of the stub method written for `m`: named `arg<i>`, with
      the descriptor's annotations of that parameter when it has any. */
  function StubParamOf(m: JavaMethod, d: RestMethodMetadata, i: nat): StubParam
    requires i < |m.parameterTypes|
  {
    StubParam(ArgName(i), m.parameterTypes[i],
              if i < |d.parameterAnnotations| then CopyAnnotations(d.parameterAnnotations[i]) else [])
  }

  /** The method's own annotations, in the order `addMethod` writes them:
      `@Path`, `@Produces`, `@Consumes`, the verb. */
  function MethodAnnotations(d: RestMethodMetadata): seq<Annotation>
  {
    PathAnnotationIf(d.path) + ListAnnotationIf(true, d.produced) + ListAnnotationIf(false, d.consumed)
    + [VerbAnnotation(d.httpMethod)]
  }

  /** `addMethod`: exceptions, then the method annotations, then one
      parameter per parameter of the method. */
  function StubMethodSpec(m: JavaMethod, d: RestMethodMetadata): StubMethod
  {
    StubMethod(m.name, m.genericString, m.returnType, m.exceptionTypes,
               MethodAnnotations(d),
               seq(|m.parameterTypes|, i requires 0 <= i < |m.parameterTypes| => StubParamOf(m, d, i)))
  }

  /** The stub methods for the sorted method entries. */
  function StubMethods(entries: seq<(JavaMethod, RestMethodMetadata)>): (ms: seq<StubMethod>)
    ensures |ms| == |entries|
    ensures forall k :: 0 <= k < |entries| ==> ms[k] == StubMethodSpec(entries[k].0, entries[k].1)
  {
    seq(|entries|, k requires 0 <= k < |entries| => StubMethodSpec(entries[k].0, entries[k].1))
  }

  /** The interface's own annotations: `@Path`, `@Consumes`, `@Produces`. */
  function InterfaceAnnotations(d: RestInterfaceMetadata): seq<Annotation>
  {
    PathAnnotationIf(d.path) + ListAnnotationIf(false, d.consumed) + ListAnnotationIf(true, d.produced)
  }

  function StubDoc(canonicalName: string): string
  {
    "Client side stub interface for {@link " + canonicalName + "}."
  }

  function StubInterfaceOf(serviceClass: JavaClass, d: RestInterfaceMetadata, entries: seq<(JavaMethod, RestMethodMetadata)>,
                           name: string, packageName: string): StubInterface
  {
    StubInterface(packageName, name, StubDoc(serviceClass.canonicalName), InterfaceAnnotations(d), StubMethods(entries))
  }

  // ---------------------------------------------------------------------------
  // The sort of the method entries

  function Signature(e: (JavaMethod, RestMethodMetadata)): string
  {
    e.0.genericString
  }

  predicate SortedBySignature(es: seq<(JavaMethod, RestMethodMetadata)>)
  {
    forall k, l :: 0 <= k < l < |es| ==> StrLe(Signature(es[k]), Signature(es[l]))
  }

  /** `Collections.sort` with the comparator on `toGenericString()`. */
  method SortBySignature(a: array<(JavaMethod, RestMethodMetadata)>)
    modifies a
    ensures SortedBySignature(a[..])
    ensures multiset(a[..]) == multiset(old(a[..]))
  {
    if a.Length == 0 {
      return;
    }
    var i := 1;
    while i < a.Length
      invariant 1 <= i <= a.Length
      invariant SortedBySignature(a[..i])
      invariant multiset(a[..]) == multiset(old(a[..]))
    {
      InsertLast(a, i);
      i := i + 1;
    }
    assert a[..a.Length] == a[..];
  }

  /** While `a[i]` moves left it sits at `j`: the other entries up to `i`
      are in order, and everything after `j` is at least `a[j]`. */
  ghost predicate Inserting(s: seq<(JavaMethod, RestMethodMetadata)>, j: nat, i: nat)
    requires j <= i < |s|
  {
    && (forall k, l :: 0 <= k < l <= i && k != j && l != j ==> StrLe(Signature(s[k]), Signature(s[l])))
    && (forall l :: j < l <= i ==> StrLe(Signature(s[j]), Signature(s[l])))
  }

  /** Swapping `s[j]` with a greater left neighbour keeps `Inserting`. */
  lemma InsertingStep(s: seq<(JavaMethod, RestMethodMetadata)>, j: nat, i: nat)
    requires 0 < j <= i < |s| && Inserting(s, j, i)
    requires !StrLe(Signature(s[j - 1]), Signature(s[j]))
    ensures Inserting(s[j - 1 := s[j]][j := s[j - 1]], j - 1, i)
    ensures multiset(s[j - 1 := s[j]][j := s[j - 1]]) == multiset(s)
  {
    var t := s[j - 1 := s[j]][j := s[j - 1]];
    StrLeTotal(Signature(s[j - 1]), Signature(s[j]));
    forall l | j - 1 < l <= i
      ensures StrLe(Signature(t[j - 1]), Signature(t[l]))
    {
      if l > j {
        StrLeTransitive(Signature(s[j]), Signature(s[j - 1]), Signature(s[l]));
      }
    }
  }

  /** Once the left neighbour is not greater, the prefix up to `i` is sorted. */
  lemma InsertingDone(s: seq<(JavaMethod, RestMethodMetadata)>, j: nat, i: nat)
    requires j <= i < |s| && Inserting(s, j, i)
    requires j > 0 ==> StrLe(Signature(s[j - 1]), Signature(s[j]))
    ensures SortedBySignature(s[..i + 1])
  {
    forall k, l | 0 <= k < l <= i
      ensures StrLe(Signature(s[k]), Signature(s[l]))
    {
      if l == j && k < j - 1 {
        StrLeTransitive(Signature(s[k]), Signature(s[j - 1]), Signature(s[j]));
      }
    }
  }

  /** One pass of the insertion: `a[i]` moves left past every greater entry. */
  method InsertLast(a: array<(JavaMethod, RestMethodMetadata)>, i: nat)
    requires i < a.Length
    requires SortedBySignature(a[..i])
    modifies a
    ensures SortedBySignature(a[..i + 1])
    ensures multiset(a[..]) == multiset(old(a[..]))
  {
    var j := i;
    while j > 0 && !StrLe(Signature(a[j - 1]), Signature(a[j]))
      invariant 0 <= j <= i
      invariant multiset(a[..]) == multiset(old(a[..]))
      invariant Inserting(a[..], j, i)
    {
      InsertingStep(a[..], j, i);
      a[j - 1], a[j] := a[j], a[j - 1];
      j := j - 1;
    }
    InsertingDone(a[..], j, i);
  }

  // ---------------------------------------------------------------------------
  // generateStubInterface

  /** `addMethod`: the stub method written for `m` with descriptor `d`. */
  method AddMethod(m: JavaMethod, d: RestMethodMetadata) returns (s: StubMethod)
    ensures s == StubMethodSpec(m, d)
  {
    var throws: seq<string> := [];
    var k := 0;
    while k < |m.exceptionTypes|
      invariant k <= |m.exceptionTypes|
      invariant throws == m.exceptionTypes[..k]
    {
      throws := throws + [m.exceptionTypes[k]];
      k := k + 1;
    }
    assert m.exceptionTypes[..k] == m.exceptionTypes;
    var annotations := PathAnnotationIf(d.path) + ListAnnotationIf(true, d.produced) + ListAnnotationIf(false, d.consumed);
    annotations := annotations + [VerbAnnotation(d.httpMethod)];
    var params: seq<StubParam> := [];
    var i := 0;
    while i < |m.parameterTypes|
      invariant i <= |m.parameterTypes|
      invariant |params| == i
      invariant forall p :: 0 <= p < i ==> params[p] == StubParamOf(m, d, p)
    {
      var uses: seq<AnnotationUse> := [];
      if i < |d.parameterAnnotations| {
        var anns := d.parameterAnnotations[i];
        var j := 0;
        while j < |anns|
          invariant j <= |anns|
          invariant uses == CopyAnnotations(anns[..j])
        {
          uses := uses + [AnnotationUse(AnnotationType(anns[j]), GetValue(anns[j]))];
          j := j + 1;
        }
        assert anns[..j] == anns;
      }
      params := params + [StubParam(ArgName(i), m.parameterTypes[i], uses)];
      i := i + 1;
    }
    s := StubMethod(m.name, m.genericString, m.returnType, throws, annotations, params);
  }

  /** `stub` is the stub generated for `serviceClass`: its descriptor entries
      in some signature order, under the given name and package. */
  ghost predicate GeneratedStub(serviceClass: JavaClass, stub: StubInterface, name: string, packageName: string)
  {
    && DoAnalyzeSpec(serviceClass).Success?
    && exists entries :: && SortedBySignature(entries)
                         && multiset(entries) == multiset(DoAnalyzeSpec(serviceClass).value.methodMetaData)
                         && stub == StubInterfaceOf(serviceClass, DoAnalyzeSpec(serviceClass).value, entries,
                                                    name, packageName)
  }

  /** `generateStubInterface`: the service type is analyzed first, so a type
      that is not a REST interface fails as the analyzer fails; otherwise the
      stub carries the interface annotations and one method per descriptor
      entry, in signature order. */
  method GenerateStubInterface(analyzer: RestInterfaceAnalyzer, serviceClass: JavaClass,
                               destinationInterfaceName: string, destinationPackage: string)
    returns (r: Result<StubInterface, AnalysisError>)
    requires analyzer.Valid()
    modifies analyzer
    ensures analyzer.Valid()
    ensures r.Failure? <==> DoAnalyzeSpec(serviceClass).Failure?
    ensures r.Failure? ==> r.error == DoAnalyzeSpec(serviceClass).error
    ensures r.Success? ==> GeneratedStub(serviceClass, r.value, destinationInterfaceName, destinationPackage)
  {
    var analyzed := analyzer.Analyze(serviceClass);
    if analyzed.Failure? {
      return Failure(analyzed.error);
    }
    var metaData := analyzed.value;
    var annotations := PathAnnotationIf(metaData.path) + ListAnnotationIf(false, metaData.consumed)
                       + ListAnnotationIf(true, metaData.produced);
    var mm := metaData.methodMetaData;
    var methodEntries := new (JavaMethod, RestMethodMetadata)[|mm|](k requires 0 <= k < |mm| => mm[k]);
    assert methodEntries[..] == mm;
    SortBySignature(methodEntries);
    ghost var sorted := methodEntries[..];
    var methods: seq<StubMethod> := [];
    var i := 0;
    while i < methodEntries.Length
      invariant i <= methodEntries.Length
      invariant methods == StubMethods(methodEntries[..i])
      invariant analyzer.Valid()
      invariant methodEntries[..] == sorted
    {
      var s := AddMethod(methodEntries[i].0, methodEntries[i].1);
      methods := methods + [s];
      i := i + 1;
    }
    assert methodEntries[..i] == methodEntries[..];
    r := Success(StubInterface(destinationPackage, destinationInterfaceName, StubDoc(serviceClass.canonicalName),
                               annotations, methods));
    assert r.value == StubInterfaceOf(serviceClass, metaData, methodEntries[..], destinationInterfaceName, destinationPackage);
  }

  // ---------------------------------------------------------------------------
  // Analyzing the compiled stub

  function QualifiedName(packageName: string, name: string): string
  {
    if packageName == "" then name else packageName + "." + name
  }

  /** What reflection reports about a compiled stub method: an interface
      method is public; its annotations are the ones written on it. */
  function CompiledMethod(s: StubMethod): JavaMethod
  {
    JavaMethod(s.name, s.signature, true, s.returnType, s.annotations,
               seq(|s.params|, k requires 0 <= k < |s.params| => s.params[k].paramType),
               seq(|s.params|, k requires 0 <= k < |s.params| => ReadAnnotations(s.params[k].annotations)),
               s.exceptionTypes)
  }

  function CompiledStub(stub: StubInterface): JavaClass
  {
    JavaClass(QualifiedName(stub.packageName, stub.name), stub.name, QualifiedName(stub.packageName, stub.name),
              stub.annotations, seq(|stub.methods|, k requires 0 <= k < |stub.methods| => CompiledMethod(stub.methods[k])))
  }

  /** A method as reflection reports it: one annotation list per parameter,
      and no foreign annotation under a JAX-RS name. */
  predicate WellFormedMethod(m: JavaMethod)
  {
    && |m.parameterAnnotations| == |m.parameterTypes|
    && forall i, j :: 0 <= i < |m.parameterAnnotations| && 0 <= j < |m.parameterAnnotations[i]| ==>
         Distinguishable(m.parameterAnnotations[i][j])
  }

  /** The descriptor the stub of a method analyzes to: a blank path is not
      written, so it comes back as the empty path. */
  function NormalMethod(d: RestMethodMetadata): RestMethodMetadata
  {
    d.(path := Some(if IsBlank(d.path) then "" else d.path.value))
  }

  lemma {:induction false} DeclaredMediaTypesConcat(a: seq<Annotation>, b: seq<Annotation>, produced: bool)
    ensures DeclaredMediaTypes(a + b, produced) == DeclaredMediaTypes(a, produced) + DeclaredMediaTypes(b, produced)
  {
    if a == [] {
      assert a + b == b;
    } else {
      assert (a + b)[1..] == a[1..] + b;
      assert (a + b)[0] == a[0];
      DeclaredMediaTypesConcat(a[1..], b, produced);
    }
  }

  /** Annotations that are neither `@Path` nor a verb. */
  predicate MediaOnly(anns: seq<Annotation>)
  {
    forall j :: 0 <= j < |anns| ==> !anns[j].PathAnnotation? && !anns[j].VerbAnnotation?
  }

  /** A written `@Produces`/`@Consumes` list declares exactly its values. */
  lemma ListAnnotationShape(produced: bool, values: seq<string>)
    ensures MediaOnly(ListAnnotationIf(produced, values))
    ensures DeclaredMediaTypes(ListAnnotationIf(produced, values), produced) == values
    ensures DeclaredMediaTypes(ListAnnotationIf(produced, values), !produced) == []
  {
    var l := ListAnnotationIf(produced, values);
    if values != [] {
      assert l[1..] == [];
    }
  }

  /** The media part of the stub's annotations, in either order. */
  lemma MediaPartShape(first: bool, a: seq<string>, b: seq<string>)
    ensures var m := ListAnnotationIf(first, a) + ListAnnotationIf(!first, b);
            && MediaOnly(m)
            && DeclaredMediaTypes(m, first) == a
            && DeclaredMediaTypes(m, !first) == b
  {
    var x := ListAnnotationIf(first, a);
    var y := ListAnnotationIf(!first, b);
    ListAnnotationShape(first, a);
    ListAnnotationShape(!first, b);
    assert !!first == first;
    DeclaredMediaTypesConcat(x, y, first);
    DeclaredMediaTypesConcat(x, y, !first);
    forall j | 0 <= j < |x + y|
      ensures !(x + y)[j].PathAnnotation? && !(x + y)[j].VerbAnnotation?
    {
      if j >= |x| {
        assert (x + y)[j] == y[j - |x|];
      }
    }
  }

  /** A written `@Path` declares no media types. */
  lemma PathAnnotationShape(path: Option<string>)
    ensures forall j :: 0 <= j < |PathAnnotationIf(path)| ==> PathAnnotationIf(path)[j] == PathAnnotation(path.value)
    ensures DeclaredMediaTypes(PathAnnotationIf(path), true) == []
    ensures DeclaredMediaTypes(PathAnnotationIf(path), false) == []
  {
    if !IsBlank(path) {
      assert PathAnnotationIf(path)[1..] == [];
    }
  }

  /** The `@Path` written on a stub method, if any, is its last one. */
  lemma MethodPathRoundTrip(d: RestMethodMetadata)
    ensures var anns := MethodAnnotations(d);
            ScanMethod(anns, |anns|).path == NormalMethod(d).path.value
  {
    var pathPart := PathAnnotationIf(d.path);
    var mediaPart := ListAnnotationIf(true, d.produced) + ListAnnotationIf(false, d.consumed);
    var anns := pathPart + mediaPart + [VerbAnnotation(d.httpMethod)];
    assert MethodAnnotations(d) == anns;
    var n := |anns|;
    PathAnnotationShape(d.path);
    MediaPartShape(true, d.produced, d.consumed);
    forall j | |pathPart| <= j < n
      ensures !anns[j].PathAnnotation?
    {
      if j < n - 1 {
        assert anns[j] == mediaPart[j - |pathPart|];
      }
    }
    if !IsBlank(d.path) {
      assert anns[0] == PathAnnotation(d.path.value);
      ScanMethodLastPath(anns, n, 0);
    } else {
      ScanMethodNoPath(anns, n);
    }
  }

  /** The media types written on a stub method are exactly the descriptor's. */
  lemma MethodMediaTypesRoundTrip(d: RestMethodMetadata)
    ensures var anns := MethodAnnotations(d);
            && ScanMethod(anns, |anns|).produced == d.produced
            && ScanMethod(anns, |anns|).consumed == d.consumed
  {
    var pathPart := PathAnnotationIf(d.path);
    var mediaPart := ListAnnotationIf(true, d.produced) + ListAnnotationIf(false, d.consumed);
    var verbPart := [VerbAnnotation(d.httpMethod)];
    var anns := pathPart + mediaPart + verbPart;
    assert MethodAnnotations(d) == anns;
    var n := |anns|;
    PathAnnotationShape(d.path);
    MediaPartShape(true, d.produced, d.consumed);
    ScanMethodMediaTypes(anns, n);
    assert anns[..n] == anns;
    MediaTypesOfParts(pathPart, mediaPart, verbPart);
  }

  /** The annotations written on a stub method are read back as the
      descriptor's path (normalised), verb and media types. */
  lemma MethodAnnotationsRoundTrip(d: RestMethodMetadata)
    ensures var anns := MethodAnnotations(d);
            ScanMethod(anns, |anns|) == MethodScan(NormalMethod(d).path.value, Some(d.httpMethod), d.produced, d.consumed)
  {
    var anns := MethodAnnotations(d);
    var n := |anns|;
    assert anns[n - 1] == VerbAnnotation(d.httpMethod);
    ScanMethodLastVerb(anns, n, n - 1);
    MethodPathRoundTrip(d);
    MethodMediaTypesRoundTrip(d);
  }

  lemma MediaTypesOfParts(a: seq<Annotation>, b: seq<Annotation>, c: seq<Annotation>)
    requires DeclaredMediaTypes(a, true) == [] && DeclaredMediaTypes(a, false) == []
    requires DeclaredMediaTypes(c, true) == [] && DeclaredMediaTypes(c, false) == []
    ensures DeclaredMediaTypes(a + b + c, true) == DeclaredMediaTypes(b, true)
    ensures DeclaredMediaTypes(a + b + c, false) == DeclaredMediaTypes(b, false)
  {
    DeclaredMediaTypesConcat(a + b, c, true);
    DeclaredMediaTypesConcat(a + b, c, false);
    DeclaredMediaTypesConcat(a, b, true);
    DeclaredMediaTypesConcat(a, b, false);
  }

  /** The stub method of a descriptor entry keeps the method's name,
      parameter types and declared exceptions, and analyzes to the same verb,
      media types and parameter annotations, with the path normalised. */
  lemma StubMethodRoundTrip(m: JavaMethod, d: RestMethodMetadata)
    requires |d.parameterAnnotations| == |m.parameterTypes|
    requires forall i, j :: 0 <= i < |d.parameterAnnotations| && 0 <= j < |d.parameterAnnotations[i]| ==>
               Distinguishable(d.parameterAnnotations[i][j])
    ensures var c := CompiledMethod(StubMethodSpec(m, d));
            && c.name == m.name && c.isPublic
            && c.parameterTypes == m.parameterTypes && c.exceptionTypes == m.exceptionTypes
            && AnalyzeMethodSpec(c) == Some(NormalMethod(d))
  {
    var s := StubMethodSpec(m, d);
    var c := CompiledMethod(s);
    MethodAnnotationsRoundTrip(d);
    forall i | 0 <= i < |d.parameterAnnotations|
      ensures c.parameterAnnotations[i] == d.parameterAnnotations[i]
    {
      forall j | 0 <= j < |d.parameterAnnotations[i]|
        ensures c.parameterAnnotations[i][j] == d.parameterAnnotations[i][j]
      {
        CopyAnnotationRoundTrip(d.parameterAnnotations[i][j]);
      }
    }
    assert c.parameterAnnotations == d.parameterAnnotations;
    assert c.parameterTypes == m.parameterTypes;
  }

  /** The `@Path` written on the stub interface, if any, is its only one. */
  lemma InterfacePathRoundTrip(d: RestInterfaceMetadata)
    ensures var anns := InterfaceAnnotations(d);
            ScanClass(anns, |anns|).path == if IsBlank(d.path) then None else d.path
  {
    var pathPart := PathAnnotationIf(d.path);
    var mediaPart := ListAnnotationIf(false, d.consumed) + ListAnnotationIf(true, d.produced);
    var anns := pathPart + mediaPart;
    assert InterfaceAnnotations(d) == anns;
    var n := |anns|;
    PathAnnotationShape(d.path);
    MediaPartShape(false, d.consumed, d.produced);
    forall j | |pathPart| <= j < n
      ensures !anns[j].PathAnnotation?
    {
      assert anns[j] == mediaPart[j - |pathPart|];
    }
    if !IsBlank(d.path) {
      assert anns[0] == PathAnnotation(d.path.value);
      ScanClassLastPath(anns, n, 0);
    } else {
      ScanClassNoPath(anns, n);
    }
  }

  /** The interface annotations of the stub are read back as the service's
      media types, and its path unless that is blank. */
  lemma InterfaceAnnotationsRoundTrip(d: RestInterfaceMetadata)
    ensures var anns := InterfaceAnnotations(d);
            ScanClass(anns, |anns|) == ClassScan(if IsBlank(d.path) then None else d.path, d.produced, d.consumed)
  {
    var pathPart := PathAnnotationIf(d.path);
    var mediaPart := ListAnnotationIf(false, d.consumed) + ListAnnotationIf(true, d.produced);
    var anns := pathPart + mediaPart;
    assert InterfaceAnnotations(d) == anns;
    var n := |anns|;
    InterfacePathRoundTrip(d);
    PathAnnotationShape(d.path);
    MediaPartShape(false, d.consumed, d.produced);
    ScanClassMediaTypes(anns, n);
    assert anns[..n] == anns;
    DeclaredMediaTypesConcat(pathPart, mediaPart, true);
    DeclaredMediaTypesConcat(pathPart, mediaPart, false);
  }

  /** Each entry of a service's descriptor yields a stub method that
      qualifies, with the entry's descriptor up to the normalised path. */
  lemma StubEntryRoundTrip(serviceClass: JavaClass, e: (JavaMethod, RestMethodMetadata))
    requires DoAnalyzeSpec(serviceClass).Success?
    requires forall k :: 0 <= k < |serviceClass.methods| ==> WellFormedMethod(serviceClass.methods[k])
    requires e in DoAnalyzeSpec(serviceClass).value.methodMetaData
    ensures Qualifies(CompiledMethod(StubMethodSpec(e.0, e.1)))
    ensures AnalyzeMethodSpec(CompiledMethod(StubMethodSpec(e.0, e.1))) == Some(NormalMethod(e.1))
  {
    assert serviceClass.methods[..|serviceClass.methods|] == serviceClass.methods;
    MethodMapMembers(serviceClass.methods, |serviceClass.methods|, e);
    AnalyzeMethodMeaning(e.0);
    StubMethodRoundTrip(e.0, e.1);
  }

  /** The generated stub preserves the service's JAX-RS annotations: the
      compiled stub is a REST interface whose descriptor has the service's
      media types, its path when that is not blank, and for each service
      method the stub method's descriptor, equal to the service method's up
      to the normalised path. */
  lemma StubRoundTrip(serviceClass: JavaClass, entries: seq<(JavaMethod, RestMethodMetadata)>, name: string, packageName: string)
    requires DoAnalyzeSpec(serviceClass).Success?
    requires forall k :: 0 <= k < |serviceClass.methods| ==> WellFormedMethod(serviceClass.methods[k])
    requires multiset(entries) == multiset(DoAnalyzeSpec(serviceClass).value.methodMetaData)
    ensures var d := DoAnalyzeSpec(serviceClass).value;
            var a := DoAnalyzeSpec(CompiledStub(StubInterfaceOf(serviceClass, d, entries, name, packageName)));
            && a.Success?
            && a.value.path == (if IsBlank(d.path) then None else d.path)
            && a.value.produced == d.produced && a.value.consumed == d.consumed
            && forall k :: 0 <= k < |entries| ==>
                 Get(a.value.methodMetaData, CompiledMethod(StubMethodSpec(entries[k].0, entries[k].1)))
                 == Some(NormalMethod(entries[k].1))
  {
    var d := DoAnalyzeSpec(serviceClass).value;
    var c := CompiledStub(StubInterfaceOf(serviceClass, d, entries, name, packageName));
    forall k | 0 <= k < |entries|
      ensures c.methods[k] == CompiledMethod(StubMethodSpec(entries[k].0, entries[k].1))
      ensures Qualifies(c.methods[k]) && AnalyzeMethodSpec(c.methods[k]) == Some(NormalMethod(entries[k].1))
    {
      assert entries[k] in multiset(d.methodMetaData);
      StubEntryRoundTrip(serviceClass, entries[k]);
    }
    assert |entries| > 0 by {
      assert |multiset(entries)| == |multiset(d.methodMetaData)|;
    }
    assert Qualifies(c.methods[0]);
    DoAnalyzeMeaning(c);
    InterfaceAnnotationsRoundTrip(d);
    assert c.annotations == InterfaceAnnotations(d);
  }
}
